=== FILE: README.md ===
# gstar trees, Neighbor-Joining and Newick, in Dafny

This project models the tree core of gstar, a tool that builds species trees from gene
trees by averaging their leaf-to-leaf distance matrices and rebuilding one tree with
Neighbor-Joining. The project covers three source files:

- **`src/tree.cpp`: the packed tree `tree_t`.** All nodes live in one array, with the
  children of a node in later slots, and the list of top ("unroot") nodes comes with it.
  This part covers:
  - repacking (`make_flat_tree`, the two constructors);
  - the surgery that unroots a tree (`make_unrooted`) and reroots it on an outgroup
    (`set_root`, `set_outgroup`, `swap_parent`, `node_factory`);
  - the queries: node counts, depth, `to_string`, leaf-to-leaf distances and the
    distance matrix;
  - the weight setters;
  - the canonical `sort`.
- **`src/nj.cpp`: the Neighbor-Joining class `nj_t`.** This covers the r vector, the Q
  matrix, picking the least pair, joining it and shrinking the matrix, the final
  three-way join, and packing the result.
- **`src/newick.cpp`: the Newick reader.** A stack-based scanner builds a pointer tree
  (`ptr_node_t`), and `convert_to_packed_tree` lays it out in an array.

Pointers are array indices. A node is `Nodes.Node(name, weight, children, left, right,
parent)` with `Option<nat>` links.

**Pointer forests as arenas.** The scattered pointer forest that the surgery and the
joining work on is a `seq<Node>` arena. `Nodes.HeapTree` states what those code paths
rely on:
- every node is shaped;
- every node has at most one holder;
- the roots are distinct and held by nobody.

**The packed array.** `Nodes.Packed` and `Nodes.TopList` are the invariant of the packed
array:
- children sit in later slots;
- parent links agree with child links;
- the top nodes fill the first slots.

**Surgery.** Each surgery step is specified by a ghost function on arenas:
- `Surgery.Unrooted` for `make_unrooted`;
- `Surgery.Rerooted` for `set_root`.

The methods that mirror the C++ step by step are proved equal to those functions. The
lemmas about the functions state what the surgery keeps:
- labels and weights;
- every old edge, in one direction or the other;
- the new node joining the old top nodes.

**Repacking.** Repacking is specified by `Trees.FlatOf` and `Flatten.DiscoveryOrder`. The
packed array is the forest laid out in the order the stack walk of `make_flat_tree` queues
its nodes. `Flatten.DiscoveryOrder` replays that walk pass by pass: it is depth first, and
the right child is popped before the left one. Each slot copies one arena node and points
to the copies of its children, which sit in two consecutive later slots.

**Weights and floating point.** Weights are `real`. Float rounding is not modelled. The
model keeps the source's formulas as written. In `join_pair`, the coefficient
`1/(2*(2*_row_size-2))` of the left branch length is a division of unsigned integers. It
is therefore 0, and `Joining.LeftIsHalf` states that the left child gets half the pair's
distance.

## Model

| member | source | states |
|---|---|---|
| Nodes.PackedIsHeapTree | src/tree.cpp:301-354 | every packed tree is also a valid pointer forest over its top nodes, so it can be repacked or operated on |
| Nodes.Covered | src/tree.cpp:301-354 | every slot of a packed tree lies under one of the top slots |
| Nodes.TopsDisjoint | src/tree.cpp:592-596 | the subtrees of two different top slots share no slot |
| Nodes.KidsDisjoint | src/tree.cpp:38-45 | the subtrees of the two children of a slot are disjoint and do not contain the slot |
| Nodes.TopUnique | src/tree.cpp:301-354 | every slot lies under exactly one top slot |
| Queries.CountNodes | src/tree.cpp:38-45 | count_nodes returns the number of slots in the subtree |
| Queries.CountAll | src/tree.cpp:38-45 | the subtree counts of the top slots add up to the whole array |
| Queries.MaxDepth | src/tree.cpp:108-115 | calc_max_depth is at least 1 |
| Queries.MaxDepthBound | src/tree.cpp:108-115 | every node of the subtree lies less than calc_max_depth levels below its top |
| Queries.MaxDepthAttained | src/tree.cpp:108-115 | some node of the subtree lies exactly calc_max_depth - 1 levels down |
| Queries.HeightIsMax | src/tree.cpp:622-630 | get_depth is the largest calc_max_depth over the top nodes, less one for a single root, and some top node attains it |
| Trees.Tree.GetDepth | src/tree.cpp:622-630 | the loop returns the tree height |
| Queries.NodeStringBalanced | src/tree.cpp:517-530 | node_t::to_string prints as many `(` and `)` as `,`, and twice the commas plus one equals the subtree size |
| Queries.TreeStringBalanced | src/tree.cpp:532-549 | tree_t::to_string is balanced, its commas count the nodes and top nodes, it ends in `;` unless empty, and it is non-empty for two or more top nodes |
| Trees.Tree.ToString | src/tree.cpp:532-549 | the loop over the unroot list builds the Newick text of the tree |
| Flatten.Traverse | src/tree.cpp:301-324 | the queue is exactly `Flatten.DiscoveryOrder`: the roots first, then both children of every node with two children, each node once |
| Flatten.Pop | src/tree.cpp:312-322 | one pass of the loop pops the top of the stack and, for a node with two children, pushes and queues the left then the right child, as `Flatten.Pass` describes |
| Flatten.RightKidsNext | src/tree.cpp:312-322 | the walk is depth first and right child first: the right child's children are queued right after the node's own children |
| Flatten.WalkStart | src/tree.cpp:304-310 | the walk starts with the roots, both on the stack and in the queue |
| Flatten.PopLeaf | src/tree.cpp:312-320 | popping a node without both children keeps the walk invariant |
| Flatten.PopInternal | src/tree.cpp:312-330 | popping an internal node and appending its two children keeps the walk invariant |
| Flatten.FreshKid | src/tree.cpp:312-330 | a child reached by the walk has not been queued before, because it has only one holder |
| Relink.FinalPacked | src/tree.cpp:332-354 | the relinked array is a packed tree whose top slots are the roots |
| Relink.UpdateChildren | src/tree.cpp:47-56 | update_children rewrites the links of exactly the subtree's slots to their packed positions and leaves every other slot alone |
| Trees.CopyQueue | src/tree.cpp:332-342 | every queued node is copied into the new array at its queue position, and the index map sends each node to that position |
| Trees.RelinkTops | src/tree.cpp:343-349 | the relinked array equals the packed layout, and the new unroot list is the slots of the roots |
| Trees.FinalFlat | src/tree.cpp:332-354 | the relinked array is the copy of the forest laid out in the order of the traversal's queue |
| Trees.Tree.MakeFlatTree | src/tree.cpp:301-354 | make_flat_tree leaves a valid packed tree whose unroot list is slots 0..k-1, and slot j copies the j-th node of `Flatten.DiscoveryOrder` |
| Trees.Tree.IsRooted | src/tree.cpp:632-635 | is_rooted holds for one or two top nodes, which on a packed tree means that every slot after the first two has a parent |
| Trees.Tree.FromRoots | src/tree.cpp:356-360 | the constructor from an unroot list packs the forest below it, in the stack walk's order |
| Trees.Tree.Copy | src/tree.cpp:295-298 | the copy constructor packs a copy of the other tree, in the stack walk's order |
| Surgery.NodeFactory | src/tree.cpp:282-293 | node_factory appends a new internal node with the two given children, and the children name it as parent |
| Surgery.AdoptedForest | src/tree.cpp:282-293 | joining two roots under a new node leaves a valid forest whose roots are the rest plus the new node |
| Surgery.FirstInternal | src/tree.cpp:642-649 | the search finds the first top node with children, or runs past the end when there is none |
| Surgery.SplitForest | src/tree.cpp:650-664 | detaching the children of a top node leaves a valid forest with one more root |
| Surgery.Unrooted | src/tree.cpp:637-669 | splitting keeps a valid forest of the same arena size |
| Surgery.UnrootedThree | src/tree.cpp:641 | starting from a tree that make_unrooted accepts, the loop ends with exactly three top nodes |
| Surgery.UnrootedLabels | src/tree.cpp:637-669 | unrooting keeps every node's label and weight |
| Surgery.UnrootedLeaves | src/tree.cpp:637-669 | unrooting leaves every leaf a leaf, with its label and weight |
| Surgery.SplitStep | src/tree.cpp:641-665 | one pass of the loop finds an internal top node and keeps the forest valid, with one more top node and the same final result |
| Surgery.SplitFirstInternal | src/tree.cpp:641-665 | the loop body adds one top node and does not change what unrooting yields |
| Surgery.OneRootTwoBelow | src/tree.cpp:637-640 | a rooted tree with one top node and more than three nodes has two internal levels to split |
| Surgery.TwoRootsOneInternal | src/tree.cpp:637-640 | with two top nodes and more than two nodes, one of the two top nodes is internal |
| Trees.Tree.MakeUnrooted | src/tree.cpp:637-669 | the tree is repacked from the unrooted forest, with three top nodes in slots 0..2 |
| Surgery.Swap | src/tree.cpp:267-280 | swap_parent keeps a node's label, weight and children flag |
| Surgery.Position | src/tree.cpp:267-280 | a node on the path to the root is found at its own position |
| Surgery.SwapParent | src/tree.cpp:267-280 | the recursion up the old parent chain turns every edge on the path around, and leaves every other node alone |
| Surgery.ReversedSwaps | src/tree.cpp:267-280 | the path reversal is one result of swap_parent along the walk |
| Surgery.SwappedUnique | src/tree.cpp:267-280 | swap_parent along a walk has a single possible result |
| Surgery.ReversedForest | src/tree.cpp:267-280 | reversing the path from the outgroup's parent to the top leaves a valid forest rooted at the outgroup and its old parent |
| Surgery.ReversedLinks | src/tree.cpp:267-280 | after the reversal each node has one holder, and neither new root is held |
| Surgery.ReversedKeeps | src/tree.cpp:267-280 | every old edge survives the reversal, in one direction or the other |
| Surgery.ReversedLabels | src/tree.cpp:267-280 | the reversal keeps labels, weights and children flags |
| Surgery.Ancestry | src/tree.cpp:202-240 | the parent chain of a slot ends at a top slot |
| Surgery.AncestryChain | src/tree.cpp:202-240 | the parent chain strictly climbs to earlier slots, and each step is a parent link |
| Surgery.Prepared | src/tree.cpp:202-233 | the arena before the reversal has one node more than the tree |
| Surgery.PreparedReversible | src/tree.cpp:202-233 | after the new node takes the three top nodes and the outgroup leaves its parent, the path from the parent to the new node can be reversed |
| Surgery.Prepare | src/tree.cpp:202-233 | the steps that build the new node, detach the outgroup and move the kept child to the left produce the prepared arena |
| Surgery.TopIndex | src/tree.cpp:177-186 | the search finds the outgroup's position in the unroot list, or reports that it is absent |
| Surgery.Rerooted | src/tree.cpp:172-240 | rerooting gives a valid forest with one new node, whose two top nodes are the outgroup and the other part |
| Surgery.TopCase | src/tree.cpp:177-200 | joining the other two top nodes gives a valid forest rooted at the outgroup and the new node |
| Surgery.RerootAtTop | src/tree.cpp:177-200 | set_root on a top node computes the rerooted forest |
| Surgery.InnerCase | src/tree.cpp:202-240 | set_root below the top reverses the path from the outgroup's parent, and the result is a forest rooted at the outgroup and that parent |
| Surgery.RerootBelow | src/tree.cpp:202-240 | set_root on an inner node computes the rerooted forest |
| Surgery.RerootedLabels | src/tree.cpp:172-240 | rerooting keeps every old node's label, weight and children flag, and the new node is an internal node with an empty label and weight 0 |
| Surgery.RerootedKeepsLinks | src/tree.cpp:172-240 | every old edge not leading to the outgroup survives, in one direction or the other |
| Surgery.RerootedLinkFrom | src/tree.cpp:172-240 | every edge after rerooting is an old edge, or joins the new node to an old top node |
| Surgery.RerootedJoinsTops | src/tree.cpp:172-240 | the new node is joined to every old top node other than the outgroup |
| Trees.Tree.SetRoot | src/tree.cpp:172-240 | set_root repacks the rerooted forest with two top nodes |
| Trees.Tree.FindLabel | src/tree.cpp:249-252 | the search finds the last slot carrying the label, or reports that no slot carries it |
| Trees.Tree.SetOutgroup | src/tree.cpp:242-256 | small trees are left alone; otherwise a rooted tree is first unrooted, the last slot carrying the label is the outgroup, the result is the rerooted tree, and the label is found exactly when some slot carries it |
| Weights.SumLevels | src/tree.cpp:70-74 | the loop sums the per-level weights of the levels above depth |
| Weights.SetWeights | src/tree.cpp:66-82 | every slot of the subtree gets its level's weight and every leaf gets the budget minus its path so far; other slots are untouched |
| Weights.SetWeightsAsRoot | src/tree.cpp:84-91 | the root gets weight 0 and its children are weighted from level 0; other slots are untouched |
| Weights.SetWeightsConstant | src/tree.cpp:58-64 | every slot of the subtree gets weight c; other slots are untouched |
| Weights.LeafPathSum | src/tree.cpp:66-82 | after set_weights, the weights on the path from the subtree's top to any leaf add up to max minus the levels above the top |
| Weights.TreePathSum | src/tree.cpp:561-579 | after tree_t::set_weights, every top-to-leaf path weighs max, except a lone root with no children |
| Weights.LevelsUsed | src/tree.cpp:561-569 | the weight function is only read at levels below the tree depth |
| Weights.TreeAssignedAgrees | src/tree.cpp:561-579 | two weight functions that agree below the depth give the same weights |
| Trees.Tree.SetWeights | src/tree.cpp:561-579 | set_weights derives the budget from the depth when max is 0, keeps the shape, and gives every slot its assigned weight |
| Trees.Tree.SetWeightsVector | src/tree.cpp:581-586 | the vector form halves level 0; a vector covering the depth gives the same weights as the function form |
| Trees.VectorCovers | src/tree.cpp:581-586 | when the vector covers every level read, the function form and the vector agree on budget and weights |
| Trees.Tree.SetWeightsUniform | src/tree.cpp:588-590 | the constant-level form gives level 0 half the weight and the others the full weight |
| Trees.Tree.SetWeightsConstant | src/tree.cpp:592-596 | every slot gets weight c and the shape is kept |
| Trees.Tree.ClearWeights | src/tree.cpp:598-601 | every weight becomes 0 and the shape is kept |
| Sorting.LessTransitive | src/tree.cpp:93-106 | string comparison is transitive |
| Sorting.LessTotal | src/tree.cpp:93-106 | two different strings are ordered one way or the other |
| Sorting.LessAsymmetric | src/tree.cpp:93-106 | string comparison is asymmetric |
| Sorting.Sort | src/tree.cpp:93-106 | node_t::sort returns the subtree's key, and swaps the children of exactly the subtree's slots whose right key is smaller |
| Sorting.SortedPacked | src/tree.cpp:93-106 | sorting keeps the tree packed |
| Sorting.SortedKeys | src/tree.cpp:93-106 | sorting changes no subtree's membership and no subtree's key |
| Sorting.SortedOrdered | src/tree.cpp:93-106 | after sorting, no right child's key is smaller than its sibling's |
| Trees.SortTops | src/tree.cpp:607-609 | every top subtree is sorted, and the collected keys are the keys of the top nodes |
| Trees.ExchangeSort | src/tree.cpp:610-618 | the exchange sort permutes the unroot list, keeping each key with its node, into non-decreasing key order |
| Trees.Tree.Sort | src/tree.cpp:603-620 | the nodes are the sorted nodes, the unroot list is a permutation of the old one, and it is ordered by key |
| Distances.Ancestors | src/tree.cpp:490-506 | the parent list starts at the node, ends with a null, and each entry is the parent of the one before |
| Distances.GetParentsOf | src/tree.cpp:490-506 | the loop builds the parent list |
| Distances.AncestorsBelow | src/tree.cpp:490-506 | every ancestor sits in an earlier slot |
| Distances.ParentDistance | src/tree.cpp:508-515 | the loop sums the weights from the child up to, not including, the given ancestor |
| Distances.ClimbSums | src/tree.cpp:508-515 | climbing to the i-th ancestor sums the weights of the first i entries of the parent list |
| Distances.CommonTail | src/tree.cpp:467-482 | the shared suffix of two parent lists, as long as possible |
| Distances.Diverge | src/tree.cpp:473-482 | the backward walk stops at the first position past the lowest common ancestor |
| Distances.CalcDistance | src/tree.cpp:456-488 | calc_distance returns the path weight through the lowest common ancestor |
| Distances.DistanceSymmetric | src/tree.cpp:456-488 | the distance from a to b equals the distance from b to a |
| Distances.LowestCommon | src/tree.cpp:456-488 | the entry where the walk stops is a common ancestor, and no earlier ancestor of a is an ancestor of b |
| Distances.LeavesApart | src/tree.cpp:416-428 | two different leaves are never ancestors of each other, so the walk is defined for them |
| Matrices.LeafSlots | src/tree.cpp:443-447 | the leaves in slot order |
| Matrices.RankOfSlot | src/tree.cpp:440-449 | the number a leaf gets is its position among the leaves |
| Matrices.SlotOfRank | src/tree.cpp:440-449 | every leaf's number leads back to its slot |
| Matrices.MakeLabelMap | src/tree.cpp:440-449 | every leaf label is a key, every key is a leaf label, the last leaf with a label gives its number, and distinct labels give as many keys as leaves |
| Matrices.CellsApart | src/tree.cpp:419-426 | distinct row and column pairs use distinct cells of the matrix |
| Matrices.FillRow | src/tree.cpp:418-428 | the inner loop writes the distance from leaf i to every leaf into leaf i's row |
| Matrices.FillDistanceMatrix | src/tree.cpp:414-431 | every pair of leaves gets its distance in its cell |
| Matrices.MatrixCells | src/tree.cpp:382-431 | cell (a, b) holds the distance between the a-th and b-th leaves |
| Matrices.MatrixSymmetric | src/tree.cpp:382-431 | the matrix is symmetric with a zero diagonal |
| Trees.Tree.CalcDistanceMatrix | src/tree.cpp:382-392 | with distinct leaf labels, the result is the leaf distance matrix of the tree |
| Joining.Resized | src/nj.cpp:52 | resize keeps the old entries and pads with zeros |
| Joining.NJ.ComputeR | src/nj.cpp:48-61 | each r entry is increased by the sum of its row |
| Joining.NJ.ComputeQ | src/nj.cpp:63-77 | q holds (n-2)·d(a,b) - r(a) - r(b) for every cell |
| Joining.LeastPairOf | src/nj.cpp:88-100 | the scan below the diagonal picks j < i with the least q, taking the last such cell in scan order |
| Joining.LeastPairUnique | src/nj.cpp:88-100 | at most one pair meets that choice |
| Joining.NJ.FindPair | src/nj.cpp:79-101 | find_pair recomputes r and q and records the least pair |
| Joining.Shift | src/nj.cpp:145-154 | a surviving row moves down once for each joined row before it |
| Joining.ShiftInjective | src/nj.cpp:145-154 | two surviving rows never land on the same new row |
| Joining.ShiftOnto | src/nj.cpp:145-154 | every new row except the last comes from a surviving row |
| Joining.Keep | src/nj.cpp:110-114 | the kept clusters are the old ones without i and j, in order |
| Joining.Reduce | src/nj.cpp:142-166 | the new matrix copies the surviving distances and gives the joined cluster the averaged distances in its last row and column |
| Joining.CopySurvivors | src/nj.cpp:142-158 | the new matrix has one row fewer and every pair of surviving clusters keeps its distance, shifted past the two removed rows |
| Joining.ReducedSymmetric | src/nj.cpp:142-166 | a symmetric matrix stays symmetric after the reduction |
| Joining.LeftIsHalf | src/nj.cpp:135-138 | the left branch length as written is half the pair's distance, and the two branch lengths add up to it |
| Joining.JoinedHeap | src/nj.cpp:119-128 | joining appends one node |
| Joining.JoinedForest | src/nj.cpp:119-129 | joining two clusters under a new node keeps a valid forest over the kept clusters and the new node |
| Joining.KeptDistinct | src/nj.cpp:110-114 | the kept clusters stay distinct and are all old clusters |
| Joining.Join | src/nj.cpp:105-171 | one join builds the new node, the kept clusters and the reduced matrix, and the forest stays valid |
| Joining.JoinedLabelled | src/nj.cpp:105-171 | joining keeps the leaf labels |
| Joining.NJ.JoinPair | src/nj.cpp:105-171 | join_pair picks the least pair, joins it and shrinks the matrix by one row |
| Joining.FinalSums | src/nj.cpp:197-207 | for a symmetric matrix, the last branches of two clusters add up to their distance |
| Joining.NJ.JoinFinal | src/nj.cpp:173-208 | join_final gives each of the last three clusters its three-point branch length and changes nothing else |
| Joining.LeafArena | src/nj.cpp:27-33 | the first n nodes are leaves carrying the labels |
| Joining.NJ.MakeTree | src/nj.cpp:210-213 | make_tree packs the forest over the remaining clusters |
| Joining.NJ.JoinRounds | src/nj.cpp:36-38 | join_pair repeats until three clusters remain; the recorded rounds start at the labelled leaves, each is one pick and join of the one before, and the last is the current state |
| Joining.NJ.constructor | src/nj.cpp:19-42 | the constructor starts from the labelled leaves and the input matrix; each of its n-3 rounds is one find_pair pick and join of the round before (`Joining.Rounds`); the final matrix and clusters are the last round's, the arena differs from it only in the three final branch lengths, and the result is packed |
| Newick.CountLeaves | src/newick.cpp:19-22 | the count is at least 1 |
| Newick.CountLeavesCountsNodes | src/newick.cpp:19-22 | count_leaves counts every node, twice the leaves less one |
| Newick.SkipWhitespace | src/newick.cpp:31-34 | the index moves past blanks only, and stops at the end or at a non-blank |
| Newick.CopyToNode | src/newick.cpp:36-38 | copy_to_node copies the weight and nothing else |
| Newick.SetChildren | src/newick.cpp:40-44 | set_childen marks the node internal with the two given children and changes nothing else |
| Newick.PendingPush | src/newick.cpp:57-70 | pushing two children adds their subtrees' sizes, less themselves, to the slots still owed |
| Newick.ConvertToPackedTree | src/newick.cpp:46-77 | the array has count_leaves slots, and each slot copies its pointer node's weight and points to the two consecutive later slots holding its children |
| Newick.Push | src/newick.cpp:86-90 | `(` and `,` push a fresh node |
| Newick.Close | src/newick.cpp:91-97 | `)` pops two nodes and makes them the children of the new top, the most recent on the left |
| Newick.ReadLabel | src/newick.cpp:99-108 | the label runs from the first non-blank to the next `,` or `:`, the next character is skipped, and a run of digits and dots after it becomes the weight |
| Newick.MakeTreeFromNewick | src/newick.cpp:79-119 | a successful read gives the node left on top weight 0 and packs the tree below it; a read fails only at a `)` that finds fewer than three stack entries |
| Newick.Advance | src/newick.cpp:84-109 | one pass of the scan loop makes exactly the move `Newick.Step` describes: push on `(` and `,`, pop two on `)` or fail with fewer than three entries, stop on `;`, otherwise read a label into the top node |
| Newick.ReadsTag | src/newick.cpp:99-108 | a `name:digits` tag in the text gives the top node that name and `stof` of those digits, and the scan resumes right after the digits |
| Newick.ReadsShape | src/newick.cpp:84-109 | reading the text of a subtree with a fresh node for it on top of the stack ends after that text, with the same stack and the arena `Newick.Placed` builds |
| Newick.PlacedHolds | src/newick.cpp:91-97 | the arena so built holds the subtree at that node: the first subtree on the right, the second on the left, leaves with their label and weight |
| Newick.PlacedFrame | src/newick.cpp:86-97 | reading a subtree never changes a node allocated before the node of that subtree |
| Newick.PlacedSize | src/newick.cpp:86-90 | reading a subtree allocates one node for each node of it besides its own |
| Newick.ReadsNewick | src/newick.cpp:79-110 | the text of any well-formed tree followed by `;` is read without failing into an arena of exactly its nodes whose first node holds the tree, with only that node left on the stack |

## Left out

- `src/debug.h`: the debug printing and `assert_string`. An assertion the model depends on becomes a `requires`, or an `ok = false` result.
- Memory management is not modelled. This covers the destructors, `operator=`, `clean_up` and `delete_node` in `src/nj.cpp`, and the deletion of the old array in `make_flat_tree`. Arenas only grow.
- Floating point is not modelled. Weights and distances are `real`, with no rounding, so `float` and `double` are not told apart.
- `nj_t`'s row size is taken as a parameter `n` with `|d| == n * n`. The model does not compute `sqrt(dists.size())`.
- `nj_t::get_tree` is left out. It only returns the packed tree, which is modelled.
- `stof` is a function parameter. Its exceptions on malformed numbers are not modelled.
- `std::fixed` and `setprecision` in `to_string` are a function parameter `fmt` for printing a weight.
- `tree_t::print_labels` is left out. It is a debugging listing.
- The `operator<<` that prints a tree is left out. It only forwards `to_string`.
- The commented-out `nj_t::flatten_tree` is left out, because it is not compiled.
- `tree_t(const string&)` is left out. `src/tree.cpp:363` assigns the `node_t*` that `make_tree_from_newick` returns (`src/newick.cpp:79`) to the vector `_unroot`, which the rest of `src/tree.cpp` uses as a `std::vector<node_t*>`. In the same way, `set_childen` stores a `size_t` index in `_lchild` and `_rchild` (`src/newick.cpp:40-44`), which `src/tree.cpp` uses as pointers. So the two source files do not fit together as written. The reader is modelled on its own, as `Newick.MakeTreeFromNewick`.
- `src/tree.h` is not part of this model. A fresh `node_t` is taken to have an empty label, weight 0, no children and null links.
- `Surgery.Rerooted`: `set_root` below the top does not move branch weights along the reversed path. The model keeps each weight on its node as the source does, so the rerooted tree's leaf distances are not claimed to equal the old ones.
- `Trees.VectorLevels`: levels beyond the vector read as 0.0. `Trees.Tree.SetWeightsVector` requires the vector to cover every level that is read, which is what the source's assertion demands.
- `nj_t`'s `_i` and `_j` before the first `find_pair` are modelled as 0. They are only read after `find_pair` sets them.
- `Newick.MakeTreeFromNewick`: the weight of a `ptr_node_t` that never gets one is uninitialised in the source. It is the parameter `w0`.
- `Newick.MakeTreeFromNewick`: a `)` with fewer than three nodes on the stack reads past the stack in the source, which is undefined. The model stops with `ok = false` there.
- `Newick.ReadsNewick`: the reading is stated only for texts that `Newick.Text` writes, where every label carries a `:` and a weight. The source reads a label up to the next `,` or `:` only, so a bare label before `)` swallows the `)`; such texts are covered by `Newick.Step` alone.
- `Newick.CopyToNode`: labels are never copied into the packed tree, as in the source, so a tree read from Newick has empty labels.
- `Newick.ConvertToPackedTree`: the slot order is not pinned to the one the LIFO loop at `src/newick.cpp:57-70` produces. The contract states the size, the root in slot 0, the copied weights and the two consecutive later child slots of every internal node, which any such layout meets. Nothing in this model reads that order, because `tree_t(const string&)` is left out.
- `Joining.NJ.ComputeQ` requires `rowSize >= 2`. It is only called from `find_pair`, which the source calls with at least four rows.
- `Trees.Tree.SetOutgroup`: when no slot carries the label, `o` stays null. The `assert_string` check is compiled only with `DEBUG` defined (`src/debug.h`), so a normal build passes the null pointer to `set_root`, which dereferences it at `src/tree.cpp:177`. The model returns `ok = false` instead, in the unrooted but not rerooted state.
- `Trees.Tree.MakeUnrooted` and `Trees.Tree.SetOutgroup` require more than three nodes for a single root. With three nodes the second pass of the loop finds no internal top node. `assert_string` does nothing without `DEBUG`, so the source then dereferences the null `tmp_n` at `src/tree.cpp:657`.
- `Trees.Tree.SetOutgroup`: the size of the intermediate unrooted tree is not stated. `make_unrooted` clears the children of every top node it splits and drops that node from the unroot list (`src/tree.cpp:653-663`). Repacking therefore leaves it out, and the tree loses one node for two top nodes and two nodes for a single root. The model states the repacked tree as `Trees.FlatOf` of `Surgery.Unrooted`, but not its node count.
- `Distances.CalcDistance` requires its two nodes to differ with neither an ancestor of the other, or to be equal. Otherwise the source's backward walk runs an unsigned index below zero. The distance matrix only asks about pairs of leaves, and those always qualify (`Distances.LeavesApart`).
- `Trees.Tree.CalcDistanceMatrix` requires distinct leaf labels. With a repeated label, the label map has fewer entries than there are leaves, and the source writes outside the matrix.
- Surgery and joining work on arena values (`seq<Node>`) rather than on pointers updated in place. Aliasing between pointers is therefore not modelled. The packed array is a real `array<Node>` in `Trees.Tree`.

=== FILE: distance.dfy ===
/**
 * Leaf-to-leaf distances of a packed tree (tree_t::get_parents_of, parent_distance and
 * calc_distance in src/tree.cpp).  A node's parent list is the node itself, then each
 * ancestor in turn, then a null marker; two lists are compared from their ends to find the
 * lowest common ancestor, and the distance is the weight climbed from each node up to it.
 */
module Distances {
  import opened Wrappers
  import opened Nodes

  /** Every parent link names an earlier slot, as in a packed tree. */
  predicate UpLinks(t: seq<Node>) {
    forall i :: 0 <= i < |t| && t[i].parent.Some? ==> t[i].parent.value < i
  }

  /** Every parent named by a link is an internal node. */
  predicate Holders(t: seq<Node>)
    requires UpLinks(t)
  {
    forall i :: 0 <= i < |t| && t[i].parent.Some? ==> t[t[i].parent.value].children
  }

  lemma PackedUpLinks(t: seq<Node>, k: nat)
    requires Packed(t, k)
    ensures UpLinks(t) && Holders(t)
  {
    forall i | 0 <= i < |t| && t[i].parent.Some? ensures t[i].parent.value < i {
      assert Ordered(t, i) && Linked(t, k, i);
    }
    forall i | 0 <= i < |t| && t[i].parent.Some? ensures t[t[i].parent.value].children {
      assert Ordered(t, i) && Linked(t, k, i);
      assert Ordered(t, t[i].parent.value);
    }
  }

  /** The list get_parents_of returns for slot `n`: `n`, then each entry's parent, ending
      with the null marker after the top slot. */
  function Ancestors(t: seq<Node>, n: nat): (r: seq<Option<nat>>)
    requires UpLinks(t) && n < |t|
    ensures |r| >= 2 && r[0] == Some(n) && r[|r| - 1] == None
    ensures forall i :: 0 <= i < |r| - 1 ==> r[i].Some? && r[i].value < |t|
    ensures forall i, j :: 0 <= i < |r| - 1 && j == i + 1 ==> r[j] == t[r[i].value].parent
    decreases n
  {
    match t[n].parent
    case None => [Some(n), None]
    case Some(p) => [Some(n)] + Ancestors(t, p)
  }

  /** get_parents_of: climbs parent links from `n`, recording each node, and appends the
      null marker on reaching a parentless node. */
  method GetParentsOf(t: seq<Node>, n: nat) returns (list: seq<Option<nat>>)
    requires UpLinks(t) && n < |t|
    ensures list == Ancestors(t, n)
  {
    ghost var all := Ancestors(t, n);
    list := [Some(n)];
    var cur := n;
    while t[cur].parent.Some? && t[cur].parent.value != cur
      invariant cur < |t| && 0 < |list| < |all| && list == all[..|list|] && all[|list| - 1] == Some(cur)
      decreases cur
    {
      var p := t[cur].parent.value;
      assert all[|list|] == t[all[|list| - 1].value].parent;
      list := list + [Some(p)];
      cur := p;
    }
    assert all[|list|] == t[all[|list| - 1].value].parent;
    if t[cur].parent.None? {
      list := list + [None];
    }
  }

  /** Sum of the weights of the nodes listed in `s`, ignoring the null marker. */
  function Weights(t: seq<Node>, s: seq<Option<nat>>): real
    requires forall i :: 0 <= i < |s| && s[i].Some? ==> s[i].value < |t|
  {
    if |s| == 0 then 0.0
    else (if s[0].Some? then t[s[0].value].weight else 0.0) + Weights(t, s[1..])
  }

  /** The weight climbed from `c` up to its ancestor `p` (the null marker for "past the top"),
      counting `c` and excluding `p`. */
  function Climb(t: seq<Node>, c: nat, p: Option<nat>): real
    requires UpLinks(t) && c < |t| && p in Ancestors(t, c)
    decreases c
  {
    if p == Some(c) then 0.0
    else match t[c].parent
      case None => t[c].weight
      case Some(q) => t[c].weight + Climb(t, q, p)
  }

  /** Climbing to the `i`-th entry of the parent list adds up the weights of the entries
      before it. */
  lemma {:induction false} ClimbSums(t: seq<Node>, c: nat, i: nat)
    requires UpLinks(t) && c < |t| && i < |Ancestors(t, c)|
    ensures Climb(t, c, Ancestors(t, c)[i]) == Weights(t, Ancestors(t, c)[..i])
    decreases c
  {
    var a := Ancestors(t, c);
    if i > 0 {
      assert a[i] != Some(c) by { AncestorsDistinct(t, c, i); }
      match t[c].parent
      case None =>
        assert i == 1;
        assert a[..1] == [Some(c)];
      case Some(q) =>
        AncestorsStep(t, c, q, i);
        ClimbSums(t, q, i - 1);
        assert Weights(t, a[..i]) == t[c].weight + Weights(t, a[..i][1..]);
    }
  }

  /** The parent list of a node with parent `q` is the node followed by the parent list of
      `q`, and so is each of its prefixes. */
  lemma AncestorsStep(t: seq<Node>, c: nat, q: nat, i: nat)
    requires UpLinks(t) && c < |t| && t[c].parent == Some(q) && 0 < i < |Ancestors(t, c)|
    ensures q < |t| && i - 1 < |Ancestors(t, q)|
    ensures Ancestors(t, c)[i] == Ancestors(t, q)[i - 1]
    ensures Ancestors(t, c)[..i][0] == Some(c) && Ancestors(t, c)[..i][1..] == Ancestors(t, q)[..i - 1]
  {
    assert Ancestors(t, c) == [Some(c)] + Ancestors(t, q);
    assert Ancestors(t, c)[..i][1..] == Ancestors(t, q)[..i - 1];
  }

  /** Only the first entry of a parent list names the node itself. */
  lemma AncestorsDistinct(t: seq<Node>, c: nat, i: nat)
    requires UpLinks(t) && c < |t| && 0 < i < |Ancestors(t, c)|
    ensures Ancestors(t, c)[i] != Some(c)
  {
    AncestorsBelow(t, c, i);
  }

  /** Entries after the first name strictly earlier slots. */
  lemma {:induction false} AncestorsBelow(t: seq<Node>, c: nat, i: nat)
    requires UpLinks(t) && c < |t| && 0 < i < |Ancestors(t, c)|
    ensures Ancestors(t, c)[i].Some? ==> Ancestors(t, c)[i].value < c
    decreases c
  {
    if t[c].parent.Some? && i > 1 {
      AncestorsBelow(t, t[c].parent.value, i - 1);
    }
  }

  /** parent_distance: adds up weights while climbing from `c` until reaching `p`. */
  method ParentDistance(t: seq<Node>, c: nat, p: Option<nat>) returns (distance: real)
    requires UpLinks(t) && c < |t| && p in Ancestors(t, c)
    ensures distance == Climb(t, c, p)
  {
    distance := 0.0;
    var child: Option<nat> := Some(c);
    while child != p
      invariant child.Some? ==> child.value < |t| && p in Ancestors(t, child.value)
                                && distance + Climb(t, child.value, p) == Climb(t, c, p)
      invariant child.None? ==> p == None && distance == Climb(t, c, p)
      decreases if child.Some? then child.value + 1 else 0
    {
      var x := child.value;
      distance := distance + t[x].weight;
      child := t[x].parent;
    }
  }

  /** The length of the longest common suffix of two lists. */
  function CommonTail(x: seq<Option<nat>>, y: seq<Option<nat>>): (n: nat)
    ensures n <= |x| && n <= |y|
    ensures forall i :: |x| - n <= i < |x| ==> x[i] == y[i - |x| + |y|]
    ensures n < |x| && n < |y| ==> x[|x| - n - 1] != y[|y| - n - 1]
  {
    if |x| == 0 || |y| == 0 || x[|x| - 1] != y[|y| - 1] then 0
    else 1 + CommonTail(x[..|x| - 1], y[..|y| - 1])
  }

  /** Neither slot is an ancestor of the other (the situation calc_distance supports). */
  predicate Apart(t: seq<Node>, a: nat, b: nat)
    requires UpLinks(t) && a < |t| && b < |t|
  {
    Some(a) !in Ancestors(t, b) && Some(b) !in Ancestors(t, a)
  }

  /** The distance calc_distance computes: zero for one node; otherwise the weight climbed
      from each node to the first entry of the common tail of their parent lists. */
  function Distance(t: seq<Node>, a: nat, b: nat): real
    requires UpLinks(t) && a < |t| && b < |t| && (a == b || Apart(t, a, b))
  {
    if a == b then 0.0
    else
      var x, y := Ancestors(t, a), Ancestors(t, b);
      var n := CommonTail(x, y);
      TailShort(t, a, b);
      Climb(t, a, x[|x| - n]) + Climb(t, b, y[|y| - n])
  }

  /** For two apart nodes the common tail holds the null marker and stops before either
      node itself. */
  lemma TailShort(t: seq<Node>, a: nat, b: nat)
    requires UpLinks(t) && a < |t| && b < |t| && a != b && Apart(t, a, b)
    ensures var x, y := Ancestors(t, a), Ancestors(t, b);
      0 < CommonTail(x, y) < |x| && CommonTail(x, y) < |y|
  {
    var x, y := Ancestors(t, a), Ancestors(t, b);
    assert x[|x| - 1] == y[|y| - 1];
    TailCovers(x, y);
  }

  /** A common tail as long as one whole list puts that list's head in the other. */
  lemma TailCovers(x: seq<Option<nat>>, y: seq<Option<nat>>)
    requires |x| > 0 && |y| > 0
    ensures CommonTail(x, y) == |x| ==> x[0] in y
    ensures CommonTail(x, y) == |y| ==> y[0] in x
  {
    var n := CommonTail(x, y);
    if n == |x| { assert x[0] == y[|y| - |x|]; }
    if n == |y| { assert x[|x| - |y|] == y[0]; }
  }

  /** calc_distance: compares the two parent lists from their ends, stops at the first
      difference, steps back onto the last shared entry and climbs to it from both nodes. */
  method CalcDistance(t: seq<Node>, src: nat, dst: nat) returns (d: real)
    requires UpLinks(t) && src < |t| && dst < |t| && (src == dst || Apart(t, src, dst))
    ensures d == Distance(t, src, dst)
  {
    if src == dst {
      return 0.0;
    }
    var srcList := GetParentsOf(t, src);
    var dstList := GetParentsOf(t, dst);
    TailShort(t, src, dst);
    var si, di := Diverge(srcList, dstList);
    var a := ParentDistance(t, src, srcList[si]);
    var b := ParentDistance(t, dst, dstList[di]);
    d := a + b;
  }

  /** The walk of calc_distance from the ends of both lists: step back while the entries
      agree, then step forward onto the last shared entry. */
  method Diverge(x: seq<Option<nat>>, y: seq<Option<nat>>) returns (si: nat, di: nat)
    requires 0 < CommonTail(x, y) < |x| && CommonTail(x, y) < |y|
    ensures si == |x| - CommonTail(x, y) && di == |y| - CommonTail(x, y)
  {
    ghost var n := CommonTail(x, y);
    var i, j := |x| - 1, |y| - 1;
    while x[i] == y[j]
      invariant 0 <= i < |x| && 0 <= j < |y|
      invariant |x| - 1 - i == |y| - 1 - j <= n
      decreases i
    {
      i, j := i - 1, j - 1;
    }
    si, di := i + 1, j + 1;
  }

  // ---------------------------------------------------------------------------------------
  // What the distance means
  // ---------------------------------------------------------------------------------------

  lemma {:induction false} TailSymmetric(x: seq<Option<nat>>, y: seq<Option<nat>>)
    ensures CommonTail(x, y) == CommonTail(y, x)
  {
    if |x| > 0 && |y| > 0 && x[|x| - 1] == y[|y| - 1] {
      TailSymmetric(x[..|x| - 1], y[..|y| - 1]);
    }
  }

  /** calc_distance is symmetric. */
  lemma DistanceSymmetric(t: seq<Node>, a: nat, b: nat)
    requires UpLinks(t) && a < |t| && b < |t| && (a == b || Apart(t, a, b))
    ensures Distance(t, a, b) == Distance(t, b, a)
  {
    if a != b {
      var x, y := Ancestors(t, a), Ancestors(t, b);
      TailSymmetric(x, y);
      TailShort(t, a, b);
      var n := CommonTail(x, y);
      var m := |x| - n;
      assert x[m] == y[m - |x| + |y|];
      var u, v := Climb(t, a, x[m]), Climb(t, b, y[|y| - n]);
      assert Distance(t, a, b) == u + v;
      assert Distance(t, b, a) == v + u;
    }
  }

  /** The parent list from any entry on is the parent list of that entry. */
  lemma {:induction false} AncestorsFrom(t: seq<Node>, c: nat, i: nat)
    requires UpLinks(t) && c < |t| && i < |Ancestors(t, c)|
    ensures var a := Ancestors(t, c);
      a[i..] == if a[i].Some? then Ancestors(t, a[i].value) else [None]
    decreases c
  {
    var a := Ancestors(t, c);
    if i > 0 && t[c].parent.Some? {
      var q := t[c].parent.value;
      assert a[1..] == Ancestors(t, q);
      AncestorsFrom(t, q, i - 1);
      assert a[i..] == a[1..][i - 1..];
    }
  }

  /** An entry shared by two parent lists lies in their common tail. */
  lemma SharedInTail(t: seq<Node>, a: nat, b: nat, i: nat, j: nat)
    requires UpLinks(t) && a < |t| && b < |t|
    requires i < |Ancestors(t, a)| && j < |Ancestors(t, b)|
    ensures var x, y := Ancestors(t, a), Ancestors(t, b);
      x[i] == y[j] ==> |x| - CommonTail(x, y) <= i
  {
    var x, y := Ancestors(t, a), Ancestors(t, b);
    var n := CommonTail(x, y);
    if x[i] == y[j] {
      AncestorsFrom(t, a, i);
      AncestorsFrom(t, b, j);
      assert x[i..] == y[j..];
      SuffixInTail(x, y, i, j);
    }
  }

  /** Equal suffixes lie within the common tail. */
  lemma {:induction false} SuffixInTail(x: seq<Option<nat>>, y: seq<Option<nat>>, i: nat, j: nat)
    requires i < |x| && j <= |y| && x[i..] == y[j..]
    ensures |x| - CommonTail(x, y) <= i
    decreases |x|
  {
    assert x[|x| - 1] == x[i..][|x| - 1 - i] == y[|y| - 1];
    if i < |x| - 1 {
      var x', y' := x[..|x| - 1], y[..|y| - 1];
      assert x'[i..] == y'[j..];
      SuffixInTail(x', y', i, j);
    }
  }

  /** The entry calc_distance climbs to is the lowest common ancestor: it is on both parent
      lists, and no earlier entry of the first list is on the second. */
  lemma LowestCommon(t: seq<Node>, a: nat, b: nat)
    requires UpLinks(t) && a < |t| && b < |t| && a != b && Apart(t, a, b)
    ensures var x, y := Ancestors(t, a), Ancestors(t, b);
      var n := CommonTail(x, y);
      0 < n && x[|x| - n] in y && forall i :: 0 <= i < |x| - n ==> x[i] !in y
  {
    var x, y := Ancestors(t, a), Ancestors(t, b);
    var n := CommonTail(x, y);
    TailShort(t, a, b);
    assert x[|x| - n] == y[|y| - n];
    forall i, j | 0 <= i < |x| - n && 0 <= j < |y| ensures x[i] != y[j] {
      SharedInTail(t, a, b, i, j);
    }
  }

  /** Every entry of a parent list past the first names an internal node. */
  lemma AncestorsInternal(t: seq<Node>, c: nat)
    requires UpLinks(t) && Holders(t) && c < |t|
    ensures var r := Ancestors(t, c);
      forall i :: 0 < i < |r| - 1 ==> t[r[i].value].children
  {
    var r := Ancestors(t, c);
    forall i | 0 < i < |r| - 1 ensures t[r[i].value].children {
      assert r[i] == t[r[i - 1].value].parent;
    }
  }

  /** Two different leaves are never ancestors of each other, so calc_distance accepts every
      pair of leaves. */
  lemma LeavesApart(t: seq<Node>, a: nat, b: nat)
    requires UpLinks(t) && Holders(t) && a < |t| && b < |t| && a != b
    requires !t[a].children && !t[b].children
    ensures Apart(t, a, b)
  {
    AncestorsInternal(t, a);
    AncestorsInternal(t, b);
  }
}

=== FILE: flatten.dfy ===
/**
 * The traversal half of tree_t::make_flat_tree (src/tree.cpp:301-324): a stack and a FIFO
 * queue are seeded with the unroot list; every node popped from the stack that has two
 * children pushes both children onto the stack and the queue.  The queue order is the slot
 * order of the packed array.
 */
module Flatten {
  import opened Wrappers
  import opened Nodes

  /** What the traversal produces: `queue` lists heap nodes without repetition, starting with
      the roots; `kid[k]` is the queue position of the left child of the node at position `k`
      (the right child follows it); `up[c]` is the position of the node holding position `c`. */
  ghost predicate Layout(h: seq<Node>, roots: seq<nat>, queue: seq<nat>, kid: map<nat, nat>, up: map<nat, nat>)
  {
    && WQueue(h, roots, queue)
    && (forall k :: 0 <= k < |queue| ==> (k in kid <==> h[queue[k]].left.Some?))
    && KidFacts(h, queue, kid, up)
    && WUp(roots, queue, kid, up)
  }

  /** The queue starts with the roots and lists heap nodes without repetition. */
  ghost predicate WQueue(h: seq<Node>, roots: seq<nat>, queue: seq<nat>) {
    && |roots| <= |queue| && queue[..|roots|] == roots
    && Distinct(queue) && (forall k :: 0 <= k < |queue| ==> queue[k] < |h|)
  }

  /** `pos[i]` is the queue position at which stack entry `i` was queued. */
  ghost predicate WStack(stack: seq<nat>, queue: seq<nat>, pos: seq<nat>) {
    && |pos| == |stack|
    && (forall i :: 0 <= i < |pos| ==> pos[i] < |queue| && queue[pos[i]] == stack[i])
    && (forall a, b :: 0 <= a < b < |pos| ==> pos[a] < pos[b])
  }

  /** Every recorded child position follows its parent and holds the parent's children. */
  ghost predicate KidFacts(h: seq<Node>, queue: seq<nat>, kid: map<nat, nat>, up: map<nat, nat>)
    requires forall k :: 0 <= k < |queue| ==> queue[k] < |h|
  {
    forall k {:trigger kid[k]} :: k in kid ==>
      && k < kid[k] && kid[k] + 1 < |queue|
      && h[queue[k]].left == Some(queue[kid[k]]) && h[queue[k]].right == Some(queue[kid[k] + 1])
      && kid[k] in up && up[kid[k]] == k && kid[k] + 1 in up && up[kid[k] + 1] == k
  }

  /** Popped positions (those no longer on the stack) are in `kid` exactly when their node
      has children. */
  ghost predicate WKid(h: seq<Node>, queue: seq<nat>, pos: seq<nat>, kid: map<nat, nat>, up: map<nat, nat>)
    requires forall k :: 0 <= k < |queue| ==> queue[k] < |h|
  {
    && (forall k :: k in kid ==> k !in pos)
    && (forall k :: 0 <= k < |queue| && k !in pos ==> (k in kid <==> h[queue[k]].left.Some?))
    && KidFacts(h, queue, kid, up)
  }

  /** Every position past the roots is held by an earlier popped position. */
  ghost predicate WUp(roots: seq<nat>, queue: seq<nat>, kid: map<nat, nat>, up: map<nat, nat>) {
    && (forall c :: c in up <==> |roots| <= c < |queue|)
    && (forall c {:trigger up[c]} :: c in up ==> up[c] < c && up[c] in kid && (kid[up[c]] == c || kid[up[c]] + 1 == c))
  }

  ghost predicate Walking(h: seq<Node>, roots: seq<nat>, stack: seq<nat>, queue: seq<nat>,
                          pos: seq<nat>, kid: map<nat, nat>, up: map<nat, nat>)
  {
    && HeapTree(h, roots)
    && WQueue(h, roots, queue)
    && WStack(stack, queue, pos)
    && WKid(h, queue, pos, kid, up)
    && WUp(roots, queue, kid, up)
  }

  /** One pass of the traversal loop on a stack (top last) and a queue: the top is popped
      and, when it has two children, the left then the right child is pushed and queued. */
  ghost function Pass(h: seq<Node>, stack: seq<nat>, queue: seq<nat>): (r: (seq<nat>, seq<nat>))
    requires |stack| > 0
    ensures queue <= r.1
    ensures |r.1| - |r.0| == |queue| - |stack| + 1
  {
    var cur, rest := stack[|stack| - 1], stack[..|stack| - 1];
    if cur < |h| && h[cur].left.Some? && h[cur].right.Some? then
      var l, r := h[cur].left.value, h[cur].right.value;
      (rest + [l, r], queue + [l, r])
    else
      (rest, queue)
  }

  /** The queue left once at most `fuel` passes have run from `stack` and `queue`. */
  ghost function Discovered(h: seq<Node>, stack: seq<nat>, queue: seq<nat>, fuel: nat): (r: seq<nat>)
    ensures queue <= r
    decreases fuel
  {
    if |stack| == 0 || fuel == 0 then queue
    else
      var next := Pass(h, stack, queue);
      Discovered(h, next.0, next.1, fuel - 1)
  }

  /** The walk so far, with `fuel` passes left, still ends in `DiscoveryOrder`. */
  ghost predicate OnTrack(h: seq<Node>, roots: seq<nat>, stack: seq<nat>, queue: seq<nat>, fuel: nat) {
    Discovered(h, stack, queue, fuel) == DiscoveryOrder(h, roots)
  }

  /** A pass that still has fuel is one step of `Discovered`, so it stays on track. */
  lemma StaysOnTrack(h: seq<Node>, roots: seq<nat>, stack: seq<nat>, queue: seq<nat>, fuel: nat,
                     stack': seq<nat>, queue': seq<nat>, fuel': nat)
    requires OnTrack(h, roots, stack, queue, fuel) && |stack| > 0 && fuel == fuel' + 1
    requires (stack', queue') == Pass(h, stack, queue)
    ensures OnTrack(h, roots, stack', queue', fuel')
  {
  }

  /** The order in which make_flat_tree queues the forest hanging from `roots`: the roots,
      then the children of each node in the order the LIFO stack pops that node.  The walk
      pops each queued node once, so `|h|` passes are enough when no node repeats
      (`Traverse` shows the walk is over by then). */
  ghost function DiscoveryOrder(h: seq<Node>, roots: seq<nat>): (r: seq<nat>)
    ensures roots <= r
  {
    Discovered(h, roots, roots, |h|)
  }

  /** The walk is depth first, right child first: once a node's children `l`, `r` are
      queued, `r` is popped next, so the children of `r` follow immediately, before those of
      `l` (a breadth-first walk would queue the children of `l` first). */
  lemma {:induction false} RightKidsNext(h: seq<Node>, stack: seq<nat>, queue: seq<nat>, fuel: nat)
    requires |stack| > 0 && fuel >= 2 && stack[|stack| - 1] < |h|
    requires var c := h[stack[|stack| - 1]];
      c.left.Some? && c.right.Some? && c.right.value < |h|
      && h[c.right.value].left.Some? && h[c.right.value].right.Some?
    ensures var c := h[stack[|stack| - 1]]; var k := h[c.right.value];
      queue + [c.left.value, c.right.value, k.left.value, k.right.value] <= Discovered(h, stack, queue, fuel)
  {
    var c := h[stack[|stack| - 1]];
    var k := h[c.right.value];
    var first := Pass(h, stack, queue);
    assert first.0[|first.0| - 1] == c.right.value;
    var second := Pass(h, first.0, first.1);
    assert second.1 == queue + [c.left.value, c.right.value, k.left.value, k.right.value];
    assert Discovered(h, stack, queue, fuel) == Discovered(h, second.0, second.1, fuel - 2);
  }

  /** Lines 306-324 of make_flat_tree. */
  method Traverse(h: seq<Node>, roots: seq<nat>)
      returns (queue: seq<nat>, ghost kid: map<nat, nat>, ghost up: map<nat, nat>)
    requires HeapTree(h, roots)
    ensures queue == DiscoveryOrder(h, roots)
    ensures Layout(h, roots, queue, kid, up)
  {
    var stack := roots;
    queue := roots;
    ghost var pos: seq<nat> := Range(|roots|);
    kid, up := map[], map[];
    ghost var fuel: nat := |h|;
    WalkStart(h, roots);
    while |stack| > 0
      invariant Walking(h, roots, stack, queue, pos, kid, up) && |queue| <= |h|
      invariant fuel + |queue| == |h| + |stack|
      invariant OnTrack(h, roots, stack, queue, fuel)
      decreases |h| - |queue|, |stack|
    {
      ghost var stack0, queue0, fuel0 := stack, queue, fuel;
      stack, queue, pos, kid, up := Pop(h, roots, stack, queue, pos, kid, up);
      fuel := fuel - 1;
      StaysOnTrack(h, roots, stack0, queue0, fuel0, stack, queue, fuel);
    }
    WalkDone(h, roots, queue, kid, up);
  }

  /** One iteration of the traversal loop: pop the top of the stack and, when it has
      children, push and queue its left then its right child. */
  method Pop(h: seq<Node>, roots: seq<nat>, stack: seq<nat>, queue: seq<nat>,
             ghost pos: seq<nat>, ghost kid: map<nat, nat>, ghost up: map<nat, nat>)
      returns (stack': seq<nat>, queue': seq<nat>, ghost pos': seq<nat>, ghost kid': map<nat, nat>, ghost up': map<nat, nat>)
    requires Walking(h, roots, stack, queue, pos, kid, up) && |stack| > 0
    ensures Walking(h, roots, stack', queue', pos', kid', up') && |queue'| <= |h|
    ensures (stack', queue') == Pass(h, stack, queue)
    ensures |queue| < |queue'| || (queue' == queue && |stack'| < |stack|)
  {
    TopOf(h, roots, stack, queue, pos, kid, up);
    var cur := stack[|stack| - 1];
    if h[cur].left.Some? && h[cur].right.Some? {
      stack', queue', pos', kid', up' := PushKids(h, roots, stack, queue, pos, kid, up);
    } else {
      stack', queue', pos', kid', up' := stack[..|stack| - 1], queue, pos[..|pos| - 1], kid, up;
      PopLeaf(h, roots, stack, queue, pos, kid, up, stack', pos');
      WalkBound(h, roots, stack', queue', pos', kid', up');
    }
  }

  /** The popped node has children: both are pushed and queued. */
  method PushKids(h: seq<Node>, roots: seq<nat>, stack: seq<nat>, queue: seq<nat>,
                  ghost pos: seq<nat>, ghost kid: map<nat, nat>, ghost up: map<nat, nat>)
      returns (stack': seq<nat>, queue': seq<nat>, ghost pos': seq<nat>, ghost kid': map<nat, nat>, ghost up': map<nat, nat>)
    requires Walking(h, roots, stack, queue, pos, kid, up) && |stack| > 0 && |pos| == |stack|
    requires stack[|stack| - 1] < |h| && h[stack[|stack| - 1]].left.Some? && h[stack[|stack| - 1]].right.Some?
    ensures Walking(h, roots, stack', queue', pos', kid', up') && |queue'| <= |h| && |queue| < |queue'|
    ensures (stack', queue') == Pass(h, stack, queue)
  {
    var cur := stack[|stack| - 1];
    var l, r := h[cur].left.value, h[cur].right.value;
    ghost var pc, n := pos[|pos| - 1], |queue|;
    stack', queue' := stack[..|stack| - 1] + [l, r], queue + [l, r];
    pos', kid', up' := pos[..|pos| - 1] + [n, n + 1], kid[pc := n], up[n := pc][n + 1 := pc];
    PopInternal(h, roots, stack, queue, pos, kid, up, stack', queue', pos', kid', up');
    WalkBound(h, roots, stack', queue', pos', kid', up');
  }

  lemma TopOf(h: seq<Node>, roots: seq<nat>, stack: seq<nat>, queue: seq<nat>,
              pos: seq<nat>, kid: map<nat, nat>, up: map<nat, nat>)
    requires Walking(h, roots, stack, queue, pos, kid, up) && |stack| > 0
    ensures |pos| == |stack| && stack[|stack| - 1] < |h| && pos[|pos| - 1] < |queue|
  {
    assert queue[pos[|pos| - 1]] == stack[|stack| - 1];
  }

  /** The queue never repeats a node, so it is no longer than the heap. */
  lemma WalkBound(h: seq<Node>, roots: seq<nat>, stack: seq<nat>, queue: seq<nat>,
                  pos: seq<nat>, kid: map<nat, nat>, up: map<nat, nat>)
    requires Walking(h, roots, stack, queue, pos, kid, up)
    ensures |queue| <= |h|
  {
    DistinctBounded(queue, |h|);
  }

  lemma WalkStart(h: seq<Node>, roots: seq<nat>)
    requires HeapTree(h, roots)
    ensures Walking(h, roots, roots, roots, Range(|roots|), map[], map[]) && |roots| <= |h|
  {
    assert forall k :: 0 <= k < |roots| ==> roots[k] in roots;
    DistinctBounded(roots, |h|);
  }

  lemma WalkDone(h: seq<Node>, roots: seq<nat>, queue: seq<nat>, kid: map<nat, nat>, up: map<nat, nat>)
    requires Walking(h, roots, [], queue, [], kid, up)
    ensures Layout(h, roots, queue, kid, up)
  {
  }

  lemma PopLeaf(h: seq<Node>, roots: seq<nat>, stack: seq<nat>, queue: seq<nat>,
                pos: seq<nat>, kid: map<nat, nat>, up: map<nat, nat>, stack': seq<nat>, pos': seq<nat>)
    requires Walking(h, roots, stack, queue, pos, kid, up) && |stack| > 0
    requires h[stack[|stack| - 1]].left.None? || h[stack[|stack| - 1]].right.None?
    requires stack' == stack[..|stack| - 1] && pos' == pos[..|pos| - 1]
    ensures Walking(h, roots, stack', queue, pos', kid, up)
  {
    var pc := pos[|pos| - 1];
    forall k | 0 <= k < |queue| && k !in pos' ensures k in kid <==> h[queue[k]].left.Some? {
      if k == pc {
        assert Shaped(h, queue[pc]);
        assert pc !in kid;
      }
    }
  }

  lemma PopInternal(h: seq<Node>, roots: seq<nat>, stack: seq<nat>, queue: seq<nat>,
                    pos: seq<nat>, kid: map<nat, nat>, up: map<nat, nat>,
                    stack': seq<nat>, queue': seq<nat>, pos': seq<nat>, kid': map<nat, nat>, up': map<nat, nat>)
    requires Walking(h, roots, stack, queue, pos, kid, up) && |stack| > 0
    requires h[stack[|stack| - 1]].left.Some? && h[stack[|stack| - 1]].right.Some?
    requires var cur, pc, n := stack[|stack| - 1], pos[|pos| - 1], |queue|;
      var l, r := h[cur].left.value, h[cur].right.value;
      && stack' == stack[..|stack| - 1] + [l, r] && queue' == queue + [l, r] && pos' == pos[..|pos| - 1] + [n, n + 1]
      && kid' == kid[pc := n] && up' == up[n := pc][n + 1 := pc]
    ensures Walking(h, roots, stack', queue', pos', kid', up')
  {
    var cur, pc, n := stack[|stack| - 1], pos[|pos| - 1], |queue|;
    var l, r := h[cur].left.value, h[cur].right.value;
    assert pc < |queue| && queue[pc] == cur && pc !in kid;
    assert Shaped(h, cur);
    QueuePush(h, roots, queue, kid, up, pc);
    StackPush(stack, queue, pos, l, r);
    KidPush(h, queue, pos, kid, up, pc);
    UpPush(roots, queue, kid, up, pc, l, r);
  }

  lemma QueuePush(h: seq<Node>, roots: seq<nat>, queue: seq<nat>, kid: map<nat, nat>, up: map<nat, nat>, pc: nat)
    requires HeapTree(h, roots) && WQueue(h, roots, queue) && WUp(roots, queue, kid, up)
    requires KidFacts(h, queue, kid, up)
    requires pc < |queue| && pc !in kid && h[queue[pc]].left.Some? && h[queue[pc]].right.Some?
    ensures var cur := queue[pc]; WQueue(h, roots, queue + [h[cur].left.value, h[cur].right.value])
  {
    var cur := queue[pc];
    var l, r := h[cur].left.value, h[cur].right.value;
    assert Shaped(h, cur);
    FreshKid(h, roots, queue, kid, up, pc, l);
    FreshKid(h, roots, queue, kid, up, pc, r);
    var queue' := queue + [l, r];
    var n := |queue|;
    assert queue'[..|roots|] == roots by { assert queue'[..|roots|] == queue[..|roots|]; }
    forall a, b | 0 <= a < b < |queue'| ensures queue'[a] != queue'[b] {
      if b >= n && a < n { assert queue'[a] in queue; }
    }
  }

  lemma StackPush(stack: seq<nat>, queue: seq<nat>, pos: seq<nat>, l: nat, r: nat)
    requires WStack(stack, queue, pos) && |stack| > 0
    ensures var n := |queue|;
      WStack(stack[..|stack| - 1] + [l, r], queue + [l, r], pos[..|pos| - 1] + [n, n + 1])
  {
  }

  lemma KidPush(h: seq<Node>, queue: seq<nat>, pos: seq<nat>, kid: map<nat, nat>, up: map<nat, nat>, pc: nat)
    requires forall k :: 0 <= k < |queue| ==> queue[k] < |h|
    requires pc < |queue|
    requires WKid(h, queue, pos, kid, up) && Shaped(h, queue[pc])
    requires |pos| > 0 && pc == pos[|pos| - 1]
    requires forall a :: 0 <= a < |pos| - 1 ==> pos[a] < pc
    requires h[queue[pc]].left.Some? && h[queue[pc]].right.Some?
    ensures var cur, n := queue[pc], |queue|;
      var l, r := h[cur].left.value, h[cur].right.value;
      && (forall k :: 0 <= k < |queue + [l, r]| ==> (queue + [l, r])[k] < |h|)
      && WKid(h, queue + [l, r], pos[..|pos| - 1] + [n, n + 1], kid[pc := n], up[n := pc][n + 1 := pc])
  {
    var cur, n := queue[pc], |queue|;
    var l, r := h[cur].left.value, h[cur].right.value;
    var queue' := queue + [l, r];
    var pos' := pos[..|pos| - 1] + [n, n + 1];
    var kid' := kid[pc := n];
    assert Shaped(h, cur);
    assert forall k :: 0 <= k < |queue'| ==> queue'[k] < |h|;
    forall k | k in kid' ensures k !in pos' {
      if k != pc { assert k in kid && k < |queue|; }
    }
    forall k | 0 <= k < |queue'| && k !in pos' ensures k in kid' <==> h[queue'[k]].left.Some? {
      if k < n && k != pc { assert k !in pos; }
    }
    KidFactsPush(h, queue, kid, up, pc, l, r);
  }

  lemma KidFactsPush(h: seq<Node>, queue: seq<nat>, kid: map<nat, nat>, up: map<nat, nat>, pc: nat, l: nat, r: nat)
    requires forall k :: 0 <= k < |queue| ==> queue[k] < |h|
    requires l < |h| && r < |h|
    requires KidFacts(h, queue, kid, up)
    requires pc < |queue| && pc !in kid && h[queue[pc]].left == Some(l) && h[queue[pc]].right == Some(r)
    ensures forall k :: 0 <= k < |queue + [l, r]| ==> (queue + [l, r])[k] < |h|
    ensures var n := |queue|; KidFacts(h, queue + [l, r], kid[pc := n], up[n := pc][n + 1 := pc])
  {
    var n := |queue|;
    var queue', kid', up' := queue + [l, r], kid[pc := n], up[n := pc][n + 1 := pc];
    assert forall k :: 0 <= k < |queue'| ==> queue'[k] < |h|;
    forall k | k in kid' ensures
      && k < kid'[k] && kid'[k] + 1 < |queue'|
      && h[queue'[k]].left == Some(queue'[kid'[k]]) && h[queue'[k]].right == Some(queue'[kid'[k] + 1])
      && kid'[k] in up' && up'[kid'[k]] == k && kid'[k] + 1 in up' && up'[kid'[k] + 1] == k
    {
      if k != pc { assert k in kid; }
    }
  }

  lemma UpPush(roots: seq<nat>, queue: seq<nat>, kid: map<nat, nat>, up: map<nat, nat>, pc: nat, l: nat, r: nat)
    requires WUp(roots, queue, kid, up) && |roots| <= |queue| && pc < |queue|
    requires pc !in kid
    ensures var n := |queue|; WUp(roots, queue + [l, r], kid[pc := n], up[n := pc][n + 1 := pc])
  {
    var n := |queue|;
    var kid', up' := kid[pc := n], up[n := pc][n + 1 := pc];
    forall c | c in up' ensures up'[c] < c && up'[c] in kid' && (kid'[up'[c]] == c || kid'[up'[c]] + 1 == c) {
      if c < n {
        assert up'[c] == up[c] && up[c] in kid && up[c] != pc;
      }
    }
  }

  /** A child of the node at queue position `pc`, which is being popped, is not yet queued:
      roots have no holder, and any other queued node is held by an already popped node. */
  lemma FreshKid(h: seq<Node>, roots: seq<nat>, queue: seq<nat>, kid: map<nat, nat>, up: map<nat, nat>,
                 pc: nat, c: nat)
    requires HeapTree(h, roots) && WQueue(h, roots, queue) && WUp(roots, queue, kid, up)
    requires KidFacts(h, queue, kid, up)
    requires pc < |queue| && IsKid(h, queue[pc], c) && pc !in kid
    ensures c !in queue
  {
    forall p | 0 <= p < |queue| ensures queue[p] != c {
      if p < |roots| {
        assert queue[p] == roots[p] && roots[p] in roots;
      } else {
        OtherHolder(h, roots, queue, kid, up, pc, p);
      }
    }
  }

  /** A queued non-root node is held by a popped node, hence not by the node at `pc`. */
  lemma OtherHolder(h: seq<Node>, roots: seq<nat>, queue: seq<nat>, kid: map<nat, nat>, up: map<nat, nat>,
                    pc: nat, p: nat)
    requires WQueue(h, roots, queue) && WUp(roots, queue, kid, up) && KidFacts(h, queue, kid, up)
    requires pc < |queue| && pc !in kid && |roots| <= p < |queue|
    ensures exists j :: 0 <= j < |queue| && queue[j] != queue[pc] && IsKid(h, queue[j], queue[p])
  {
    var j := up[p];
    assert j < p && j in kid && j != pc;
    assert kid[j] == p || kid[j] + 1 == p;
    assert queue[j] != queue[pc];
    assert IsKid(h, queue[j], queue[p]);
  }
}

module Relink {
  import opened Wrappers
  import opened Nodes
  import opened Flatten

  /** Slot `j` of the packed array once relinked: the queued node with its children
      renamed to their queue positions and its parent set to its holder's position. */
  ghost function Relinked(h: seq<Node>, roots: seq<nat>, queue: seq<nat>, kid: map<nat, nat>,
                          up: map<nat, nat>, j: nat): Node
    requires WQueue(h, roots, queue) && j < |queue|
  {
    var n := h[queue[j]];
    n.(left := if j in kid then Some(kid[j]) else n.left,
       right := if j in kid then Some(kid[j] + 1) else n.right,
       parent := if j in up then Some(up[j]) else None)
  }

  ghost function Final(h: seq<Node>, roots: seq<nat>, queue: seq<nat>, kid: map<nat, nat>, up: map<nat, nat>)
    : (F: seq<Node>)
    requires WQueue(h, roots, queue)
    ensures |F| == |queue| && forall j :: 0 <= j < |queue| ==> F[j] == Relinked(h, roots, queue, kid, up, j)
  {
    seq(|queue|, j requires 0 <= j < |queue| => Relinked(h, roots, queue, kid, up, j))
  }

  /** The relinked queue is a packed tree whose top slots are the roots' positions. */
  lemma FinalPacked(h: seq<Node>, roots: seq<nat>, queue: seq<nat>, kid: map<nat, nat>, up: map<nat, nat>)
    requires HeapTree(h, roots) && Layout(h, roots, queue, kid, up)
    ensures Packed(Final(h, roots, queue, kid, up), |roots|)
  {
    var F, k := Final(h, roots, queue, kid, up), |roots|;
    forall j | 0 <= j < |F| ensures Ordered(F, j) {
      FinalOrdered(h, roots, queue, kid, up, j);
    }
    forall j | 0 <= j < |F| ensures Linked(F, k, j) {
      FinalOrdered(h, roots, queue, kid, up, j);
      FinalLinked(h, roots, queue, kid, up, j);
    }
  }

  lemma FinalOrdered(h: seq<Node>, roots: seq<nat>, queue: seq<nat>, kid: map<nat, nat>, up: map<nat, nat>, j: nat)
    requires HeapTree(h, roots) && Layout(h, roots, queue, kid, up) && j < |queue|
    ensures Ordered(Final(h, roots, queue, kid, up), j)
  {
    assert Shaped(h, queue[j]);
  }

  lemma FinalLinked(h: seq<Node>, roots: seq<nat>, queue: seq<nat>, kid: map<nat, nat>, up: map<nat, nat>, j: nat)
    requires Layout(h, roots, queue, kid, up) && j < |queue|
    requires Ordered(Final(h, roots, queue, kid, up), j)
    ensures Linked(Final(h, roots, queue, kid, up), |roots|, j)
  {
    var F := Final(h, roots, queue, kid, up);
    if F[j].children {
      assert j in kid;
      FinalDown(h, roots, queue, kid, up, j);
    }
    if j >= |roots| {
      FinalUp(h, roots, queue, kid, up, j);
    } else {
      assert j !in up;
    }
  }

  lemma FinalDown(h: seq<Node>, roots: seq<nat>, queue: seq<nat>, kid: map<nat, nat>, up: map<nat, nat>, j: nat)
    requires WQueue(h, roots, queue) && KidFacts(h, queue, kid, up) && j < |queue| && j in kid
    ensures var F := Final(h, roots, queue, kid, up);
      F[j].left == Some(kid[j]) && F[j].right == Some(kid[j] + 1) && kid[j] + 1 < |F|
      && F[kid[j]].parent == Some(j) && F[kid[j] + 1].parent == Some(j)
  {
    var c := kid[j];
    assert c in up && c + 1 in up && up[c] == j && up[c + 1] == j;
  }

  lemma FinalUp(h: seq<Node>, roots: seq<nat>, queue: seq<nat>, kid: map<nat, nat>, up: map<nat, nat>, j: nat)
    requires WQueue(h, roots, queue) && WUp(roots, queue, kid, up) && |roots| <= j < |queue|
    ensures var F := Final(h, roots, queue, kid, up);
      F[j].parent.Some? && F[j].parent.value < j && IsKid(F, F[j].parent.value, j)
  {
    var p := up[j];
    assert p in kid && p < j && (kid[p] == j || kid[p] + 1 == j);
    FinalHolder(h, roots, queue, kid, up, p, j);
  }

  lemma FinalHolder(h: seq<Node>, roots: seq<nat>, queue: seq<nat>, kid: map<nat, nat>, up: map<nat, nat>, p: nat, j: nat)
    requires WQueue(h, roots, queue) && p < j < |queue| && j in up && up[j] == p
    requires p in kid && (kid[p] == j || kid[p] + 1 == j)
    ensures var F := Final(h, roots, queue, kid, up); F[j].parent == Some(p) && IsKid(F, p, j)
  {
    var F := Final(h, roots, queue, kid, up);
    assert F[p] == Relinked(h, roots, queue, kid, up, p);
  }

  // ---------------------------------------------------------------------------------------
  // node_t::update_children (src/tree.cpp:47-56)
  // ---------------------------------------------------------------------------------------

  /** `n` is the copied node of slot `f` before relinking: same label, weight and flag, and
      children that `index` renames to the final children. */
  predicate Unlinked(index: map<nat, nat>, n: Node, f: Node) {
    && n.name == f.name && n.weight == f.weight && n.children == f.children
    && (if n.children
        then n.left.Some? && n.right.Some? && n.left.value in index && n.right.value in index
             && f.left == Some(index[n.left.value]) && f.right == Some(index[n.right.value])
        else n.left == f.left && n.right == f.right)
  }

  /** Straight after the copy loop every slot holds its queued node, which is the final slot
      up to relinking. */
  lemma CopiesUnlinked(h: seq<Node>, roots: seq<nat>, queue: seq<nat>, kid: map<nat, nat>, up: map<nat, nat>,
                       index: map<nat, nat>, j: nat)
    requires WQueue(h, roots, queue) && KidFacts(h, queue, kid, up) && j < |queue|
    requires Shaped(h, queue[j]) && (j in kid <==> h[queue[j]].left.Some?)
    requires forall i :: 0 <= i < |queue| ==> queue[i] in index && index[queue[i]] == i
    ensures Unlinked(index, h[queue[j]], Final(h, roots, queue, kid, up)[j])
  {
    if j in kid {
      assert queue[kid[j]] in index && queue[kid[j] + 1] in index;
    }
  }

  /** Relinks the subtree at slot `x` of the new array: its parent becomes `p` and its child
      links are renamed through `index`, recursively.  `F` is the packed tree this produces. */
  method UpdateChildren(a: array<Node>, index: map<nat, nat>, x: nat, p: Option<nat>,
                        ghost F: seq<Node>, ghost k: nat)
    requires Packed(F, k) && a.Length == |F| && x < |F| && F[x].parent == p
    requires forall y :: 0 <= y < a.Length && y in Sub(F, k, x) ==> Unlinked(index, a[y], F[y])
    modifies a
    ensures forall y :: 0 <= y < a.Length && y in Sub(F, k, x) ==> a[y] == F[y]
    ensures forall y :: 0 <= y < a.Length && y !in Sub(F, k, x) ==> a[y] == old(a[y])
    decreases |F| - x
  {
    var n := a[x].(parent := p);
    if n.children {
      var l, r := index[n.left.value], index[n.right.value];
      a[x] := n.(left := Some(l), right := Some(r));
      KidsDisjoint(F, k, x);
      Linked1(F, k, x);
      UpdateChildren(a, index, l, Some(x), F, k);
      UpdateChildren(a, index, r, Some(x), F, k);
    } else {
      a[x] := n;
    }
  }

  lemma Linked1(t: seq<Node>, k: nat, i: nat)
    requires Packed(t, k) && i < |t| && t[i].children
    ensures Ordered(t, i) && t[t[i].left.value].parent == Some(i) && t[t[i].right.value].parent == Some(i)
  {
    assert Ordered(t, i) && Linked(t, k, i);
  }
}

=== FILE: matrix.dfy ===
/**
 * The distance matrix of a packed tree (calc_distance_matrix and make_label_map of
 * src/tree.cpp): leaves are numbered by their labels, and cell (a, b) of a row-major
 * matrix holds the distance between the leaves numbered a and b.
 */
module Matrices {
  import opened Nodes
  import opened Distances

  /** The leaf slots among the first `n` slots, in slot order. */
  function LeafSlots(t: seq<Node>, n: nat): (r: seq<nat>)
    requires n <= |t|
    ensures |r| <= n
    ensures forall a :: 0 <= a < |r| ==> r[a] < n && !t[r[a]].children
  {
    if n == 0 then [] else LeafSlots(t, n - 1) + (if !t[n - 1].children then [n - 1] else [])
  }

  /** The number make_label_map gives the leaf in slot `s`: how many leaves come before it. */
  function Rank(t: seq<Node>, s: nat): nat
    requires s <= |t|
  {
    |LeafSlots(t, s)|
  }

  /** No two leaves share a label. */
  ghost predicate DistinctLeafLabels(t: seq<Node>) {
    forall i, j :: 0 <= i < j < |t| && !t[i].children && !t[j].children ==> t[i].name != t[j].name
  }

  /** The cell count of a square matrix with rows of length `row`. */
  function Square(row: nat): nat {
    row * row
  }

  /** Cell (a, b) of a row-major matrix with rows of length `row`. */
  function Cell(row: nat, a: nat, b: nat): (c: nat)
    requires a < row && b < row
    ensures c < row * row
  {
    CellBound(row, a, b);
    row * a + b
  }

  lemma {:induction false} RankMonotone(t: seq<Node>, s: nat, n: nat)
    requires s <= n <= |t|
    ensures Rank(t, s) <= Rank(t, n)
    decreases n
  {
    if s < n {
      RankMonotone(t, s, n - 1);
    }
  }

  /** Ranks number the leaves 0, 1, ... in slot order without gaps. */
  lemma RankOrder(t: seq<Node>, s: nat, n: nat)
    requires s < n <= |t| && !t[s].children
    ensures Rank(t, s) < Rank(t, n)
  {
    RankMonotone(t, s + 1, n);
  }

  /** The `a`-th leaf has rank `a`. */
  lemma {:induction false} RankOfSlot(t: seq<Node>, n: nat, a: nat)
    requires n <= |t| && a < |LeafSlots(t, n)|
    ensures Rank(t, LeafSlots(t, n)[a]) == a
    decreases n
  {
    var L, L' := LeafSlots(t, n), LeafSlots(t, n - 1);
    assert L == L' + (if !t[n - 1].children then [n - 1] else []);
    if a < |L'| {
      assert L[a] == L'[a];
      RankOfSlot(t, n - 1, a);
    } else {
      assert L[a] == n - 1 && Rank(t, n - 1) == a;
    }
  }

  /** The leaf of rank `Rank(t, s)` is `s`. */
  lemma {:induction false} SlotOfRank(t: seq<Node>, s: nat, n: nat)
    requires s < n <= |t| && !t[s].children
    ensures Rank(t, s) < |LeafSlots(t, n)| && LeafSlots(t, n)[Rank(t, s)] == s
    decreases n
  {
    if s < n - 1 {
      SlotOfRank(t, s, n - 1);
    }
  }

  lemma CellBound(row: nat, a: nat, b: nat)
    requires a < row && b < row
    ensures row * a + b < row * row
  {
    assert row * a + b < row * a + row == row * (a + 1) <= row * row;
  }

  lemma CellsApart(row: nat, a: nat, b: nat, c: nat, e: nat)
    requires a < row && b < row && c < row && e < row && (a != c || b != e)
    ensures Cell(row, a, b) != Cell(row, c, e)
  {
    if a < c {
      RowBelow(row, a, b, c, e);
    } else if c < a {
      RowBelow(row, c, e, a, b);
    }
  }

  /** A cell of an earlier row comes before every cell of a later one. */
  lemma RowBelow(row: nat, a: nat, b: nat, c: nat, e: nat)
    requires a < c && b < row
    ensures row * a + b < row * c + e
  {
    var d: nat := c - a - 1;
    assert row * c == row * (a + 1 + d) == row * a + row + row * d;
    assert row * d >= 0;
  }

  /** Leaf `s` is the last leaf labelled `t[s].name`. */
  predicate LastOfLabel(t: seq<Node>, s: nat, n: nat)
    requires s < n <= |t|
  {
    forall u :: s < u < n && !t[u].children ==> t[u].name != t[s].name
  }

  /** make_label_map: numbers the leaves 0, 1, ... in slot order under their labels; a later
      leaf with the same label overwrites the number of an earlier one. */
  method MakeLabelMap(t: seq<Node>) returns (m: map<string, nat>)
    ensures forall s :: 0 <= s < |t| && !t[s].children ==> t[s].name in m
    ensures forall x :: x in m ==> exists s :: 0 <= s < |t| && !t[s].children && t[s].name == x
    ensures forall s :: 0 <= s < |t| && !t[s].children && LastOfLabel(t, s, |t|) ==> m[t[s].name] == Rank(t, s)
    ensures DistinctLeafLabels(t) ==> |m| == |LeafSlots(t, |t|)|
  {
    var index := 0;
    m := map[];
    for i := 0 to |t|
      invariant index == Rank(t, i)
      invariant forall s :: 0 <= s < i && !t[s].children ==> t[s].name in m
      invariant forall x :: x in m ==> exists s :: 0 <= s < i && !t[s].children && t[s].name == x
      invariant forall s :: 0 <= s < i && !t[s].children && LastOfLabel(t, s, i) ==> m[t[s].name] == Rank(t, s)
      invariant DistinctLeafLabels(t) ==> |m| == index
    {
      if !t[i].children {
        if DistinctLeafLabels(t) {
          assert t[i].name !in m;
        }
        m := m[t[i].name := index];
        index := index + 1;
      }
    }
  }

  /** The distance calc_distance finds between two leaves; they are never ancestors of each
      other, so the distance is always defined. */
  function LeafDistance(t: seq<Node>, a: nat, b: nat): real
    requires UpLinks(t) && Holders(t) && a < |t| && b < |t| && !t[a].children && !t[b].children
  {
    if a == b then 0.0 else LeavesApart(t, a, b); Distance(t, a, b)
  }

  /** `lm` numbers the leaf labels injectively with numbers below its size. */
  ghost predicate Numbering(t: seq<Node>, lm: map<string, nat>) {
    && (forall s :: 0 <= s < |t| && !t[s].children ==> t[s].name in lm && lm[t[s].name] < |lm|)
    && (forall s, u :: 0 <= s < |t| && 0 <= u < |t| && s != u && !t[s].children && !t[u].children ==>
          t[s].name !in lm || t[u].name !in lm || lm[t[s].name] != lm[t[u].name])
  }

  /** calc_distance_matrix(label_map, dists): for every ordered pair of leaves, stores their
      distance in the cell their label numbers select. */
  method FillDistanceMatrix(t: seq<Node>, lm: map<string, nat>, dists: array<real>)
    requires UpLinks(t) && Holders(t) && Numbering(t, lm) && dists.Length == |lm| * |lm|
    modifies dists
    ensures forall s, u :: 0 <= s < |t| && 0 <= u < |t| && !t[s].children && !t[u].children ==>
      dists[Cell(|lm|, lm[t[s].name], lm[t[u].name])] == LeafDistance(t, s, u)
  {
    var row := |lm|;
    for i := 0 to |t|
      invariant forall s, u :: 0 <= s < i && 0 <= u < |t| && !t[s].children && !t[u].children ==>
        dists[Cell(row, lm[t[s].name], lm[t[u].name])] == LeafDistance(t, s, u)
    {
      if !t[i].children {
        FillRow(t, lm, dists, i);
      }
    }
  }

  /** One row of calc_distance_matrix: the leaf in slot `i` gets its row, starting with a
      zero in the first column and then every leaf's distance; other rows stay as they were. */
  method FillRow(t: seq<Node>, lm: map<string, nat>, dists: array<real>, i: nat)
    requires UpLinks(t) && Holders(t) && Numbering(t, lm) && dists.Length == |lm| * |lm|
    requires i < |t| && !t[i].children
    modifies dists
    ensures forall u :: 0 <= u < |t| && !t[u].children ==>
      dists[Cell(|lm|, lm[t[i].name], lm[t[u].name])] == LeafDistance(t, i, u)
    ensures forall a, b :: 0 <= a < |lm| && 0 <= b < |lm| && a != lm[t[i].name] ==>
      dists[Cell(|lm|, a, b)] == old(dists[Cell(|lm|, a, b)])
  {
    var row := |lm|;
    var mi := lm[t[i].name];
    dists[Cell(row, mi, 0)] := 0.0;
    forall a, b | 0 <= a < row && 0 <= b < row && a != mi
      ensures Cell(row, a, b) != Cell(row, mi, 0) && Cell(row, a, b) < dists.Length
    {
      CellsApart(row, a, b, mi, 0);
    }
    for j := 0 to |t|
      invariant forall u :: 0 <= u < j && !t[u].children ==>
        dists[Cell(row, mi, lm[t[u].name])] == LeafDistance(t, i, u)
      invariant forall a, b :: 0 <= a < row && 0 <= b < row && a != mi ==>
        dists[Cell(row, a, b)] == old(dists[Cell(row, a, b)])
    {
      if !t[j].children {
        var mj := lm[t[j].name];
        if i != j {
          LeavesApart(t, i, j);
        }
        var d := CalcDistance(t, i, j);
        forall u | 0 <= u < j && !t[u].children ensures Cell(row, mi, lm[t[u].name]) != Cell(row, mi, mj) {
          CellsApart(row, mi, lm[t[u].name], mi, mj);
        }
        forall a, b | 0 <= a < row && 0 <= b < row && a != mi ensures Cell(row, a, b) != Cell(row, mi, mj) {
          CellsApart(row, a, b, mi, mj);
        }
        dists[Cell(row, mi, mj)] := d;
      }
    }
  }

  /** `d` is the distance matrix of `t`: one row and one column per leaf, numbered by rank,
      each cell holding the distance between its two leaves. */
  ghost predicate DistanceMatrix(t: seq<Node>, d: seq<real>)
    requires UpLinks(t) && Holders(t)
  {
    var n := Rank(t, |t|);
    && |d| == n * n
    && forall s, u :: 0 <= s < |t| && 0 <= u < |t| && !t[s].children && !t[u].children ==>
         Rank(t, s) < n && Rank(t, u) < n && d[Cell(n, Rank(t, s), Rank(t, u))] == LeafDistance(t, s, u)
  }

  /** With distinct leaf labels, the label map numbers each leaf by its rank. */
  lemma RankNumbering(t: seq<Node>, lm: map<string, nat>)
    requires DistinctLeafLabels(t) && |lm| == Rank(t, |t|)
    requires forall s :: 0 <= s < |t| && !t[s].children ==> t[s].name in lm
    requires forall s :: 0 <= s < |t| && !t[s].children && LastOfLabel(t, s, |t|) ==> lm[t[s].name] == Rank(t, s)
    ensures Numbering(t, lm)
    ensures forall s :: 0 <= s < |t| && !t[s].children ==> lm[t[s].name] == Rank(t, s)
  {
    forall s | 0 <= s < |t| && !t[s].children ensures lm[t[s].name] == Rank(t, s) < |lm| {
      RankOrder(t, s, |t|);
    }
    forall s, u | 0 <= s < u < |t| && !t[s].children && !t[u].children
      ensures lm[t[s].name] != lm[t[u].name]
    {
      RankOrder(t, s, u);
    }
  }

  /** Cells addressed through a rank numbering make the distance matrix. */
  lemma MatrixByRank(t: seq<Node>, lm: map<string, nat>, d: seq<real>)
    requires UpLinks(t) && Holders(t) && Numbering(t, lm) && |lm| == Rank(t, |t|) && |d| == |lm| * |lm|
    requires forall s :: 0 <= s < |t| && !t[s].children ==> lm[t[s].name] == Rank(t, s)
    requires forall s, u :: 0 <= s < |t| && 0 <= u < |t| && !t[s].children && !t[u].children ==>
      d[Cell(|lm|, lm[t[s].name], lm[t[u].name])] == LeafDistance(t, s, u)
    ensures DistanceMatrix(t, d)
  {
  }

  /** Every cell of the matrix is filled: cell (a, b) holds the distance between the `a`-th
      and the `b`-th leaf. */
  lemma MatrixCells(t: seq<Node>, d: seq<real>)
    requires UpLinks(t) && Holders(t) && DistanceMatrix(t, d)
    ensures var L := LeafSlots(t, |t|);
      forall a, b :: 0 <= a < |L| && 0 <= b < |L| ==> d[Cell(|L|, a, b)] == LeafDistance(t, L[a], L[b])
  {
    var L := LeafSlots(t, |t|);
    forall a, b | 0 <= a < |L| && 0 <= b < |L|
      ensures d[Cell(|L|, a, b)] == LeafDistance(t, L[a], L[b])
    {
      RankOfSlot(t, |t|, a);
      RankOfSlot(t, |t|, b);
    }
  }

  /** The matrix is symmetric with a zero diagonal. */
  lemma MatrixSymmetric(t: seq<Node>, d: seq<real>)
    requires UpLinks(t) && Holders(t) && DistanceMatrix(t, d)
    ensures var n := Rank(t, |t|);
      forall a, b :: 0 <= a < n && 0 <= b < n ==> d[Cell(n, a, b)] == d[Cell(n, b, a)]
    ensures var n := Rank(t, |t|);
      forall a :: 0 <= a < n ==> d[Cell(n, a, a)] == 0.0
  {
    var n := Rank(t, |t|);
    forall a, b | 0 <= a < n && 0 <= b < n ensures d[Cell(n, a, b)] == d[Cell(n, b, a)] {
      CellsSymmetric(t, d, a, b);
    }
    forall a | 0 <= a < n ensures d[Cell(n, a, a)] == 0.0 {
      RankOfSlot(t, |t|, a);
    }
  }

  lemma CellsSymmetric(t: seq<Node>, d: seq<real>, a: nat, b: nat)
    requires UpLinks(t) && Holders(t) && DistanceMatrix(t, d)
    requires a < Rank(t, |t|) && b < Rank(t, |t|)
    ensures var n := Rank(t, |t|);
      d[Cell(n, a, b)] == d[Cell(n, b, a)]
  {
    var L := LeafSlots(t, |t|);
    RankOfSlot(t, |t|, a);
    RankOfSlot(t, |t|, b);
    var s, u := L[a], L[b];
    if s != u {
      LeavesApart(t, s, u);
      DistanceSymmetric(t, s, u);
    }
  }
}

=== FILE: newick.dfy ===
/**
 * src/newick.cpp: a stack-driven scanner that reads Newick text into a tree of ptr_node_t
 * records, and convert_to_packed_tree, which lays that tree out in an array of node_t
 * with the two children of every internal node in consecutive later slots.
 *
 * Pointer trees live in an arena (`seq<PtrNode>`, an index standing for a pointer); the
 * packed array uses the node record of the packed tree, its child links holding slot
 * numbers as set_childen writes them.
 */
module Newick {
  import opened Wrappers
  import opened Nodes

  /** ptr_node_t: two optional children, a label (`_label`, here `name`) and a weight. */
  datatype PtrNode = PtrNode(left: Option<nat>, right: Option<nat>, name: string, weight: real)

  /** A fresh ptr_node_t: no children and an empty label.  Its constructor leaves the
      weight uninitialised; `w0` stands for whatever it holds. */
  function Fresh(w0: real): PtrNode {
    PtrNode(None, None, "", w0)
  }

  /** Node `x` has no child or two, both in later slots of the arena. */
  predicate Binary(p: seq<PtrNode>, x: nat)
    requires x < |p|
  {
    || (p[x].left.None? && p[x].right.None?)
    || (&& p[x].left.Some? && p[x].right.Some?
        && x < p[x].left.value < |p| && x < p[x].right.value < |p|)
  }

  /** Every node of the arena is binary. */
  ghost predicate Formed(p: seq<PtrNode>) {
    forall x :: 0 <= x < |p| ==> Binary(p, x)
  }

  /** Every stack entry is a slot of the arena. */
  ghost predicate InArena(p: seq<PtrNode>, stack: seq<nat>) {
    forall k :: 0 <= k < |stack| ==> stack[k] < |p|
  }

  /** The scanner's stack: arena slots, pushed in increasing order. */
  ghost predicate Rising(p: seq<PtrNode>, stack: seq<nat>) {
    && InArena(p, stack)
    && (forall k, k' :: 0 <= k < k' < |stack| ==> stack[k] < stack[k'])
  }

  // ---------------------------------------------------------------------------------------
  // count_leaves
  // ---------------------------------------------------------------------------------------

  /** ptr_node_t::count_leaves: despite its name, the number of nodes of the subtree of
      `x`, one for a leaf and one more than both children's counts for an internal node. */
  function CountLeaves(p: seq<PtrNode>, x: nat): (n: nat)
    requires Formed(p) && x < |p|
    ensures n >= 1
    decreases |p| - x
  {
    assert Binary(p, x);
    if p[x].left.None? && p[x].right.None? then 1
    else CountLeaves(p, p[x].left.value) + CountLeaves(p, p[x].right.value) + 1
  }

  /** The number of leaves of the subtree of `x`. */
  function Leaves(p: seq<PtrNode>, x: nat): nat
    requires Formed(p) && x < |p|
    decreases |p| - x
  {
    assert Binary(p, x);
    if p[x].left.None? && p[x].right.None? then 1
    else Leaves(p, p[x].left.value) + Leaves(p, p[x].right.value)
  }

  /** count_leaves counts every node: a binary tree with `l` leaves has 2l - 1 nodes. */
  lemma {:induction false} CountLeavesCountsNodes(p: seq<PtrNode>, x: nat)
    requires Formed(p) && x < |p|
    ensures CountLeaves(p, x) == 2 * Leaves(p, x) - 1
    decreases |p| - x
  {
    assert Binary(p, x);
    if !(p[x].left.None? && p[x].right.None?) {
      CountLeavesCountsNodes(p, p[x].left.value);
      CountLeavesCountsNodes(p, p[x].right.value);
    }
  }

  // ---------------------------------------------------------------------------------------
  // skip_whitespace
  // ---------------------------------------------------------------------------------------

  /** isspace in the C locale: space, tab, line feed, vertical tab, form feed, return. */
  predicate IsSpace(c: char) {
    c == ' ' || 9 <= c as int <= 13
  }

  /** isdigit: '0' to '9'. */
  predicate IsDigit(c: char) {
    '0' <= c <= '9'
  }

  /** The character std::string's operator[] reads at `i`: the terminating NUL at the end. */
  function At(s: string, i: nat): char
    requires i <= |s|
  {
    if i < |s| then s[i] else '\0'
  }

  /** The end of the run of whitespace starting at `i`. */
  function Skip(s: string, i: nat): (j: nat)
    requires i <= |s|
    ensures i <= j <= |s|
    decreases |s| - i
  {
    if i < |s| && IsSpace(s[i]) then Skip(s, i + 1) else i
  }

  /** The end of the run of characters other than `,` and `:` starting at `i`. */
  function LabelEnd(s: string, i: nat): (j: nat)
    requires i <= |s|
    ensures i <= j <= |s|
    decreases |s| - i
  {
    if i < |s| && s[i] != ',' && s[i] != ':' then LabelEnd(s, i + 1) else i
  }

  /** The end of the run of digits and dots starting at `i` (`i` itself past the end). */
  function NumberEnd(s: string, i: nat): (j: nat)
    ensures i <= j && (i <= |s| ==> j <= |s|) && (i > |s| ==> j == i)
    decreases |s| - i
  {
    if i < |s| && (IsDigit(s[i]) || s[i] == '.') then NumberEnd(s, i + 1) else i
  }

  /** skip_whitespace: the end of the run of whitespace starting at `index`. */
  method SkipWhitespace(s: string, index: nat) returns (i: nat)
    requires index <= |s|
    ensures index <= i <= |s|
    ensures forall k :: index <= k < i ==> IsSpace(s[k])
    ensures i == |s| || !IsSpace(s[i])
    ensures i == Skip(s, index)
  {
    i := index;
    while IsSpace(At(s, i)) && i < |s|
      invariant index <= i <= |s|
      invariant forall k :: index <= k < i ==> IsSpace(s[k])
      invariant Skip(s, i) == Skip(s, index)
    {
      i := i + 1;
    }
  }

  // ---------------------------------------------------------------------------------------
  // copy_to_node, set_childen, convert_to_packed_tree
  // ---------------------------------------------------------------------------------------

  /** copy_to_node: the weight of the pointer node is copied into the packed node, and
      nothing else; in particular the label is not transferred. */
  function CopyToNode(src: PtrNode, n: Node): (m: Node)
    ensures m.weight == src.weight
    ensures m.name == n.name && m.children == n.children && m.parent == n.parent
    ensures m.left == n.left && m.right == n.right
  {
    n.(weight := src.weight)
  }

  /** set_childen: the packed node becomes internal with children in slots `i` and `j`. */
  function SetChildren(n: Node, i: nat, j: nat): (m: Node)
    ensures m.children && m.left == Some(i) && m.right == Some(j)
    ensures m.name == n.name && m.weight == n.weight && m.parent == n.parent
  {
    n.(children := true, left := Some(i), right := Some(j))
  }

  /** Slot `j` of the packed array `t` stands for pointer node `order[j]`: it carries that
      node's weight, no label and no parent; it is internal exactly when the pointer node
      is, and then its children sit in two consecutive later slots that stand for the
      pointer node's left and right children; a leaf slot has no child links. */
  ghost predicate Laid(p: seq<PtrNode>, t: seq<Node>, order: seq<nat>, j: nat)
    requires j < |t| && j < |order| && order[j] < |p|
  {
    && t[j].name == "" && t[j].weight == p[order[j]].weight && t[j].parent == None
    && (t[j].children <==> p[order[j]].left.Some?)
    && (t[j].children ==>
          && t[j].left.Some? && t[j].right.Some? && t[j].right.value == t[j].left.value + 1
          && j < t[j].left.value && t[j].right.value < |order|
          && Some(order[t[j].left.value]) == p[order[j]].left
          && Some(order[t[j].right.value]) == p[order[j]].right)
    && (!t[j].children ==> t[j].left == None && t[j].right == None)
  }

  /** `t` is the packed layout of the subtree of `root`, slot `j` standing for pointer
      node `order[j]`: one slot per node counted by count_leaves, the root first. */
  ghost predicate PackedFrom(p: seq<PtrNode>, root: nat, t: seq<Node>, order: seq<nat>)
    requires Formed(p)
  {
    && root < |p| && |t| == |order| == CountLeaves(p, root) && order[0] == root
    && (forall j :: 0 <= j < |t| ==> order[j] < |p|)
    && (forall j {:trigger Laid(p, t, order, j)} :: 0 <= j < |t| ==> Laid(p, t, order, j))
  }

  /** The slots still to be handed out for the pending stack entries: the nodes below
      each of them. */
  ghost function Pending(p: seq<PtrNode>, ps: seq<nat>): nat
    requires Formed(p)
    decreases |ps|
  {
    if ps == [] then 0
    else Pending(p, ps[..|ps| - 1]) + Below(p, ps[|ps| - 1])
  }

  /** The nodes strictly below `x`. */
  ghost function Below(p: seq<PtrNode>, x: nat): nat
    requires Formed(p)
  {
    if x < |p| then CountLeaves(p, x) - 1 else 0
  }

  lemma PendingPush(p: seq<PtrNode>, ps: seq<nat>, a: nat, b: nat)
    requires Formed(p) && (forall k :: 0 <= k < |ps| ==> ps[k] < |p|) && a < |p| && b < |p|
    ensures Pending(p, ps + [a, b]) == Pending(p, ps) + (CountLeaves(p, a) - 1) + (CountLeaves(p, b) - 1)
  {
    var q := ps + [a, b];
    assert q[..|q| - 1] == ps + [a];
    assert (ps + [a])[..|ps|] == ps;
  }

  /** The state of convert_to_packed_tree's loop: `order` lists the pointer nodes given a
      slot so far, the two stacks hold matching pending entries in increasing slot order,
      every slot handed out is laid out unless still pending, and the pending entries
      account for every slot not yet handed out. */
  ghost predicate Converting(p: seq<PtrNode>, root: nat, t: seq<Node>, order: seq<nat>,
                             ptrStack: seq<nat>, nodeStack: seq<nat>)
  {
    && Formed(p) && root < |p| && |t| == CountLeaves(p, root)
    && 1 <= |order| <= |t| && order[0] == root
    && (forall j :: 0 <= j < |order| ==> order[j] < |p|)
    && |ptrStack| == |nodeStack|
    && (forall k :: 0 <= k < |nodeStack| ==>
          nodeStack[k] < |order| && ptrStack[k] < |p| && order[nodeStack[k]] == ptrStack[k])
    && (forall k, k' :: 0 <= k < k' < |nodeStack| ==> nodeStack[k] < nodeStack[k'])
    && |order| + Pending(p, ptrStack) == |t|
    && (forall j {:trigger Laid(p, t, order, j)} :: 0 <= j < |order| && j !in nodeStack ==> Laid(p, t, order, j))
    && (forall j {:trigger t[j]} :: 0 <= j < |order| && j in nodeStack ==>
          t[j] == Blank.(weight := p[order[j]].weight))
    && (forall j {:trigger t[j]} :: |order| <= j < |t| ==> t[j] == Blank)
  }

  /** convert_to_packed_tree: counts the nodes below `root`, gives the root slot 0, and
      then pops pending nodes from a pair of stacks, giving the two children of each
      internal one the next two free slots and pushing them.  Every slot is handed out
      exactly once, so the slot counter ends at the node count. */
  method ConvertToPackedTree(p: seq<PtrNode>, root: nat) returns (tree: array<Node>, s: nat, ghost order: seq<nat>)
    requires Formed(p) && root < |p|
    ensures s == tree.Length && fresh(tree)
    ensures PackedFrom(p, root, tree[..], order)
  {
    var size := CountLeaves(p, root);
    s := size;
    var current := 0;
    tree := new Node[size](_ => Blank);
    tree[current] := CopyToNode(p[root], tree[current]);
    current := current + 1;
    order := [root];
    var ptrStack: seq<nat>, nodeStack: seq<nat> := [root], [0];
    assert ptrStack[..0] == [];
    while nodeStack != []
      invariant Converting(p, root, tree[..], order, ptrStack, nodeStack) && current == |order|
      decreases size - current, |nodeStack|
    {
      var n := |nodeStack| - 1;
      var cp, cn := ptrStack[n], nodeStack[n];
      ghost var t0, ps0, ns0 := tree[..], ptrStack, nodeStack;
      ptrStack, nodeStack := ptrStack[..n], nodeStack[..n];
      assert Binary(p, cp);
      if p[cp].left.Some? && p[cp].right.Some? {
        var l, r := p[cp].left.value, p[cp].right.value;
        order := LayChildren(p, root, tree, current, order, ptrStack, nodeStack, cp, cn, ps0, ns0);
        current := current + 2;
        ptrStack := ptrStack + [l, r];
        nodeStack := nodeStack + [current - 2, current - 1];
      } else {
        tree[cn] := tree[cn].(children := false);
        LeafKeeps(p, root, t0, tree[..], order, ps0, ns0);
      }
    }
  }

  /** One internal pending node `cp` in slot `cn`: its children take the next two slots,
      receive their weights, and `cn` becomes internal with them as children. */
  method LayChildren(p: seq<PtrNode>, root: nat, tree: array<Node>, current: nat, ghost order: seq<nat>,
                     ptrStack: seq<nat>, nodeStack: seq<nat>, cp: nat, cn: nat,
                     ghost ps0: seq<nat>, ghost ns0: seq<nat>)
    returns (ghost order': seq<nat>)
    requires Converting(p, root, tree[..], order, ps0, ns0) && |ns0| >= 1 && current == |order|
    requires ptrStack == ps0[..|ps0| - 1] && nodeStack == ns0[..|ns0| - 1]
    requires cp == ps0[|ps0| - 1] && cn == ns0[|ns0| - 1]
    requires p[cp].left.Some? && p[cp].right.Some?
    modifies tree
    ensures order' == order + [p[cp].left.value, p[cp].right.value]
    ensures Converting(p, root, tree[..], order', ptrStack + [p[cp].left.value, p[cp].right.value],
                       nodeStack + [current, current + 1])
  {
    assert Binary(p, cp);
    var l, r := p[cp].left.value, p[cp].right.value;
    var li, ri := current, current + 1;
    LayRoom(p, root, tree[..], order, ps0, ns0);
    tree[li] := CopyToNode(p[l], tree[li]);
    tree[ri] := CopyToNode(p[r], tree[ri]);
    tree[cn] := SetChildren(tree[cn], li, ri);
    order' := order + [l, r];
    LayKeeps(p, root, old(tree[..]), tree[..], order, ps0, ns0);
  }

  /** An internal pending node leaves room for its two children. */
  lemma LayRoom(p: seq<PtrNode>, root: nat, t0: seq<Node>, order: seq<nat>, ps0: seq<nat>, ns0: seq<nat>)
    requires Converting(p, root, t0, order, ps0, ns0) && |ns0| >= 1
    requires p[ps0[|ps0| - 1]].left.Some? && p[ps0[|ps0| - 1]].right.Some?
    ensures |order| + 2 <= |t0|
  {
    var n := |ps0| - 1;
    var cp := ps0[n];
    assert Binary(p, cp);
    assert ps0[..n] + [cp] == ps0;
    assert Pending(p, ps0) == Pending(p, ps0[..n]) + Below(p, cp);
  }

  /** `t` is `t0` after the children of the last pending node, an internal one, are laid
      out in the next two slots. */
  ghost predicate LayStep(p: seq<PtrNode>, root: nat, t0: seq<Node>, t: seq<Node>, order: seq<nat>,
                          ps0: seq<nat>, ns0: seq<nat>) {
    && Converting(p, root, t0, order, ps0, ns0) && |ns0| >= 1
    && var cp, cn := ps0[|ps0| - 1], ns0[|ns0| - 1];
    && Binary(p, cp) && p[cp].left.Some? && p[cp].right.Some? && |order| + 2 <= |t0|
    && var l, r, li, ri := p[cp].left.value, p[cp].right.value, |order|, |order| + 1;
    t == t0[li := CopyToNode(p[l], t0[li])][ri := CopyToNode(p[r], t0[ri])][cn := SetChildren(t0[cn], li, ri)]
  }

  /** Laying out the children of the last pending node keeps the loop's state. */
  lemma LayKeeps(p: seq<PtrNode>, root: nat, t0: seq<Node>, t: seq<Node>, order: seq<nat>, ps0: seq<nat>, ns0: seq<nat>)
    requires LayStep(p, root, t0, t, order, ps0, ns0)
    ensures var n, cp := |ps0| - 1, ps0[|ps0| - 1];
      var l, r := p[cp].left.value, p[cp].right.value;
      Converting(p, root, t, order + [l, r], ps0[..n] + [l, r], ns0[..n] + [|order|, |order| + 1])
  {
    LayStacks(p, root, t0, t, order, ps0, ns0);
    LayLaid(p, root, t0, t, order, ps0, ns0);
    LayWaiting(p, root, t0, t, order, ps0, ns0);
  }

  lemma LayStacks(p: seq<PtrNode>, root: nat, t0: seq<Node>, t: seq<Node>, order: seq<nat>, ps0: seq<nat>, ns0: seq<nat>)
    requires LayStep(p, root, t0, t, order, ps0, ns0)
    ensures var n, cp := |ps0| - 1, ps0[|ps0| - 1];
      var l, r := p[cp].left.value, p[cp].right.value;
      var order', ps, ns := order + [l, r], ps0[..n] + [l, r], ns0[..n] + [|order|, |order| + 1];
      && |t| == |t0| && 1 <= |order'| <= |t| && order'[0] == root
      && (forall j :: 0 <= j < |order'| ==> order'[j] < |p|)
      && |ps| == |ns|
      && (forall k :: 0 <= k < |ns| ==> ns[k] < |order'| && ps[k] < |p| && order'[ns[k]] == ps[k])
      && (forall k, k' :: 0 <= k < k' < |ns| ==> ns[k] < ns[k'])
      && |order'| + Pending(p, ps) == |t|
  {
    var n, cp := |ps0| - 1, ps0[|ps0| - 1];
    var l, r := p[cp].left.value, p[cp].right.value;
    assert ps0[..n] + [cp] == ps0;
    assert Pending(p, ps0) == Pending(p, ps0[..n]) + Below(p, cp);
    PendingPush(p, ps0[..n], l, r);
  }

  lemma LayLaid(p: seq<PtrNode>, root: nat, t0: seq<Node>, t: seq<Node>, order: seq<nat>, ps0: seq<nat>, ns0: seq<nat>)
    requires LayStep(p, root, t0, t, order, ps0, ns0)
    ensures var n, cp := |ps0| - 1, ps0[|ps0| - 1];
      var l, r := p[cp].left.value, p[cp].right.value;
      var order', ns := order + [l, r], ns0[..n] + [|order|, |order| + 1];
      forall j {:trigger Laid(p, t, order', j)} :: 0 <= j < |order'| && j !in ns ==> Laid(p, t, order', j)
  {
    var n, cp, cn := |ps0| - 1, ps0[|ps0| - 1], ns0[|ns0| - 1];
    var l, r := p[cp].left.value, p[cp].right.value;
    var order', ns := order + [l, r], ns0[..n] + [|order|, |order| + 1];
    forall j | 0 <= j < |order'| && j !in ns ensures Laid(p, t, order', j) {
      if j != cn {
        forall k | 0 <= k < |ns0| ensures ns0[k] != j {
          if k < n {
            assert ns[k] == ns0[k];
          }
        }
        assert Laid(p, t0, order, j);
      }
    }
  }

  lemma LayWaiting(p: seq<PtrNode>, root: nat, t0: seq<Node>, t: seq<Node>, order: seq<nat>, ps0: seq<nat>, ns0: seq<nat>)
    requires LayStep(p, root, t0, t, order, ps0, ns0)
    ensures var n, cp := |ps0| - 1, ps0[|ps0| - 1];
      var l, r := p[cp].left.value, p[cp].right.value;
      var order', ns := order + [l, r], ns0[..n] + [|order|, |order| + 1];
      && (forall j {:trigger t[j]} :: 0 <= j < |order'| && j in ns ==> t[j] == Blank.(weight := p[order'[j]].weight))
      && (forall j {:trigger t[j]} :: |order'| <= j < |t| ==> t[j] == Blank)
  {
    var n, cp, cn := |ps0| - 1, ps0[|ps0| - 1], ns0[|ns0| - 1];
    var l, r := p[cp].left.value, p[cp].right.value;
    var order', ns := order + [l, r], ns0[..n] + [|order|, |order| + 1];
    forall k | 0 <= k < n ensures ns0[k] < cn {
    }
    forall j | 0 <= j < |order'| && j in ns ensures t[j] == Blank.(weight := p[order'[j]].weight) {
      if j < |order| {
        var k :| 0 <= k < |ns| && ns[k] == j;
        assert ns0[k] == j;
      }
    }
  }

  /** A leaf popped from the stacks is laid out as it is. */
  lemma LeafKeeps(p: seq<PtrNode>, root: nat, t0: seq<Node>, t: seq<Node>, order: seq<nat>, ps0: seq<nat>, ns0: seq<nat>)
    requires LeafStep(p, root, t0, t, order, ps0, ns0)
    ensures var n := |ps0| - 1; Converting(p, root, t, order, ps0[..n], ns0[..n])
  {
    var n, cp := |ps0| - 1, ps0[|ps0| - 1];
    assert Binary(p, cp);
    assert ps0[..n] + [cp] == ps0;
    LeafLaid(p, root, t0, t, order, ps0, ns0);
    LeafWaiting(p, root, t0, t, order, ps0, ns0);
  }

  /** `t` is `t0` after the last pending node, a leaf, is marked childless. */
  ghost predicate LeafStep(p: seq<PtrNode>, root: nat, t0: seq<Node>, t: seq<Node>, order: seq<nat>,
                           ps0: seq<nat>, ns0: seq<nat>) {
    && Converting(p, root, t0, order, ps0, ns0) && |ns0| >= 1
    && var cp, cn := ps0[|ps0| - 1], ns0[|ns0| - 1];
    && !(p[cp].left.Some? && p[cp].right.Some?)
    && t == t0[cn := t0[cn].(children := false)]
  }

  lemma LeafLaid(p: seq<PtrNode>, root: nat, t0: seq<Node>, t: seq<Node>, order: seq<nat>, ps0: seq<nat>, ns0: seq<nat>)
    requires LeafStep(p, root, t0, t, order, ps0, ns0)
    ensures var ns := ns0[..|ns0| - 1];
      forall j {:trigger Laid(p, t, order, j)} :: 0 <= j < |order| && j !in ns ==> Laid(p, t, order, j)
  {
    var n, cp, cn := |ps0| - 1, ps0[|ps0| - 1], ns0[|ns0| - 1];
    var ns := ns0[..n];
    assert Binary(p, cp);
    forall j | 0 <= j < |order| && j !in ns ensures Laid(p, t, order, j) {
      if j != cn {
        forall k | 0 <= k < |ns0| ensures ns0[k] != j {
          if k < n {
            assert ns[k] == ns0[k];
          }
        }
        assert Laid(p, t0, order, j);
      }
    }
  }

  lemma LeafWaiting(p: seq<PtrNode>, root: nat, t0: seq<Node>, t: seq<Node>, order: seq<nat>, ps0: seq<nat>, ns0: seq<nat>)
    requires LeafStep(p, root, t0, t, order, ps0, ns0)
    ensures var ns := ns0[..|ns0| - 1];
      forall j {:trigger t[j]} :: 0 <= j < |order| && j in ns ==> t[j] == Blank.(weight := p[order[j]].weight)
  {
    var n, cn := |ps0| - 1, ns0[|ns0| - 1];
    var ns := ns0[..n];
    forall k | 0 <= k < n ensures ns0[k] < cn {
    }
    forall j | 0 <= j < |order| && j in ns ensures t[j] == Blank.(weight := p[order[j]].weight) {
      var k :| 0 <= k < |ns| && ns[k] == j;
      assert ns0[k] == j;
    }
  }

  // ---------------------------------------------------------------------------------------
  // make_tree_from_newick
  // ---------------------------------------------------------------------------------------

  /** `(` or `,`: a fresh node is pushed. */
  method Push(p: seq<PtrNode>, stack: seq<nat>, w0: real) returns (p': seq<PtrNode>, stack': seq<nat>)
    requires Formed(p) && Rising(p, stack)
    ensures p' == p + [Fresh(w0)] && stack' == stack + [|p|]
    ensures Formed(p') && Rising(p', stack')
  {
    p', stack' := p + [Fresh(w0)], stack + [|p|];
    forall x | 0 <= x < |p'| ensures Binary(p', x) {
      if x < |p| {
        assert Binary(p, x);
      }
    }
  }

  /** `)`: the two most recent entries are popped and become the children of the new top,
      the most recent one on the left. */
  method Close(p: seq<PtrNode>, stack: seq<nat>) returns (p': seq<PtrNode>, stack': seq<nat>)
    requires Formed(p) && Rising(p, stack) && |stack| >= 3
    ensures stack' == stack[..|stack| - 2]
    ensures var top := stack[|stack| - 3];
      p' == p[top := p[top].(left := Some(stack[|stack| - 1]), right := Some(stack[|stack| - 2]))]
    ensures Formed(p') && Rising(p', stack')
  {
    var tmp1 := stack[|stack| - 1];
    stack' := stack[..|stack| - 1];
    var tmp2 := stack'[|stack'| - 1];
    stack' := stack'[..|stack'| - 1];
    var top := stack'[|stack'| - 1];
    p' := p[top := p[top].(left := Some(tmp1), right := Some(tmp2))];
    forall x | 0 <= x < |p'| ensures Binary(p', x) {
      assert Binary(p, x);
    }
  }

  /** The label step as a function of the text: the arena with the top node's label (and
      weight, when digits follow) set, and the index after the label. */
  function Labelled(s: string, index: nat, p: seq<PtrNode>, top: nat, stof: string -> real)
    : (r: (seq<PtrNode>, nat))
    requires index <= |s| && top < |p|
    ensures |r.0| == |p| && index < r.1 <= |s| + 1
  {
    var start := Skip(s, index);
    var stop := LabelEnd(s, start);
    var next := NumberEnd(s, stop + 1);
    var w := if next == stop + 1 then p[top].weight else stof(Sub(s, stop + 1, next));
    (p[top := p[top].(name := Sub(s, start, stop), weight := w)], next)
  }

  /** The characters of `s` from `i` up to `j`, one at a time (equal to the slice, by
      `SubIs`; spelt out so that scanning proofs need not reason about slices). */
  function Sub(s: string, i: nat, j: nat): string
    requires i <= j <= |s|
    decreases j - i
  {
    if i == j then [] else [s[i]] + Sub(s, i + 1, j)
  }

  lemma {:induction false} SubIs(s: string, i: nat, j: nat)
    requires i <= j <= |s|
    ensures Sub(s, i, j) == s[i..j]
    decreases j - i
  {
    if i < j {
      SubIs(s, i + 1, j);
      assert s[i..j] == [s[i]] + s[i + 1..j];
    }
  }

  /** Any other character: a label runs from the first non-blank character to the next
      `,` or `:` (or the end), and goes to the top node; the character after it is
      consumed; a run of digits and dots after that, when there is one, is the top node's
      weight, read by `stof`.  Returns the index after the run, with the label's bounds. */
  method ReadLabel(s: string, index: nat, p: seq<PtrNode>, top: nat, stof: string -> real)
    returns (p': seq<PtrNode>, next: nat, ghost start: nat, ghost stop: nat)
    requires index <= |s| && top < |p|
    ensures start == Skip(s, index) && stop == LabelEnd(s, start) && next == NumberEnd(s, stop + 1)
    ensures (p', next) == Labelled(s, index, p, top, stof)
  {
    var i := SkipWhitespace(s, index);
    start := i;
    var j := i;
    while j < |s| && s[j] != ',' && s[j] != ':'
      invariant i <= j <= |s|
      invariant forall k :: i <= k < j ==> s[k] != ',' && s[k] != ':'
      invariant LabelEnd(s, j) == LabelEnd(s, i)
    {
      j := j + 1;
    }
    stop := j;
    var name := s[i..j];
    j := j + 1;
    i := j;
    while j < |s| && (IsDigit(s[j]) || s[j] == '.')
      invariant i <= j && (i <= |s| ==> j <= |s|) && (i > |s| ==> j == i)
      invariant forall k :: i <= k < j ==> IsDigit(s[k]) || s[k] == '.'
      invariant NumberEnd(s, j) == NumberEnd(s, i)
    {
      j := j + 1;
    }
    var w := p[top].weight;
    if i != j {
      SubIs(s, i, j);
      w := stof(s[i..j]);
    }
    SubIs(s, start, stop);
    p', next := p[top := p[top].(name := name, weight := w)], j;
  }

  /** Where a scan of the text ends: the arena and stack when it reaches `;` or the end of
      the text, or the position of a `)` met with fewer than three entries on the stack. */
  datatype Scan = Finished(arena: seq<PtrNode>, stack: seq<nat>) | Underflow(at: nat)

  /** The outcome of one pass of the scanning loop. */
  datatype Move = Next(index: nat, p: seq<PtrNode>, stack: seq<nat>) | Done(p: seq<PtrNode>, stack: seq<nat>) | Fail(at: nat)

  /** One pass of make_tree_from_newick's loop: after the whitespace, `(` and `,` push a
      fresh node, `)` closes the top three stack entries (or fails with fewer), `;` stops
      the scan and anything else is a label for the top node. */
  ghost function Step(s: string, index: nat, p: seq<PtrNode>, stack: seq<nat>, w0: real, stof: string -> real)
    : (m: Move)
    requires index < |s| && InArena(p, stack) && |stack| >= 1
    ensures m.Next? ==> index < m.index <= |s| + 1 && InArena(m.p, m.stack) && |m.stack| >= 1 && |m.p| >= |p|
    ensures m.Done? ==> m.p == p && m.stack == stack
    ensures m.Fail? ==> index <= m.at < |s| && s[m.at] == ')' && |stack| < 3
  {
    var i := Skip(s, index);
    var c := At(s, i);
    if c == '(' || c == ',' then Next(i + 1, p + [Fresh(w0)], stack + [|p|])
    else if c == ')' then
      if |stack| < 3 then Fail(i)
      else
        var top := stack[|stack| - 3];
        Next(i + 1, p[top := p[top].(left := Some(stack[|stack| - 1]), right := Some(stack[|stack| - 2]))],
             stack[..|stack| - 2])
    else if c == ';' then Done(p, stack)
    else
      var r := Labelled(s, i, p, stack[|stack| - 1], stof);
      Next(r.1, r.0, stack)
  }

  /** The whole scan of make_tree_from_newick from position `index`. */
  ghost function Run(s: string, index: nat, p: seq<PtrNode>, stack: seq<nat>, w0: real, stof: string -> real)
    : (r: Scan)
    requires InArena(p, stack) && |stack| >= 1
    decreases |s| + 1 - index, 1
  {
    if index >= |s| then Finished(p, stack) else Continue(s, index, p, stack, w0, stof)
  }

  /** The scan from `index`, once it is known not to be at the end: one `Step`, then the
      rest of the scan after it. */
  ghost function Continue(s: string, index: nat, p: seq<PtrNode>, stack: seq<nat>, w0: real, stof: string -> real)
    : (r: Scan)
    requires index < |s| && InArena(p, stack) && |stack| >= 1
    decreases |s| + 1 - index, 0
  {
    match Step(s, index, p, stack, w0, stof)
    case Next(i, q, st) => Run(s, i, q, st, w0, stof)
    case Done(q, st) => Finished(q, st)
    case Fail(at) => Underflow(at)
  }

  /** A finished scan leaves a stack with a top entry in the arena; a failed one failed at
      a `)` it reached. */
  lemma {:induction false} RunEnds(s: string, index: nat, p: seq<PtrNode>, stack: seq<nat>, w0: real, stof: string -> real)
    requires InArena(p, stack) && |stack| >= 1
    ensures var r := Run(s, index, p, stack, w0, stof);
      && (r.Finished? ==> |r.stack| >= 1 && r.stack[|r.stack| - 1] < |r.arena|)
      && (r.Underflow? ==> index <= r.at < |s| && s[r.at] == ')')
    decreases |s| + 1 - index
  {
    if index < |s| {
      var m := Step(s, index, p, stack, w0, stof);
      if m.Next? {
        RunEnds(s, m.index, m.p, m.stack, w0, stof);
      }
    }
  }

  /** A fresh node pushed on the stack is a slot of the arena. */
  lemma ArenaPush(p: seq<PtrNode>, stack: seq<nat>, w0: real)
    requires InArena(p, stack)
    ensures InArena(p + [Fresh(w0)], stack + [|p|])
  {
  }

  /** A longer arena holds the same stack. */
  lemma ArenaGrow(p: seq<PtrNode>, q: seq<PtrNode>, stack: seq<nat>)
    requires InArena(p, stack) && |p| <= |q|
    ensures InArena(q, stack)
  {
  }

  /** The scan from `i` over `p` and `stack` ends as the scan from `j` over `q` and `st`
      does: the two are states of one and the same scan. */
  ghost predicate SameEnd(s: string, i: nat, p: seq<PtrNode>, stack: seq<nat>,
                          j: nat, q: seq<PtrNode>, st: seq<nat>, w0: real, stof: string -> real)
    requires InArena(p, stack) && |stack| >= 1 && InArena(q, st) && |st| >= 1
  {
    Run(s, i, p, stack, w0, stof) == Run(s, j, q, st, w0, stof)
  }

  /** Three stretches of one scan, one after the other, make one stretch. */
  lemma SameEndChain(s: string, i: nat, p: seq<PtrNode>, st: seq<nat>, j: nat, q: seq<PtrNode>, qt: seq<nat>,
                     k: nat, r: seq<PtrNode>, rt: seq<nat>, l: nat, u: seq<PtrNode>, ut: seq<nat>,
                     w0: real, stof: string -> real)
    requires InArena(p, st) && |st| >= 1 && InArena(q, qt) && |qt| >= 1
    requires InArena(r, rt) && |rt| >= 1 && InArena(u, ut) && |ut| >= 1
    requires SameEnd(s, i, p, st, j, q, qt, w0, stof) && SameEnd(s, j, q, qt, k, r, rt, w0, stof)
    requires SameEnd(s, k, r, rt, l, u, ut, w0, stof)
    ensures SameEnd(s, i, p, st, l, u, ut, w0, stof)
  {
  }

  /** One pass of make_tree_from_newick's loop, proved to make the move `Step` describes. */
  method Advance(s: string, index: nat, p: seq<PtrNode>, stack: seq<nat>, w0: real, stof: string -> real)
    returns (m: Move)
    requires index < |s| && Formed(p) && Rising(p, stack) && |stack| >= 1
    ensures m == Step(s, index, p, stack, w0, stof)
    ensures (m.Next? || m.Done?) ==> Formed(m.p)
  {
    var i := SkipWhitespace(s, index);
    var c := At(s, i);
    if c == '(' || c == ',' {
      var p', stack' := Push(p, stack, w0);
      m := Next(i + 1, p', stack');
    } else if c == ')' {
      if |stack| < 3 {
        m := Fail(i);
      } else {
        var p', stack' := Close(p, stack);
        m := Next(i + 1, p', stack');
      }
    } else if c == ';' {
      m := Done(p, stack);
    } else {
      var p', next, start, stop := ReadLabel(s, i, p, stack[|stack| - 1], stof);
      forall x | 0 <= x < |p'| ensures Binary(p', x) {
        assert Binary(p, x);
      }
      m := Next(next, p', stack);
    }
  }

  /** make_tree_from_newick: scans the text with a stack of pointer nodes that starts with
      one fresh node, stopping at `;` or the end; the node left on top gets weight zero
      and is packed by convert_to_packed_tree.  A `)` with fewer than three entries on the
      stack, where the source reads past its stack, makes `ok` false, with `failAt` its
      position.  `w0` is the weight an unread ptr_node_t holds and `stof` the float
      conversion. */
  method MakeTreeFromNewick(s: string, w0: real, stof: string -> real)
    returns (ok: bool, tree: array<Node>, treeSize: nat,
             root: nat, ghost arena: seq<PtrNode>, ghost order: seq<nat>, ghost failAt: nat)
    ensures ok ==> Formed(arena) && root < |arena| && arena[root].weight == 0.0
    ensures ok ==> treeSize == tree.Length && PackedFrom(arena, root, tree[..], order)
    ensures !ok ==> failAt < |s| && s[failAt] == ')'
    ensures var r := Run(s, 0, [Fresh(w0)], [0], w0, stof);
      && (ok <==> r.Finished?)
      && (ok ==> |r.stack| >= 1 && root == r.stack[|r.stack| - 1] && root < |r.arena|
                 && arena == r.arena[root := r.arena[root].(weight := 0.0)])
      && (!ok ==> failAt == r.at)
  {
    var p, stack := [Fresh(w0)], [0];
    assert Binary(p, 0);
    ghost var scan := Run(s, 0, p, stack, w0, stof);
    RunEnds(s, 0, p, stack, w0, stof);
    var index := 0;
    failAt := 0;
    while index < |s|
      invariant Formed(p) && Rising(p, stack) && |stack| >= 1
      invariant Run(s, index, p, stack, w0, stof) == scan
      decreases |s| - index
    {
      var m := Advance(s, index, p, stack, w0, stof);
      if m.Fail? {
        ok, tree, treeSize, root, arena, order, failAt := false, new Node[0], 0, 0, p, [], m.at;
        return;
      } else if m.Done? {
        break;
      }
      index, p, stack := m.index, m.p, m.stack;
    }
    root := stack[|stack| - 1];
    ghost var p0 := p;
    p := p[root := p[root].(weight := 0.0)];
    forall x | 0 <= x < |p| ensures Binary(p, x) {
      assert Binary(p0, x);
    }
    arena := p;
    ok := true;
    tree, treeSize, order := ConvertToPackedTree(p, root);
  }

  // ---------------------------------------------------------------------------------------
  // Reading Newick text back
  // ---------------------------------------------------------------------------------------

  /** A node's label and the digits of its weight, as Newick writes them after the node. */
  datatype Tag = Tag(name: string, digits: string)

  /** A binary tree as Newick text describes it: a leaf with its tag, or a pair of subtrees
      with an optional tag of its own. */
  datatype Shape = Tip(tag: Tag) | Pair(first: Shape, second: Shape, own: Option<Tag>)

  /** A character an unquoted Newick label may hold. */
  predicate Plain(c: char) {
    !IsSpace(c) && c != '(' && c != ')' && c != ',' && c != ':' && c != ';'
  }

  /** A label of plain characters and a weight of one or more digits and dots. */
  predicate WellTag(g: Tag) {
    && (forall k :: 0 <= k < |g.name| ==> Plain(g.name[k]))
    && |g.digits| >= 1 && (forall k :: 0 <= k < |g.digits| ==> IsDigit(g.digits[k]) || g.digits[k] == '.')
  }

  predicate Well(t: Shape) {
    match t
    case Tip(g) => WellTag(g)
    case Pair(a, b, g) => Well(a) && Well(b) && (g.Some? ==> WellTag(g.value))
  }

  function TagText(g: Tag): string {
    g.name + ":" + g.digits
  }

  /** The Newick text of a shape: `name:digits` for a leaf, `(first,second)` followed by the
      optional tag for a pair. */
  function Text(t: Shape): string {
    match t
    case Tip(g) => TagText(g)
    case Pair(a, b, g) => "(" + Text(a) + "," + Text(b) + ")" + OwnText(g)
  }

  /** The text of a pair's own tag, when it has one. */
  function OwnText(g: Option<Tag>): string {
    if g.Some? then TagText(g.value) else ""
  }

  /** The number of nodes of a shape, and of its leaves. */
  function Size(t: Shape): nat {
    match t
    case Tip(_) => 1
    case Pair(a, b, _) => 1 + Size(a) + Size(b)
  }

  function Tips(t: Shape): nat {
    match t
    case Tip(_) => 1
    case Pair(a, b, _) => Tips(a) + Tips(b)
  }

  /** Node `x` of the arena holds shape `t`: a leaf carries the tag's label and `stof` of its
      digits; a pair node has its first subtree on the right and its second on the left (the
      order in which `)` links them), both in later slots, and carries its own tag, or an
      empty label and the unread weight `w0` when it has none. */
  ghost predicate Holds(p: seq<PtrNode>, x: nat, t: Shape, w0: real, stof: string -> real)
    decreases t
  {
    && x < |p|
    && match t
       case Tip(g) => p[x] == PtrNode(None, None, g.name, stof(g.digits))
       case Pair(a, b, g) =>
         && p[x].left.Some? && p[x].right.Some?
         && x < p[x].left.value && x < p[x].right.value
         && Holds(p, p[x].right.value, a, w0, stof) && Holds(p, p[x].left.value, b, w0, stof)
         && p[x].name == (if g.Some? then g.value.name else "")
         && p[x].weight == (if g.Some? then stof(g.value.digits) else w0)
  }

  /** A shape held at `x` stays held when the slots from `x` on are left as they are. */
  lemma {:induction false} HoldsFrame(p: seq<PtrNode>, q: seq<PtrNode>, x: nat, t: Shape, w0: real, stof: string -> real)
    requires Holds(p, x, t, w0, stof)
    requires |q| >= |p| && forall k :: x <= k < |p| ==> q[k] == p[k]
    ensures Holds(q, x, t, w0, stof)
    decreases t
  {
    match t
    case Tip(_) =>
    case Pair(a, b, _) =>
      HoldsFrame(p, q, p[x].right.value, a, w0, stof);
      HoldsFrame(p, q, p[x].left.value, b, w0, stof);
  }

  /** The text `u` stands at position `i` of `s`. */
  predicate Written(s: string, i: nat, u: string) {
    i + |u| <= |s| && forall k {:trigger u[k]} :: 0 <= k < |u| ==> s[i + k] == u[k]
  }

  /** What may follow a subtree's text: the end, a `,`, a `)` or a `;`. */
  predicate Ends(s: string, e: nat) {
    e == |s| || (e < |s| && (s[e] == ',' || s[e] == ')' || s[e] == ';'))
  }

  lemma {:induction false} WrittenSplit(s: string, i: nat, u: string, v: string)
    requires Written(s, i, u + v)
    ensures Written(s, i, u) && Written(s, i + |u|, v)
  {
    forall k | 0 <= k < |u| ensures s[i + k] == u[k] {
      assert (u + v)[k] == u[k];
    }
    forall k | 0 <= k < |v| ensures s[i + |u| + k] == v[k] {
      assert (u + v)[|u| + k] == v[k];
    }
  }

  /** The pieces of a tag's text: its label, the `:` and its digits. */
  lemma {:induction false} TagPieces(s: string, i: nat, g: Tag)
    requires Written(s, i, TagText(g))
    ensures i + |g.name| < |s| && s[i + |g.name|] == ':'
    ensures Written(s, i, g.name) && Written(s, i + |g.name| + 1, g.digits)
  {
    WrittenSplit(s, i, g.name + ":", g.digits);
    WrittenSplit(s, i, g.name, ":");
    assert s[i + |g.name| + 0] == ":"[0];
  }

  /** Where the scan of a tag stops: no whitespace to skip, the label ends at the `:` and
      the number at the end of the digits; the label and the digits are read back. */
  lemma {:induction false} TagEnds(s: string, i: nat, g: Tag)
    requires WellTag(g) && Written(s, i, TagText(g)) && Ends(s, i + |TagText(g)|)
    ensures i < |s| && (Plain(s[i]) || s[i] == ':')
    ensures Skip(s, i) == i && LabelEnd(s, i) == i + |g.name|
    ensures NumberEnd(s, i + |g.name| + 1) == i + |TagText(g)|
    ensures Sub(s, i, i + |g.name|) == g.name && Sub(s, i + |g.name| + 1, i + |TagText(g)|) == g.digits
  {
    TagPieces(s, i, g);
    var stop, e := i + |g.name|, i + |TagText(g)|;
    if |g.name| > 0 {
      assert s[i + 0] == g.name[0];
    }
    assert Skip(s, i) == i;
    forall k | i <= k < stop ensures s[k] != ',' && s[k] != ':' {
      assert s[i + (k - i)] == g.name[k - i];
    }
    LabelEndIs(s, i, stop);
    forall k | stop + 1 <= k < e ensures IsDigit(s[k]) || s[k] == '.' {
      assert s[stop + 1 + (k - stop - 1)] == g.digits[k - stop - 1];
    }
    NumberEndIs(s, stop + 1, e);
    SubWritten(s, i, g.name);
    SubWritten(s, stop + 1, g.digits);
  }

  /** Text written at `i` is what `Sub` reads back there. */
  lemma SubWritten(s: string, i: nat, u: string)
    requires Written(s, i, u)
    ensures Sub(s, i, i + |u|) == u
  {
    forall k | 0 <= k < |u| ensures s[i..i + |u|][k] == u[k] {
      assert s[i + k] == u[k];
    }
    assert s[i..i + |u|] == u;
    SubIs(s, i, i + |u|);
  }

  /** A tag in the text is read into the top node: the label up to the `:`, and `stof` of
      the digits after it, stopping at what follows the tag. */
  lemma {:induction false} ReadsTag(s: string, i: nat, g: Tag, p: seq<PtrNode>, top: nat, stof: string -> real)
    requires WellTag(g) && Written(s, i, TagText(g)) && Ends(s, i + |TagText(g)|) && top < |p|
    ensures i < |s| && (Plain(s[i]) || s[i] == ':')
    ensures Labelled(s, i, p, top, stof)
         == (p[top := p[top].(name := g.name, weight := stof(g.digits))], i + |TagText(g)|)
  {
    TagEnds(s, i, g);
  }

  /** Skip stops at the first character from `i` on that is not whitespace, or the end. */
  lemma {:induction false} SkipIs(s: string, i: nat, j: nat)
    requires i <= j <= |s| && (forall k :: i <= k < j ==> IsSpace(s[k])) && (j == |s| || !IsSpace(s[j]))
    ensures Skip(s, i) == j
    decreases j - i
  {
    if i < j {
      SkipIs(s, i + 1, j);
    }
  }

  /** LabelEnd is the first `,` or `:` from `i` on, or the end. */
  lemma {:induction false} LabelEndIs(s: string, i: nat, j: nat)
    requires i <= j <= |s| && (forall k :: i <= k < j ==> s[k] != ',' && s[k] != ':')
    requires j == |s| || s[j] == ',' || s[j] == ':'
    ensures LabelEnd(s, i) == j
    decreases j - i
  {
    if i < j {
      LabelEndIs(s, i + 1, j);
    }
  }

  /** NumberEnd is the first character from `i` on that is neither a digit nor a dot. */
  lemma {:induction false} NumberEndIs(s: string, i: nat, j: nat)
    requires i <= j <= |s| && (forall k :: i <= k < j ==> IsDigit(s[k]) || s[k] == '.')
    requires j == |s| || !(IsDigit(s[j]) || s[j] == '.')
    ensures NumberEnd(s, i) == j
    decreases j - i
  {
    if i < j {
      NumberEndIs(s, i + 1, j);
    }
  }

  /** A scan that makes a move from `i` goes on from where the move leaves it. */
  lemma {:induction false} RunNext(s: string, i: nat, p: seq<PtrNode>, stack: seq<nat>, w0: real, stof: string -> real)
    requires i < |s| && InArena(p, stack) && |stack| >= 1 && Step(s, i, p, stack, w0, stof).Next?
    ensures Run(s, i, p, stack, w0, stof)
         == Run(s, Step(s, i, p, stack, w0, stof).index, Step(s, i, p, stack, w0, stof).p,
                Step(s, i, p, stack, w0, stof).stack, w0, stof)
  {
  }

  /** `(` or `,` at `i` pushes a fresh node. */
  lemma {:induction false} StepOpen(s: string, i: nat, p: seq<PtrNode>, stack: seq<nat>, w0: real, stof: string -> real)
    requires i < |s| && (s[i] == '(' || s[i] == ',') && InArena(p, stack) && |stack| >= 1
    ensures Step(s, i, p, stack, w0, stof) == Next(i + 1, p + [Fresh(w0)], stack + [|p|])
    ensures Run(s, i, p, stack, w0, stof) == Run(s, i + 1, p + [Fresh(w0)], stack + [|p|], w0, stof)
  {
    assert Skip(s, i) == i;
    RunNext(s, i, p, stack, w0, stof);
  }

  /** `)` at `i`, with the nodes `y` and `z` of two subtrees pushed above the top entry,
      links `z` on the left and `y` on the right of that entry's node and pops both. */
  lemma {:induction false} StepClose(s: string, i: nat, p: seq<PtrNode>, stack: seq<nat>, y: nat, z: nat, w0: real, stof: string -> real)
    requires i < |s| && s[i] == ')' && InArena(p, stack + [y, z]) && |stack| >= 1 && stack[|stack| - 1] < |p|
    ensures Step(s, i, p, stack + [y, z], w0, stof) == Next(i + 1, Linked(p, stack[|stack| - 1], y, z), stack)
    ensures Run(s, i, p, stack + [y, z], w0, stof) == Run(s, i + 1, Linked(p, stack[|stack| - 1], y, z), stack, w0, stof)
  {
    var st := stack + [y, z];
    assert st[..|st| - 2] == stack;
    assert st[|st| - 3] == stack[|stack| - 1] && st[|st| - 1] == z && st[|st| - 2] == y;
    assert Skip(s, i) == i;
    RunNext(s, i, p, st, w0, stof);
  }

  /** A tag at `i` labels the node on top of the stack. */
  lemma {:induction false} StepTag(s: string, i: nat, g: Tag, p: seq<PtrNode>, stack: seq<nat>, w0: real, stof: string -> real)
    requires WellTag(g) && Written(s, i, TagText(g)) && Ends(s, i + |TagText(g)|)
    requires InArena(p, stack) && |stack| >= 1
    ensures i < |s|
    ensures Step(s, i, p, stack, w0, stof) == Next(i + |TagText(g)|, Tagged(p, stack[|stack| - 1], g, stof), stack)
    ensures Run(s, i, p, stack, w0, stof) == Run(s, i + |TagText(g)|, Tagged(p, stack[|stack| - 1], g, stof), stack, w0, stof)
  {
    ReadsTag(s, i, g, p, stack[|stack| - 1], stof);
    assert Skip(s, i) == i;
    RunNext(s, i, p, stack, w0, stof);
  }

  /** The text of a pair at `i`, in pieces: `(` then the first subtree's text, `,` at `j1`
      then the second's, `)` at `j2` then the optional tag, and what follows at `e`. */
  ghost predicate PairAt(s: string, i: nat, a: Shape, b: Shape, g: Option<Tag>, j1: nat, j2: nat, e: nat) {
    && j1 == i + 1 + |Text(a)| && j2 == j1 + 1 + |Text(b)| && e == j2 + 1 + |OwnText(g)| && j2 < |s|
    && s[i] == '(' && Written(s, i + 1, Text(a)) && Ends(s, j1) && s[j1] == ','
    && Written(s, j1 + 1, Text(b)) && Ends(s, j2) && s[j2] == ')' && Written(s, j2 + 1, OwnText(g)) && Ends(s, e)
  }

  /** The text of a pair at `i` splits into the pieces `PairAt` names. */
  lemma {:induction false} PairText(s: string, i: nat, a: Shape, b: Shape, g: Option<Tag>, j1: nat, j2: nat, e: nat)
    requires Written(s, i, Text(Pair(a, b, g))) && e == i + |Text(Pair(a, b, g))| && Ends(s, e)
    requires j1 == i + 1 + |Text(a)| && j2 == j1 + 1 + |Text(b)|
    ensures PairAt(s, i, a, b, g, j1, j2, e)
  {
    PairPieces(s, i, Text(a), Text(b), OwnText(g));
  }

  /** `(u,v)w` written at `i`, piece by piece. */
  lemma {:induction false} PairPieces(s: string, i: nat, u: string, v: string, w: string)
    requires Written(s, i, "(" + u + "," + v + ")" + w)
    ensures var j1 := i + 1 + |u|;
      var j2 := j1 + 1 + |v|;
      && j2 < |s| && s[i] == '(' && Written(s, i + 1, u) && s[j1] == ','
      && Written(s, j1 + 1, v) && s[j2] == ')' && Written(s, j2 + 1, w)
  {
    var j1 := i + 1 + |u|;
    var j2 := j1 + 1 + |v|;
    WrittenSplit(s, i, "(" + u + "," + v + ")", w);
    WrittenSplit(s, i, "(" + u + "," + v, ")");
    WrittenSplit(s, i, "(" + u + ",", v);
    WrittenSplit(s, i, "(" + u, ",");
    WrittenSplit(s, i, "(", u);
    assert s[i + 0] == "("[0] && s[j1 + 0] == ","[0] && s[j2 + 0] == ")"[0];
  }

  /** The arena after the text of `t` is read with a fresh node for it on top of the stack,
      in the last slot of `p`: a tag labels that node, and a pair is read as `PlacedPair`
      says. */
  function Placed(p: seq<PtrNode>, t: Shape, w0: real, stof: string -> real): (q: seq<PtrNode>)
    requires |p| >= 1
    ensures |q| >= |p|
    decreases t, 1
  {
    match t
    case Tip(g) => Tagged(p, |p| - 1, g, stof)
    case Pair(a, b, g) => PlacedPair(p, a, b, g, w0, stof)
  }

  /** A pair read into the last slot of `p`: its first subtree goes into a fresh node, its
      second into another, the two are linked under the pair's node (second on the left)
      and then its own tag, if any, is applied. */
  function PlacedPair(p: seq<PtrNode>, a: Shape, b: Shape, g: Option<Tag>, w0: real, stof: string -> real)
    : (q: seq<PtrNode>)
    requires |p| >= 1
    ensures |q| > |p|
    decreases Pair(a, b, g), 0
  {
    var p1 := Placed(p + [Fresh(w0)], a, w0, stof);
    var p2 := Placed(p1 + [Fresh(w0)], b, w0, stof);
    Closed(p2, |p| - 1, |p|, |p1|, g, stof)
  }

  /** The `)` of a pair and its optional tag: the node at `top` gets the second subtree's
      node `z` on the left and the first's `y` on the right, then the tag. */
  function Closed(p: seq<PtrNode>, top: nat, y: nat, z: nat, g: Option<Tag>, stof: string -> real)
    : (q: seq<PtrNode>)
    requires top < |p|
    ensures |q| == |p|
  {
    if g.Some? then Tagged(Linked(p, top, y, z), top, g.value, stof) else Linked(p, top, y, z)
  }

  /** The node at `top` labelled with a tag: its name and `stof` of its digits. */
  function Tagged(p: seq<PtrNode>, top: nat, g: Tag, stof: string -> real): (q: seq<PtrNode>)
    requires top < |p|
    ensures |q| == |p|
  {
    p[top := p[top].(name := g.name, weight := stof(g.digits))]
  }

  /** The node at `top` given `z` as its left and `y` as its right child. */
  function Linked(p: seq<PtrNode>, top: nat, y: nat, z: nat): (q: seq<PtrNode>)
    requires top < |p|
    ensures |q| == |p|
  {
    p[top := p[top].(left := Some(z), right := Some(y))]
  }

  /** `Closed` changes the node at `top` alone: it gets the two children and, when there
      is a tag, the tag's label and weight. */
  lemma ClosedAt(p: seq<PtrNode>, top: nat, y: nat, z: nat, g: Option<Tag>, stof: string -> real)
    requires top < |p|
    ensures var q := Closed(p, top, y, z, g, stof);
      && |q| == |p| && (forall k :: 0 <= k < |p| && k != top ==> q[k] == p[k])
      && q[top] == PtrNode(Some(z), Some(y), if g.Some? then g.value.name else p[top].name,
                           if g.Some? then stof(g.value.digits) else p[top].weight)
  {
  }

  /** A pair node assembled by `)` and its optional tag holds the pair, given that its two
      subtrees were read into the later slots `y` and `z`. */
  lemma {:induction false} PairHolds(p1: seq<PtrNode>, p2: seq<PtrNode>, top: nat, y: nat, z: nat,
                                     a: Shape, b: Shape, g: Option<Tag>, w0: real, stof: string -> real)
    requires top < y < z == |p1| <= |p2| && Holds(p1, y, a, w0, stof) && Holds(p2, z, b, w0, stof)
    requires (forall k :: 0 <= k < z ==> p2[k] == p1[k]) && p1[top] == Fresh(w0)
    ensures Holds(Closed(p2, top, y, z, g, stof), top, Pair(a, b, g), w0, stof)
  {
    var q := Closed(p2, top, y, z, g, stof);
    ClosedAt(p2, top, y, z, g, stof);
    forall k | y <= k < |p1| ensures q[k] == p1[k] {
      assert q[k] == p2[k];
    }
    HoldsFrame(p1, q, y, a, w0, stof);
    forall k | z <= k < |p2| ensures q[k] == p2[k] { }
    HoldsFrame(p2, q, z, b, w0, stof);
  }

  /** Reading a shape into the last slot leaves the slots below it alone. */
  lemma {:induction false} PlacedFrame(p: seq<PtrNode>, t: Shape, w0: real, stof: string -> real)
    requires |p| >= 1
    ensures forall k :: 0 <= k < |p| - 1 ==> Placed(p, t, w0, stof)[k] == p[k]
    decreases t
  {
    match t
    case Tip(g) =>
    case Pair(a, b, g) =>
      var p0 := p + [Fresh(w0)];
      var p1 := Placed(p0, a, w0, stof);
      PlacedFrame(p0, a, w0, stof);
      var p2a := p1 + [Fresh(w0)];
      var p2 := Placed(p2a, b, w0, stof);
      PlacedFrame(p2a, b, w0, stof);
      ClosedAt(p2, |p| - 1, |p|, |p1|, g, stof);
      forall k | 0 <= k < |p| - 1 ensures Placed(p, t, w0, stof)[k] == p[k] {
        assert p2[k] == p2a[k] == p1[k] == p0[k];
      }
  }

  /** Reading a shape into a fresh last slot makes that slot hold the shape. */
  lemma {:induction false} PlacedHolds(p: seq<PtrNode>, t: Shape, w0: real, stof: string -> real)
    requires |p| >= 1 && p[|p| - 1] == Fresh(w0)
    ensures Holds(Placed(p, t, w0, stof), |p| - 1, t, w0, stof)
    decreases t
  {
    match t
    case Tip(g) =>
    case Pair(a, b, g) =>
      var top := |p| - 1;
      var p0 := p + [Fresh(w0)];
      var p1 := Placed(p0, a, w0, stof);
      PlacedHolds(p0, a, w0, stof);
      PlacedFrame(p0, a, w0, stof);
      var p2a := p1 + [Fresh(w0)];
      var p2 := Placed(p2a, b, w0, stof);
      PlacedHolds(p2a, b, w0, stof);
      PlacedFrame(p2a, b, w0, stof);
      assert p1[top] == p0[top];
      forall k | 0 <= k < |p1| ensures p2[k] == p1[k] {
        assert p2[k] == p2a[k];
      }
      PairHolds(p1, p2, top, |p|, |p1|, a, b, g, w0, stof);
  }

  /** Reading the text of a shape, with a fresh node for it on top of the stack, takes the
      scan past the text with the same stack and the arena `Placed` describes. */
  lemma {:induction false} ReadsShape(s: string, i: nat, t: Shape, e: nat, p: seq<PtrNode>, stack: seq<nat>,
                                      w0: real, stof: string -> real)
    requires Well(t) && Written(s, i, Text(t)) && e == i + |Text(t)| && Ends(s, e)
    requires InArena(p, stack) && |stack| >= 1 && stack[|stack| - 1] == |p| - 1
    ensures SameEnd(s, i, p, stack, e, Placed(p, t, w0, stof), stack, w0, stof)
    decreases Size(t), 1
  {
    match t
    case Tip(g) =>
      StepTag(s, i, g, p, stack, w0, stof);
    case Pair(a, b, g) =>
      var j1 := i + 1 + |Text(a)|;
      var j2 := j1 + 1 + |Text(b)|;
      PairText(s, i, a, b, g, j1, j2, e);
      var p1 := Placed(p + [Fresh(w0)], a, w0, stof);
      var p2 := Placed(p1 + [Fresh(w0)], b, w0, stof);
      ReadsPair(s, i, j1, j2, a, b, g, e, p, stack, p1, p2, w0, stof);
  }

  /** `(` or `,` at `i` followed by the text of `t`: the scan pushes a fresh node and reads
      the text into it. */
  lemma {:induction false} ReadsOpened(s: string, i: nat, t: Shape, j: nat, p: seq<PtrNode>, stack: seq<nat>,
                                       w0: real, stof: string -> real)
    requires i < |s| && (s[i] == '(' || s[i] == ',')
    requires Well(t) && Written(s, i + 1, Text(t)) && j == i + 1 + |Text(t)| && Ends(s, j)
    requires InArena(p, stack) && |stack| >= 1
    ensures SameEnd(s, i, p, stack, j, Placed(p + [Fresh(w0)], t, w0, stof), stack + [|p|], w0, stof)
    decreases Size(t), 2
  {
    StepOpen(s, i, p, stack, w0, stof);
    ArenaPush(p, stack, w0);
    ReadsShape(s, i + 1, t, j, p + [Fresh(w0)], stack + [|p|], w0, stof);
  }

  /** The pair case of `ReadsShape`, on the pieces of the pair's text: `(` and the first
      subtree, `,` and the second, then `)` with the optional tag, which links the two
      subtrees' nodes `|p|` and `|p1|` under the pair's node. */
  lemma {:induction false} ReadsPair(s: string, i: nat, j1: nat, j2: nat, a: Shape, b: Shape, g: Option<Tag>, e: nat,
                                     p: seq<PtrNode>, stack: seq<nat>, p1: seq<PtrNode>, p2: seq<PtrNode>,
                                     w0: real, stof: string -> real)
    requires Well(a) && Well(b) && (g.Some? ==> WellTag(g.value)) && PairAt(s, i, a, b, g, j1, j2, e)
    requires InArena(p, stack) && |stack| >= 1 && stack[|stack| - 1] == |p| - 1
    requires p1 == Placed(p + [Fresh(w0)], a, w0, stof) && p2 == Placed(p1 + [Fresh(w0)], b, w0, stof)
    ensures SameEnd(s, i, p, stack, e, Closed(p2, |p| - 1, |p|, |p1|, g, stof), stack, w0, stof)
    decreases Size(a) + Size(b) + 1, 0
  {
    var st0, st := stack + [|p|], stack + [|p|, |p1|];
    ReadsOpened(s, i, a, j1, p, stack, w0, stof);
    ArenaPush(p, stack, w0);
    ArenaGrow(p + [Fresh(w0)], p1, st0);
    ReadsOpened(s, j1, b, j2, p1, st0, w0, stof);
    ArenaPush(p1, st0, w0);
    assert st0 + [|p1|] == st;
    ArenaGrow(p1 + [Fresh(w0)], p2, st);
    ReadsClose(s, j2, g, p2, stack, |p|, |p1|, w0, stof);
    var q := Closed(p2, |p| - 1, |p|, |p1|, g, stof);
    ArenaGrow(p, q, stack);
    SameEndChain(s, i, p, stack, j1, p1, st0, j2, p2, st, e, q, stack, w0, stof);
  }

  /** The `)` of a pair and its optional tag, with the pair's node and its two subtrees'
      nodes on top of the stack: the scan goes on after the tag with those two popped. */
  lemma {:induction false} ReadsClose(s: string, j: nat, g: Option<Tag>, p: seq<PtrNode>, stack: seq<nat>, y: nat, z: nat,
                   w0: real, stof: string -> real)
    requires j < |s| && s[j] == ')'
    requires Written(s, j + 1, OwnText(g)) && Ends(s, j + 1 + |OwnText(g)|) && (g.Some? ==> WellTag(g.value))
    requires InArena(p, stack + [y, z]) && |stack| >= 1 && stack[|stack| - 1] < |p|
    ensures InArena(Closed(p, stack[|stack| - 1], y, z, g, stof), stack)
    ensures SameEnd(s, j, p, stack + [y, z], j + 1 + |OwnText(g)|, Closed(p, stack[|stack| - 1], y, z, g, stof),
                    stack, w0, stof)
  {
    var top := stack[|stack| - 1];
    StepClose(s, j, p, stack, y, z, w0, stof);
    if g.Some? {
      StepTag(s, j + 1, g.value, Linked(p, top, y, z), stack, w0, stof);
    }
  }

  /** The text of a well-formed shape followed by `;` is read by make_tree_from_newick's
      scan into an arena whose first node holds that shape, with the starting node alone
      left on the stack: `MakeTreeFromNewick` therefore succeeds on it and packs that node. */
  lemma {:induction false} ReadsNewick(t: Shape, w0: real, stof: string -> real)
    requires Well(t)
    ensures var r := Run(Text(t) + ";", 0, [Fresh(w0)], [0], w0, stof);
      && r == Finished(Placed([Fresh(w0)], t, w0, stof), [0])
      && Holds(r.arena, 0, t, w0, stof) && |r.arena| == Size(t)
  {
    PlacedSize([Fresh(w0)], t, w0, stof);
    var s, e := Text(t) + ";", |Text(t)|;
    assert Written(s, 0, Text(t)) by {
      forall k | 0 <= k < |Text(t)| ensures s[0 + k] == Text(t)[k] { }
    }
    assert s[e] == ';';
    ReadsShape(s, 0, t, e, [Fresh(w0)], [0], w0, stof);
    var q := Placed([Fresh(w0)], t, w0, stof);
    assert Skip(s, e) == e;
    assert Step(s, e, q, [0], w0, stof) == Done(q, [0]);
    assert Run(s, e, q, [0], w0, stof) == Finished(q, [0]);
    PlacedHolds([Fresh(w0)], t, w0, stof);
  }

  /** Reading a shape adds one node per node of the shape, its own slot aside. */
  lemma {:induction false} PlacedSize(p: seq<PtrNode>, t: Shape, w0: real, stof: string -> real)
    requires |p| >= 1
    ensures |Placed(p, t, w0, stof)| == |p| + Size(t) - 1
    decreases t
  {
    match t
    case Tip(_) =>
    case Pair(a, b, _) =>
      PlacedSize(p + [Fresh(w0)], a, w0, stof);
      PlacedSize(Placed(p + [Fresh(w0)], a, w0, stof) + [Fresh(w0)], b, w0, stof);
  }
}

=== FILE: nj.dfy ===
/**
 * nj_t of src/nj.cpp: Neighbor-Joining over a square distance matrix stored row-major in
 * one vector.  Every round adds the row sums of the matrix into R, computes Q, picks the
 * pair with the least Q, joins it into a new cluster node and shrinks the matrix by one row
 * and one column.  At three clusters the last three branch lengths are set and the
 * clusters are packed into a tree.
 */
module Joining {
  import opened Wrappers
  import opened Nodes
  import opened Flatten
  import opened Matrices
  import opened Trees
  import opened Weights

  // ---------------------------------------------------------------------------------------
  // Row sums, Q and the pair find_pair picks
  // ---------------------------------------------------------------------------------------

  /** D[i][0] + ... + D[i][m-1]. */
  function RowSum(d: seq<real>, n: nat, i: nat, m: nat): real
    requires |d| == Square(n) && i < n && m <= n
  {
    if m == 0 then 0.0 else RowSum(d, n, i, m - 1) + d[Cell(n, i, m - 1)]
  }

  /** std::vector::resize(n, 0.0): keeps the first `n` entries and pads with zeros. */
  function Resized(v: seq<real>, n: nat): (s: seq<real>)
    ensures |s| == n && forall a :: 0 <= a < n ==> s[a] == if a < |v| then v[a] else 0.0
  {
    if n <= |v| then v[..n] else v + seq(n - |v|, _ => 0.0)
  }

  /** Entry (a, b) of Q: (n - 2) D[a][b] - R[a] - R[b]. */
  function QEntry(d: seq<real>, r: seq<real>, n: nat, a: nat, b: nat): real
    requires |d| == Square(n) && |r| == n && a < n && b < n
  {
    (n - 2) as real * d[Cell(n, a, b)] - r[a] - r[b]
  }

  /** find_pair visits the pairs (a, b) with b < a row by row: (a, b) comes after (c, e). */
  predicate After(a: nat, b: nat, c: nat, e: nat) {
    a > c || (a == c && b > e)
  }

  /** (li, lj) is the pair find_pair picks from Q: the start pair (0, 1) or a visited pair,
      with no visited pair smaller, and no visited pair after it as small. */
  predicate LeastPair(q: seq<real>, n: nat, li: nat, lj: nat)
    requires |q| == Square(n) && 2 <= n
  {
    && li < n && lj < n && ((li, lj) == (0, 1) || lj < li)
    && q[Cell(n, li, lj)] <= q[Cell(n, 0, 1)]
    && (forall a, b :: 0 <= b < a < n ==> q[Cell(n, li, lj)] <= q[Cell(n, a, b)])
    && (forall a, b :: 0 <= b < a < n && After(a, b, li, lj) ==> q[Cell(n, li, lj)] < q[Cell(n, a, b)])
  }

  /** LeastPair once the pairs before (a, b) in visiting order have been seen. */
  predicate LeastSoFar(q: seq<real>, n: nat, li: nat, lj: nat, a: nat, b: nat)
    requires |q| == Square(n) && 2 <= n
  {
    && li < n && lj < n && ((li, lj) == (0, 1) || (lj < li && (li < a || (li == a && lj < b))))
    && q[Cell(n, li, lj)] <= q[Cell(n, 0, 1)]
    && (forall x, y :: 0 <= y < x < n && (x < a || (x == a && y < b)) ==> q[Cell(n, li, lj)] <= q[Cell(n, x, y)])
    && (forall x, y :: 0 <= y < x < n && (x < a || (x == a && y < b)) && After(x, y, li, lj) ==>
          q[Cell(n, li, lj)] < q[Cell(n, x, y)])
  }

  /** What find_pair leaves: the row sums `r` of `d` added to the old sums `r0`, the matrix
      Q computed from them, and the pair (i, j) picked from Q. */
  ghost predicate Picked(d: seq<real>, n: nat, r0: seq<real>, r: seq<real>, q: seq<real>, i: nat, j: nat) {
    && |d| == Square(n) && 2 <= n && |r| == n && |q| == Square(n)
    && (forall a :: 0 <= a < n ==> r[a] == Resized(r0, n)[a] + RowSum(d, n, a, n))
    && (forall a, b :: 0 <= a < n && 0 <= b < n ==> q[Cell(n, a, b)] == QEntry(d, r, n, a, b))
    && LeastPair(q, n, i, j)
  }

  /** The pair find_pair picks is determined by Q. */
  lemma LeastPairUnique(q: seq<real>, n: nat, li: nat, lj: nat, li': nat, lj': nat)
    requires |q| == Square(n) && 2 <= n && LeastPair(q, n, li, lj) && LeastPair(q, n, li', lj')
    ensures li == li' && lj == lj'
  {
  }

  /** The scan of find_pair: visits every (a, b) with b < a, row by row, from the start
      pair (0, 1), taking each pair whose entry is no larger than the current one. */
  method LeastPairOf(q: seq<real>, n: nat) returns (li: nat, lj: nat)
    requires |q| == Square(n) && 2 <= n
    ensures LeastPair(q, n, li, lj)
  {
    li, lj := 0, 1;
    for a := 0 to n
      invariant LeastSoFar(q, n, li, lj, a, 0)
    {
      for b := 0 to a
        invariant LeastSoFar(q, n, li, lj, a, b)
      {
        if q[Cell(n, a, b)] <= q[Cell(n, li, lj)] {
          li, lj := a, b;
        }
      }
    }
  }

  // ---------------------------------------------------------------------------------------
  // The reduced matrix
  // ---------------------------------------------------------------------------------------

  /** `a` survives the join of `i` and `j`. */
  predicate Survivor(n: nat, i: nat, j: nat, a: nat) {
    i < n && j < n && i != j && a < n && a != i && a != j
  }

  /** The index a survivor moves to: one less for each of `i` and `j` below it. */
  function Shift(n: nat, i: nat, j: nat, a: nat): (c: nat)
    requires Survivor(n, i, j, a)
    ensures c < n - 2
  {
    a - (if i < a then 1 else 0) - (if j < a then 1 else 0)
  }

  /** Different survivors move to different indices. */
  lemma ShiftInjective(n: nat, i: nat, j: nat, a: nat, b: nat)
    requires Survivor(n, i, j, a) && Survivor(n, i, j, b) && a != b
    ensures Shift(n, i, j, a) != Shift(n, i, j, b)
  {
  }

  /** Every index of the reduced matrix but the last is where some survivor moves. */
  lemma ShiftOnto(n: nat, i: nat, j: nat, c: nat) returns (a: nat)
    requires i < n && j < n && i != j && c < n - 2
    ensures Survivor(n, i, j, a) && Shift(n, i, j, a) == c
  {
    var lo, hi := if i < j then i else j, if i < j then j else i;
    if c < lo {
      a := c;
    } else if c + 1 < hi {
      a := c + 1;
    } else {
      a := c + 2;
    }
  }

  /** Entry `a` of the joined cluster's row and column: 0.5 (D[a][i] + D[a][j] - D[i][j]),
      with `a` read as a row of the old matrix. */
  function Merged(d: seq<real>, n: nat, i: nat, j: nat, a: nat): real
    requires |d| == Square(n) && i < n && j < n && a < n
  {
    0.5 * (d[Cell(n, a, i)] + d[Cell(n, a, j)] - d[Cell(n, i, j)])
  }

  /** `nd` is the matrix join_pair builds from `d` when it joins `i` and `j`: survivors'
      entries moved to their shifted indices, and a last row and column, mirrors of each
      other, for the joined cluster. */
  ghost predicate Reduces(d: seq<real>, n: nat, i: nat, j: nat, nd: seq<real>)
    requires |d| == Square(n) && i < n && j < n && i != j
  {
    && |nd| == Square(n - 1)
    && (forall a: nat, b: nat :: Survivor(n, i, j, a) && Survivor(n, i, j, b) ==>
          nd[Cell(n - 1, Shift(n, i, j, a), Shift(n, i, j, b))] == d[Cell(n, a, b)])
    && (forall a :: 0 <= a < n - 1 ==>
          nd[Cell(n - 1, a, n - 2)] == Merged(d, n, i, j, a) && nd[Cell(n - 1, n - 2, a)] == Merged(d, n, i, j, a))
  }

  predicate Symmetric(d: seq<real>, n: nat)
    requires |d| == Square(n)
  {
    forall a, b :: 0 <= a < n && 0 <= b < n ==> d[Cell(n, a, b)] == d[Cell(n, b, a)]
  }

  /** Joining keeps a symmetric matrix symmetric. */
  lemma ReducedSymmetric(d: seq<real>, n: nat, i: nat, j: nat, nd: seq<real>)
    requires |d| == Square(n) && i < n && j < n && i != j && Reduces(d, n, i, j, nd)
    requires Symmetric(d, n)
    ensures Symmetric(nd, n - 1)
  {
    var m := n - 1;
    forall c, e | 0 <= c < m && 0 <= e < m ensures nd[Cell(m, c, e)] == nd[Cell(m, e, c)] {
      if c < m - 1 && e < m - 1 {
        var a := ShiftOnto(n, i, j, c);
        var b := ShiftOnto(n, i, j, e);
        assert d[Cell(n, a, b)] == d[Cell(n, b, a)];
      } else if c == n - 2 {
        assert nd[Cell(n - 1, e, n - 2)] == Merged(d, n, i, j, e);
      } else {
        assert nd[Cell(n - 1, c, n - 2)] == Merged(d, n, i, j, c);
      }
    }
  }

  /** The loop at the head of join_pair: the clusters other than `i` and `j`, in order. */
  method Keep(cs: seq<nat>, i: nat, j: nat) returns (kept: seq<nat>)
    requires i < |cs| && j < |cs| && i != j
    ensures |kept| == |cs| - 2
    ensures forall a: nat :: Survivor(|cs|, i, j, a) ==> kept[Shift(|cs|, i, j, a)] == cs[a]
  {
    kept := [];
    for a := 0 to |cs|
      invariant |kept| == a - (if i < a then 1 else 0) - (if j < a then 1 else 0)
      invariant forall b :: 0 <= b < a && Survivor(|cs|, i, j, b) ==>
        Shift(|cs|, i, j, b) < |kept| && kept[Shift(|cs|, i, j, b)] == cs[b]
    {
      if a == i || a == j {
        continue;
      }
      kept := kept + [cs[a]];
    }
  }

  /** The matrix half of join_pair: tmp_dists is filled with the survivors' entries, then
      the last row and column are reflected in. */
  method Reduce(d: seq<real>, n: nat, i: nat, j: nat) returns (nd: seq<real>)
    requires |d| == Square(n) && i < n && j < n && i != j
    ensures Reduces(d, n, i, j, nd)
  {
    var m := n - 1;
    nd := CopySurvivors(d, n, i, j);
    for a := 0 to m
      invariant |nd| == Square(m)
      invariant forall x: nat, y: nat :: Survivor(n, i, j, x) && Survivor(n, i, j, y) ==>
        nd[Cell(m, Shift(n, i, j, x), Shift(n, i, j, y))] == d[Cell(n, x, y)]
      invariant forall x :: 0 <= x < a ==>
        nd[Cell(m, x, m - 1)] == Merged(d, n, i, j, x) && nd[Cell(m, m - 1, x)] == Merged(d, n, i, j, x)
    {
      nd := Reflect(d, n, m, i, j, nd, a);
    }
  }

  /** The first loop of the matrix half of join_pair: every survivor row of `d` is copied
      into tmp_dists at its shifted row and columns. */
  method CopySurvivors(d: seq<real>, n: nat, i: nat, j: nat) returns (nd: seq<real>)
    requires |d| == Square(n) && i < n && j < n && i != j
    ensures |nd| == Square(n - 1)
    ensures forall x: nat, y: nat :: Survivor(n, i, j, x) && Survivor(n, i, j, y) ==>
      nd[Cell(n - 1, Shift(n, i, j, x), Shift(n, i, j, y))] == d[Cell(n, x, y)]
  {
    var m := n - 1;
    nd := seq(Square(m), _ => 0.0);
    for a := 0 to n
      invariant |nd| == Square(m)
      invariant forall x: nat, y: nat :: x < a && Survivor(n, i, j, x) && Survivor(n, i, j, y) ==>
        nd[Cell(m, Shift(n, i, j, x), Shift(n, i, j, y))] == d[Cell(n, x, y)]
    {
      if a == i || a == j {
        continue;
      }
      var ca := a;
      if a > i {
        ca := ca - 1;
      }
      if a > j {
        ca := ca - 1;
      }
      assert ca == Shift(n, i, j, a);
      ghost var before := nd;
      nd := CopyRow(d, n, m, i, j, nd, a, ca);
      forall x: nat, y: nat | x < a && Survivor(n, i, j, x) && Survivor(n, i, j, y)
        ensures nd[Cell(m, Shift(n, i, j, x), Shift(n, i, j, y))] == d[Cell(n, x, y)]
      {
        ShiftInjective(n, i, j, x, a);
      }
    }
  }

  /** One survivor row of tmp_dists (whose rows have length `m`, one less than `n`): row
      `a` of `d` lands in row `ca`, its survivors at their shifted columns; other rows are
      left alone. */
  method CopyRow(d: seq<real>, n: nat, m: nat, i: nat, j: nat, nd0: seq<real>, a: nat, ca: nat) returns (nd: seq<real>)
    requires |d| == Square(n) && n == m + 1 && Survivor(n, i, j, a) && ca == Shift(n, i, j, a) && |nd0| == Square(m)
    ensures |nd| == Square(m)
    ensures forall y: nat :: Survivor(n, i, j, y) ==> nd[Cell(m, ca, Shift(n, i, j, y))] == d[Cell(n, a, y)]
    ensures forall c, e :: 0 <= c < m && 0 <= e < m && c != ca ==> nd[Cell(m, c, e)] == nd0[Cell(m, c, e)]
  {
    nd := nd0;
    for b := 0 to n
      invariant |nd| == Square(m)
      invariant forall y: nat :: y < b && Survivor(n, i, j, y) ==> nd[Cell(m, ca, Shift(n, i, j, y))] == d[Cell(n, a, y)]
      invariant forall c, e :: 0 <= c < m && 0 <= e < m && c != ca ==> nd[Cell(m, c, e)] == nd0[Cell(m, c, e)]
    {
      if b == j || b == i {
        continue;
      }
      var cb := b;
      if b > j {
        cb := cb - 1;
      }
      if b > i {
        cb := cb - 1;
      }
      assert cb == Shift(n, i, j, b);
      ghost var before := nd;
      nd := nd[Cell(m, ca, cb) := d[Cell(n, a, b)]];
      forall y: nat | y < b && Survivor(n, i, j, y) ensures nd[Cell(m, ca, Shift(n, i, j, y))] == d[Cell(n, a, y)] {
        ShiftInjective(n, i, j, y, b);
        CellsApart(m, ca, cb, ca, Shift(n, i, j, y));
      }
      forall c, e | 0 <= c < m && 0 <= e < m && c != ca ensures nd[Cell(m, c, e)] == nd0[Cell(m, c, e)] {
        CellsApart(m, ca, cb, c, e);
      }
    }
  }

  /** One step of the reflection loop: entry `a` of the last column, then of the last row. */
  method Reflect(d: seq<real>, n: nat, m: nat, i: nat, j: nat, nd0: seq<real>, a: nat) returns (nd: seq<real>)
    requires |d| == Square(n) && n == m + 1 && i < n && j < n && i != j && a < m && |nd0| == Square(m)
    requires forall x :: 0 <= x < a ==>
      nd0[Cell(m, x, m - 1)] == Merged(d, n, i, j, x) && nd0[Cell(m, m - 1, x)] == Merged(d, n, i, j, x)
    ensures |nd| == Square(m)
    ensures forall x :: 0 <= x <= a ==>
      nd[Cell(m, x, m - 1)] == Merged(d, n, i, j, x) && nd[Cell(m, m - 1, x)] == Merged(d, n, i, j, x)
    ensures forall c, e :: 0 <= c < m - 1 && 0 <= e < m - 1 ==> nd[Cell(m, c, e)] == nd0[Cell(m, c, e)]
  {
    nd := nd0[Cell(m, a, m - 1) := 0.5 * (d[Cell(n, a, i)] + d[Cell(n, a, j)] - d[Cell(n, i, j)])];
    nd := nd[Cell(m, m - 1, a) := nd[Cell(m, a, m - 1)]];
    forall x | 0 <= x <= a
      ensures nd[Cell(m, x, m - 1)] == Merged(d, n, i, j, x) && nd[Cell(m, m - 1, x)] == Merged(d, n, i, j, x)
    {
      if x < a {
        CellsApart(m, a, m - 1, x, m - 1);
        CellsApart(m, m - 1, a, x, m - 1);
        CellsApart(m, a, m - 1, m - 1, x);
        CellsApart(m, m - 1, a, m - 1, x);
      }
    }
    forall c, e | 0 <= c < m - 1 && 0 <= e < m - 1 ensures nd[Cell(m, c, e)] == nd0[Cell(m, c, e)] {
      CellsApart(m, a, m - 1, c, e);
      CellsApart(m, m - 1, a, c, e);
    }
  }

  // ---------------------------------------------------------------------------------------
  // Branch lengths
  // ---------------------------------------------------------------------------------------

  /** The branch length join_pair gives the left child, as written: the second term's
      coefficient 1/(2(2n-2)) is a division of unsigned integers. */
  function LeftLength(d: seq<real>, r: seq<real>, n: nat, i: nat, j: nat): real
    requires |d| == Square(n) && |r| == n && i < n && j < n && 2 <= n
  {
    0.5 * d[Cell(n, i, j)] + (1 / (2 * (2 * n - 2))) as real * (r[i] - r[j])
  }

  /** The coefficient is 0, so the left child gets half the pair's distance and the two
      lengths add up to it. */
  lemma LeftIsHalf(d: seq<real>, r: seq<real>, n: nat, i: nat, j: nat)
    requires |d| == Square(n) && |r| == n && i < n && j < n && 2 <= n
    ensures LeftLength(d, r, n, i, j) == 0.5 * d[Cell(n, i, j)]
    ensures LeftLength(d, r, n, i, j) + (d[Cell(n, i, j)] - LeftLength(d, r, n, i, j)) == d[Cell(n, i, j)]
  {
    UnitFraction(2 * (2 * n - 2));
  }

  /** Integer division of 1 by anything above 1 is 0. */
  lemma UnitFraction(k: int)
    requires 1 < k
    ensures 1 / k == 0
  {
  }

  /** The branch length join_final gives cluster `x` of the last three. */
  function FinalWeight(d: seq<real>, x: nat): real
    requires |d| == Square(3) && x < 3
  {
    var y, z := (x + 1) % 3, (x + 2) % 3;
    (d[Cell(3, x, y)] + d[Cell(3, x, z)] - d[Cell(3, y, z)]) * 0.5
  }

  /** For a symmetric matrix, the branches of two of the last three clusters add up to the
      distance between them. */
  lemma FinalSums(d: seq<real>, x: nat, y: nat)
    requires |d| == Square(3) && x < 3 && y < 3 && x != y && Symmetric(d, 3)
    ensures FinalWeight(d, x) + FinalWeight(d, y) == d[Cell(3, x, y)]
  {
    assert d[Cell(3, 0, 1)] == d[Cell(3, 1, 0)];
    assert d[Cell(3, 0, 2)] == d[Cell(3, 2, 0)];
    assert d[Cell(3, 1, 2)] == d[Cell(3, 2, 1)];
  }

  // ---------------------------------------------------------------------------------------
  // The clusters
  // ---------------------------------------------------------------------------------------

  /** The arena after join_pair joins clusters `ci` and `cj` into a new node: both get the
      new node as parent and their branch lengths. */
  function JoinedHeap(h: seq<Node>, ci: nat, cj: nat, wl: real, wr: real): (h': seq<Node>)
    requires ci < |h| && cj < |h|
    ensures |h'| == |h| + 1
  {
    var n := |h|;
    var h1 := h + [Node("", 0.0, true, Some(ci), Some(cj), None)];
    h1[ci := h1[ci].(parent := Some(n), weight := wl)][cj := h1[cj].(parent := Some(n), weight := wr)]
  }

  /** The clusters kept by a join are distinct clusters other than the two joined. */
  lemma KeptDistinct(cs: seq<nat>, i: nat, j: nat, kept: seq<nat>)
    requires Distinct(cs) && i < |cs| && j < |cs| && i != j
    requires |kept| == |cs| - 2 && forall a: nat :: Survivor(|cs|, i, j, a) ==> kept[Shift(|cs|, i, j, a)] == cs[a]
    ensures Distinct(kept)
    ensures forall p :: 0 <= p < |kept| ==> kept[p] in cs && kept[p] != cs[i] && kept[p] != cs[j]
  {
    forall p, p' | 0 <= p < p' < |kept| ensures kept[p] != kept[p'] {
      var a := ShiftOnto(|cs|, i, j, p);
      var a' := ShiftOnto(|cs|, i, j, p');
      assert kept[p] == cs[a] && kept[p'] == cs[a'];
    }
    forall p | 0 <= p < |kept| ensures kept[p] in cs && kept[p] != cs[i] && kept[p] != cs[j] {
      var a := ShiftOnto(|cs|, i, j, p);
      assert kept[p] == cs[a];
    }
  }

  /** Joining two clusters of a forest into a new node keeps it a forest whose roots are the
      other clusters and the new node. */
  lemma JoinedForest(h: seq<Node>, cs: seq<nat>, i: nat, j: nat, wl: real, wr: real, kept: seq<nat>)
    requires HeapTree(h, cs) && i < |cs| && j < |cs| && i != j && cs[i] < |h| && cs[j] < |h|
    requires |kept| == |cs| - 2 && forall a: nat :: Survivor(|cs|, i, j, a) ==> kept[Shift(|cs|, i, j, a)] == cs[a]
    ensures HeapTree(JoinedHeap(h, cs[i], cs[j], wl, wr), kept + [|h|])
  {
    var h' := JoinedHeap(h, cs[i], cs[j], wl, wr);
    var cs' := kept + [|h|];
    var ci, cj := cs[i], cs[j];
    KeptDistinct(cs, i, j, kept);
    forall x | 0 <= x < |h'| ensures Shaped(h', x) {
      if x < |h| {
        assert Shaped(h, x);
      }
    }
    forall x: nat, c: nat | IsKid(h', x, c)
      ensures if x < |h| then IsKid(h, x, c) && c != ci && c != cj else c == ci || c == cj
    {
      if x < |h| {
        assert IsKid(h, x, c);
        assert ci in cs && cj in cs;
      }
    }
    forall r | r in cs' ensures r < |h'| {
      if r != |h| {
        assert r in kept;
      }
    }
    forall x: nat, r: nat | r in cs' && x < |h'| ensures !IsKid(h', x, r) {
      if r != |h| {
        assert r in kept;
        var p :| 0 <= p < |kept| && kept[p] == r;
        assert r in cs && r != ci && r != cj;
      }
      if x < |h| {
        assert h'[x].left == h[x].left && h'[x].right == h[x].right;
        if r == |h| {
          assert Shaped(h, x);
        } else {
          assert !IsKid(h, x, r);
        }
      }
    }
  }

  // ---------------------------------------------------------------------------------------
  // nj_t
  // ---------------------------------------------------------------------------------------

  /** One row of compute_q's loop: entry (a, b) of Q for every `b`; other rows stay. */
  method QRow(d: seq<real>, r: seq<real>, n: nat, q0: seq<real>, a: nat) returns (q: seq<real>)
    requires |d| == Square(n) && |r| == n && a < n && |q0| == Square(n)
    requires forall x, y :: 0 <= x < a && 0 <= y < n ==> q0[Cell(n, x, y)] == QEntry(d, r, n, x, y)
    ensures |q| == Square(n)
    ensures forall x, y :: 0 <= x <= a && 0 <= y < n ==> q[Cell(n, x, y)] == QEntry(d, r, n, x, y)
  {
    q := q0;
    for b := 0 to n
      invariant |q| == Square(n)
      invariant forall x: nat, y: nat :: y < n && (x < a || (x == a && y < b)) ==> q[Cell(n, x, y)] == QEntry(d, r, n, x, y)
    {
      ghost var before := q;
      q := q[Cell(n, a, b) := (n - 2) as real * d[Cell(n, a, b)] - r[a] - r[b]];
      forall x: nat, y: nat | y < n && (x < a || (x == a && y < b)) ensures q[Cell(n, x, y)] == QEntry(d, r, n, x, y) {
        CellsApart(n, a, b, x, y);
      }
    }
  }

  /** The state join_pair leaves when it joins clusters `i` and `j` of `cs`, slots of the
      arena `h`, under the matrix `d` and sums `r`: the two clusters become the children of
      a new last slot, with the branch lengths join_pair computes; the other clusters keep
      their order and the new slot is listed last; the matrix is reduced. */
  ghost predicate Joins(d: seq<real>, r: seq<real>, h: seq<Node>, cs: seq<nat>, i: nat, j: nat,
                        h': seq<Node>, cs': seq<nat>, nd: seq<real>)
  {
    && |cs| == |r| && |d| == Square(|cs|) && i < |cs| && j < |cs| && i != j
    && cs[i] < |h| && cs[j] < |h|
    && |cs'| == |cs| - 1 && cs'[|cs'| - 1] == |h|
    && (forall a: nat :: Survivor(|cs|, i, j, a) ==> cs'[Shift(|cs|, i, j, a)] == cs[a])
    && h' == JoinedHeap(h, cs[i], cs[j], LeftLength(d, r, |cs|, i, j), d[Cell(|cs|, i, j)] - LeftLength(d, r, |cs|, i, j))
    && Reduces(d, |cs|, i, j, nd)
  }

  /** The body of join_pair once the pair is picked: the clusters other than `i` and `j`
      in their order, then the new node; the new node in the arena, holding `i`'s cluster
      on the left and `j`'s on the right, with their branch lengths; the reduced matrix. */
  method Join(d: seq<real>, r: seq<real>, h: seq<Node>, cs: seq<nat>, i: nat, j: nat)
      returns (h': seq<Node>, cs': seq<nat>, nd: seq<real>)
    requires |cs| == |r| && |d| == Square(|cs|) && HeapTree(h, cs) && i < |cs| && j < |cs| && i != j
    ensures Joins(d, r, h, cs, i, j, h', cs', nd) && HeapTree(h', cs')
  {
    var n := |cs|;
    var kept := Keep(cs, i, j);
    var ci, cj := cs[i], cs[j];
    assert ci in cs && cj in cs;
    var tmp := |h|;
    var wl := 0.5 * d[Cell(n, i, j)] + (1 / (2 * (2 * n - 2))) as real * (r[i] - r[j]);
    var wr := d[Cell(n, i, j)] - wl;
    assert wl == LeftLength(d, r, n, i, j);
    JoinedForest(h, cs, i, j, wl, wr, kept);
    h' := h + [Node("", 0.0, true, Some(ci), Some(cj), None)];
    h' := h'[ci := h'[ci].(parent := Some(tmp))][cj := h'[cj].(parent := Some(tmp))];
    h' := h'[ci := h'[ci].(weight := wl)];
    h' := h'[cj := h'[cj].(weight := wr)];
    cs' := kept + [tmp];
    nd := Reduce(d, n, i, j);
  }

  /** The arena nj_t builds from `n` labels: slots below `n` are the labelled leaves, every
      later slot an unlabelled join node. */
  ghost predicate Labelled(h: seq<Node>, labels: seq<string>, n: nat)
    requires n <= |labels|
  {
    forall x :: 0 <= x < |h| ==> h[x].name == (if x < n then labels[x] else "") && h[x].children == (n <= x)
  }

  /** The leaves the constructor starts from: one per row, labelled in order. */
  function LeafArena(labels: seq<string>, n: nat): (h: seq<Node>)
    requires n <= |labels|
    ensures |h| == n && HeapTree(h, Range(n)) && Labelled(h, labels, n)
  {
    var h := seq(n, x requires 0 <= x < n => Blank.(name := labels[x]));
    assert forall x :: 0 <= x < |h| ==> Shaped(h, x);
    h
  }

  /** A join appends an unlabelled internal node and keeps every other name and flag. */
  lemma JoinedLabelled(d: seq<real>, r: seq<real>, h: seq<Node>, cs: seq<nat>, i: nat, j: nat,
                       h': seq<Node>, cs': seq<nat>, nd: seq<real>, labels: seq<string>, n: nat)
    requires Joins(d, r, h, cs, i, j, h', cs', nd)
    requires n <= |labels| && n <= |h| && Labelled(h, labels, n)
    ensures |h'| == |h| + 1 && Labelled(h', labels, n)
  {
    forall x | 0 <= x < |h'| ensures h'[x].name == (if x < n then labels[x] else "") && h'[x].children == (n <= x) {
      if x < |h| {
        assert h'[x].name == h[x].name && h'[x].children == h[x].children;
      }
    }
  }

  /** The state of `nj_t` after a round: the matrix, R and Q, the pair picked, and the
      arena with its clusters. */
  datatype Round = Round(d: seq<real>, r: seq<real>, q: seq<real>, i: nat, j: nat, heap: seq<Node>, clusters: seq<nat>)

  /** Round `b` is what one join_pair makes of round `a`: find_pair picks (b.i, b.j) from
      a's matrix and R, and the pair is joined. */
  ghost predicate Joined(a: Round, b: Round) {
    && Picked(a.d, |a.clusters|, a.r, b.r, b.q, b.i, b.j)
    && Joins(a.d, b.r, a.heap, a.clusters, b.i, b.j, b.heap, b.clusters, b.d)
  }

  /** The rounds of the constructor for matrix `d` and `labels`: the first is the leaves
      with the untouched fields, each later one is a join of the one before. */
  ghost predicate Rounds(rs: seq<Round>, d: seq<real>, labels: seq<string>, n: nat)
    requires n <= |labels|
  {
    && |rs| > 0 && rs[0] == Round(d, [], [], 0, 0, LeafArena(labels, n), Range(n))
    && (forall k :: 0 <= k < |rs| - 1 ==> Joined(rs[k], rs[k + 1]))
  }

  /** A join of the last round extends the rounds. */
  lemma RoundsGrow(rs: seq<Round>, d: seq<real>, labels: seq<string>, n: nat, b: Round)
    requires n <= |labels| && Rounds(rs, d, labels, n) && Joined(rs[|rs| - 1], b)
    ensures Rounds(rs + [b], d, labels, n)
  {
    var rs' := rs + [b];
    forall k | 0 <= k < |rs'| - 1 ensures Joined(rs'[k], rs'[k + 1]) {
      if k < |rs| - 1 {
        assert rs'[k] == rs[k] && rs'[k + 1] == rs[k + 1];
      }
    }
  }

  class NJ {
    /** `_dists`: the current matrix, `_row_size` rows of `_row_size` entries. */
    var dists: seq<real>
    var rowSize: nat
    /** `_tree`: the current clusters, as slots of the arena `heap`. */
    var clusters: seq<nat>
    var heap: seq<Node>
    /** `_r_vec`, `_q_vec` and the pair `_i`, `_j` find_pair picks. */
    var r: seq<real>
    var q: seq<real>
    var pairI: nat
    var pairJ: nat
    /** `_final_tree`. */
    var finalTree: Tree?
    /** The state after each round of joining, the first being the leaves. */
    ghost var rounds: seq<Round>

    /** The fields a round records. */
    ghost function Now(): Round
      reads this
    {
      Round(dists, r, q, pairI, pairJ, heap, clusters)
    }

    ghost predicate Valid()
      reads this
    {
      |dists| == Square(rowSize) && |clusters| == rowSize && HeapTree(heap, clusters)
    }

    /** compute_r: adds every row sum of the matrix into R, which resize has cut to (or
        padded with zeros to) one entry per row: the entries left from earlier rounds are
        not cleared. */
    method ComputeR()
      requires |dists| == Square(rowSize)
      modifies this`r
      ensures |r| == rowSize
      ensures forall a :: 0 <= a < rowSize ==> r[a] == Resized(old(r), rowSize)[a] + RowSum(dists, rowSize, a, rowSize)
    {
      var n := rowSize;
      var rv := Resized(r, n);
      for a := 0 to n
        invariant |rv| == n
        invariant forall x :: 0 <= x < n ==> rv[x] == Resized(r, n)[x] + (if x < a then RowSum(dists, n, x, n) else 0.0)
      {
        for b := 0 to n
          invariant |rv| == n
          invariant forall x :: 0 <= x < n ==>
            rv[x] == Resized(r, n)[x] + (if x < a then RowSum(dists, n, x, n) else if x == a then RowSum(dists, n, a, b) else 0.0)
        {
          rv := rv[a := rv[a] + dists[Cell(n, a, b)]];
        }
      }
      r := rv;
    }

    /** compute_q: computes R, then every entry of Q. */
    method ComputeQ()
      requires |dists| == Square(rowSize) && 2 <= rowSize
      modifies this`r, this`q
      ensures |r| == rowSize
      ensures forall a :: 0 <= a < rowSize ==> r[a] == Resized(old(r), rowSize)[a] + RowSum(dists, rowSize, a, rowSize)
      ensures |q| == Square(rowSize)
      ensures forall a, b :: 0 <= a < rowSize && 0 <= b < rowSize ==> q[Cell(rowSize, a, b)] == QEntry(dists, r, rowSize, a, b)
    {
      ComputeR();
      var n := rowSize;
      var qv, rv := Resized(q, Square(n)), r;
      for a := 0 to n
        invariant r == rv && |qv| == Square(n)
        invariant forall x, y :: 0 <= x < a && 0 <= y < n ==> qv[Cell(n, x, y)] == QEntry(dists, r, n, x, y)
      {
        qv := QRow(dists, r, n, qv, a);
      }
      q := qv;
    }

    /** find_pair: computes Q, then visits every (a, b) with b < a, row by row, from the
        start pair (0, 1), taking each pair whose entry is no larger than the current one. */
    method FindPair()
      requires |dists| == Square(rowSize) && 2 <= rowSize
      modifies this`r, this`q, this`pairI, this`pairJ
      ensures Picked(dists, rowSize, old(r), r, q, pairI, pairJ)
    {
      ComputeQ();
      var li, lj := LeastPairOf(q, rowSize);
      pairI, pairJ := li, lj;
    }

    /** join_pair: joins the pair find_pair picks into a new cluster node, listed after the
        other clusters in their order, and shrinks the matrix by one row and column. */
    method JoinPair()
      requires Valid() && 2 <= rowSize
      modifies this
      ensures Valid() && rowSize == old(rowSize) - 1
      ensures Picked(old(dists), old(rowSize), old(r), r, q, pairI, pairJ)
      ensures Joins(old(dists), r, old(heap), old(clusters), pairI, pairJ, heap, clusters, dists)
      ensures finalTree == old(finalTree)
    {
      FindPair();
      var h, cs, nd := Join(dists, r, heap, clusters, pairI, pairJ);
      heap, clusters, dists, rowSize := h, cs, nd, rowSize - 1;
    }

    /** join_final: the last three clusters get their branch lengths. */
    method JoinFinal()
      requires Valid() && rowSize == 3
      modifies this`heap
      ensures Valid() && SameShape(heap, old(heap)) && |clusters| == 3
      ensures forall x :: 0 <= x < 3 ==> clusters[x] < |heap| && heap[clusters[x]].weight == FinalWeight(dists, x)
      ensures forall x :: 0 <= x < |heap| && x !in clusters ==> heap[x] == old(heap)[x]
    {
      var h := heap;
      for a := 0 to rowSize
        invariant heap == old(heap) && SameShape(h, heap)
        invariant forall x :: 0 <= x < a ==> clusters[x] < |h| && h[clusters[x]].weight == FinalWeight(dists, x)
        invariant forall x :: 0 <= x < |h| && x !in clusters[..a] ==> h[x] == heap[x]
      {
        assert clusters[a] in clusters;
        var x, y, z := a, (a + 1) % rowSize, (a + 2) % rowSize;
        var w := dists[Cell(rowSize, x, y)] + dists[Cell(rowSize, x, z)] - dists[Cell(rowSize, y, z)];
        w := w * 0.5;
        h := h[clusters[a] := h[clusters[a]].(weight := w)];
        assert clusters[..a + 1] == clusters[..a] + [clusters[a]];
      }
      assert clusters[..rowSize] == clusters;
      forall x | 0 <= x < |h| ensures Shaped(h, x) {
        assert Shaped(heap, x);
      }
      forall x, c | IsKid(h, x, c) ensures IsKid(heap, x, c) {
      }
      heap := h;
    }

    /** nj_t(dists, labels): one leaf per row, labelled in order; pairs are joined while
        more than three clusters remain; then join_final and make_tree, which packs the
        clusters into a tree. */
    constructor (d: seq<real>, labels: seq<string>, n: nat)
      requires |d| == Square(n) && n <= |labels| && 3 <= n
      ensures Valid() && rowSize == 3 && |heap| == 2 * n - 3 && Labelled(heap, labels, n)
      ensures |rounds| == n - 2 && Rounds(rounds, d, labels, n)
      ensures var last := rounds[|rounds| - 1];
        && dists == last.d && clusters == last.clusters && SameShape(heap, last.heap)
        && (forall x :: 0 <= x < |heap| && x !in clusters ==> heap[x] == last.heap[x])
      ensures forall x :: 0 <= x < 3 ==> clusters[x] < |heap| && heap[clusters[x]].weight == FinalWeight(dists, x)
      ensures finalTree != null && finalTree.Valid() && finalTree.unroot == Range(3)
      ensures FlatOf(heap, clusters, finalTree.nodes[..], DiscoveryOrder(heap, clusters))
    {
      dists, rowSize := d, n;
      heap := LeafArena(labels, n);
      clusters := Range(n);
      r, q, pairI, pairJ, finalTree := [], [], 0, 0, null;
      rounds := [];
      new;
      rounds := JoinRounds(d, labels, n);
      JoinFinal();
      MakeTree();
    }

    /** The loop of the constructor: join_pair while more than three clusters remain.
        `rs` records the state after each round, starting from the leaves. */
    method JoinRounds(ghost d: seq<real>, ghost labels: seq<string>, ghost n: nat) returns (ghost rs: seq<Round>)
      requires Valid() && rowSize == n && 3 <= n && n <= |labels| && |heap| == n && Labelled(heap, labels, n)
      requires Now() == Round(d, [], [], 0, 0, LeafArena(labels, n), Range(n))
      modifies this
      ensures Valid() && rowSize == 3 && |heap| == 2 * n - 3 && Labelled(heap, labels, n)
      ensures |rs| == n - 2 && Rounds(rs, d, labels, n) && rs[|rs| - 1] == Now()
    {
      rs := [Now()];
      while rowSize > 3
        invariant Valid() && 3 <= rowSize && |heap| == 2 * n - rowSize && Labelled(heap, labels, n)
        invariant |rs| == n - rowSize + 1 && Rounds(rs, d, labels, n) && rs[|rs| - 1] == Now()
        decreases rowSize
      {
        ghost var h0, cs0, d0 := heap, clusters, dists;
        JoinPair();
        JoinedLabelled(d0, r, h0, cs0, pairI, pairJ, heap, clusters, dists, labels, n);
        RoundsGrow(rs, d, labels, n, Now());
        rs := rs + [Now()];
      }
    }

    /** make_tree: packs the clusters into `_final_tree`. */
    method MakeTree()
      requires Valid()
      modifies this`finalTree
      ensures finalTree != null && fresh(finalTree) && finalTree.Valid() && finalTree.unroot == Range(|clusters|)
      ensures FlatOf(heap, clusters, finalTree.nodes[..], DiscoveryOrder(heap, clusters))
    {
      finalTree := new Tree.FromRoots(heap, clusters);
    }
  }
}

=== FILE: nodes.dfy ===
/**
 * The node record shared by the pointer trees and the packed tree of src/tree.cpp.
 *
 * Pointers are arena indices: a "heap" is a `seq<Node>` and a link is an `Option<nat>`
 * naming a slot of it.  A packed tree is a heap in which every child sits in a later slot
 * than its parent, parent and child links agree, and the top ("unroot") nodes are the
 * first slots.  This module states those shapes and the facts about subtrees that the
 * operations on packed trees rely on.
 */
module Nodes {
  import opened Wrappers

  /** node_t: `_label` (here `name`), `_weight`, `_children`, `_lchild`, `_rchild`, `_parent`. */
  datatype Node = Node(name: string, weight: real, children: bool,
                       left: Option<nat>, right: Option<nat>, parent: Option<nat>)

  /** A default-constructed node_t: no label, zero weight, no links. */
  const Blank: Node := Node("", 0.0, false, None, None, None)

  /** Slot `i` of `h` holds `c` as one of its two children. */
  predicate IsKid(h: seq<Node>, i: nat, c: nat) {
    i < |h| && (h[i].left == Some(c) || h[i].right == Some(c))
  }

  /** The indices 0..k-1 in order. */
  function Range(k: nat): (r: seq<nat>)
    ensures |r| == k && forall i :: 0 <= i < k ==> r[i] == i
  {
    seq(k, i => i)
  }

  predicate Distinct(s: seq<nat>) {
    forall a, b :: 0 <= a < b < |s| ==> s[a] != s[b]
  }

  // ---------------------------------------------------------------------------------------
  // Pointer heaps (the input of make_flat_tree)
  // ---------------------------------------------------------------------------------------

  /** Invariant I1 at one heap node: a flag that agrees with two present (or two absent),
      distinct, in-range child links. */
  predicate Shaped(h: seq<Node>, i: nat)
    requires i < |h|
  {
    var n := h[i];
    && (n.children <==> n.left.Some?)
    && (n.left.Some? <==> n.right.Some?)
    && (n.left.Some? ==> n.left.value < |h| && n.right.value < |h| && n.left != n.right)
  }

  /** The links reachable from `roots` form a forest: every node is shaped, no node is held
      by two nodes, and the roots are distinct and held by none. */
  ghost predicate HeapTree(h: seq<Node>, roots: seq<nat>) {
    && (forall i :: 0 <= i < |h| ==> Shaped(h, i))
    && (forall i, j, c :: IsKid(h, i, c) && IsKid(h, j, c) ==> i == j)
    && (forall r :: r in roots ==> r < |h|)
    && Distinct(roots)
    && (forall i, r :: r in roots && IsKid(h, i, r) ==> false)
  }

  // ---------------------------------------------------------------------------------------
  // Packed trees (tree_t::_tree after make_flat_tree)
  // ---------------------------------------------------------------------------------------

  /** Slot `i` is shaped and its children sit in later slots. */
  predicate Ordered(t: seq<Node>, i: nat)
    requires i < |t|
  {
    Shaped(t, i) && (t[i].children ==> i < t[i].left.value && i < t[i].right.value)
  }

  /** Slot `i` agrees with its neighbours: its children name it as parent; a top slot
      (`i < k`) has no parent; any other slot has an earlier parent that holds it. */
  predicate Linked(t: seq<Node>, k: nat, i: nat)
    requires i < |t| && Ordered(t, i)
  {
    && (t[i].children ==> t[t[i].left.value].parent == Some(i) && t[t[i].right.value].parent == Some(i))
    && (i < k ==> t[i].parent == None)
    && (i >= k ==> t[i].parent.Some? && t[i].parent.value < i && IsKid(t, t[i].parent.value, i))
  }

  /** The packed-tree invariant with `k` top slots. */
  ghost predicate Packed(t: seq<Node>, k: nat) {
    && k <= |t|
    && (forall i :: 0 <= i < |t| ==> Ordered(t, i))
    && (forall i :: 0 <= i < |t| ==> Linked(t, k, i))
  }

  /** The unroot list of a packed tree: the top slots, each once, in any order. */
  ghost predicate TopList(t: seq<Node>, unroot: seq<nat>) {
    Packed(t, |unroot|) && Distinct(unroot) && forall j :: 0 <= j < |unroot| ==> unroot[j] < |unroot|
  }

  /** The slots of the subtree rooted at `i`. */
  ghost function Sub(t: seq<Node>, k: nat, i: nat): (s: set<nat>)
    requires Packed(t, k) && i < |t|
    ensures i in s
    decreases |t| - i
  {
    assert Ordered(t, i);
    if t[i].children then {i} + Sub(t, k, t[i].left.value) + Sub(t, k, t[i].right.value)
    else {i}
  }

  lemma {:induction false} SubBounds(t: seq<Node>, k: nat, i: nat, x: nat)
    requires Packed(t, k) && i < |t| && x in Sub(t, k, i)
    ensures i <= x < |t|
    decreases |t| - i
  {
    assert Ordered(t, i);
    if x != i {
      if x in Sub(t, k, t[i].left.value) {
        SubBounds(t, k, t[i].left.value, x);
      } else {
        SubBounds(t, k, t[i].right.value, x);
      }
    }
  }

  /** Every slot of a subtree other than its root has its parent in the same subtree. */
  lemma {:induction false} SubUp(t: seq<Node>, k: nat, i: nat, x: nat)
    requires Packed(t, k) && i < |t| && x in Sub(t, k, i) && x != i
    ensures x < |t| && t[x].parent.Some? && t[x].parent.value in Sub(t, k, i)
    decreases |t| - i
  {
    assert Ordered(t, i) && Linked(t, k, i);
    var l, r := t[i].left.value, t[i].right.value;
    if x in Sub(t, k, l) {
      if x != l { SubUp(t, k, l, x); }
    } else {
      assert x in Sub(t, k, r);
      if x != r { SubUp(t, k, r, x); }
    }
  }

  /** A subtree is closed under taking children. */
  lemma {:induction false} SubDown(t: seq<Node>, k: nat, i: nat, j: nat, x: nat)
    requires Packed(t, k) && i < |t| && j in Sub(t, k, i) && IsKid(t, j, x)
    ensures x in Sub(t, k, i)
    decreases |t| - i
  {
    assert Ordered(t, i);
    if j == i {
      assert x == t[i].left.value || x == t[i].right.value;
    } else if j in Sub(t, k, t[i].left.value) {
      SubDown(t, k, t[i].left.value, j, x);
    } else {
      SubDown(t, k, t[i].right.value, j, x);
    }
  }

  /** Two subtrees neither of which contains the other's root share no slot. */
  lemma {:induction false} SubDisjoint(t: seq<Node>, k: nat, a: nat, b: nat, x: nat)
    requires Packed(t, k) && a < |t| && b < |t|
    requires a !in Sub(t, k, b) && b !in Sub(t, k, a)
    ensures !(x in Sub(t, k, a) && x in Sub(t, k, b))
    decreases x
  {
    if x in Sub(t, k, a) && x in Sub(t, k, b) {
      SubUp(t, k, a, x);
      SubUp(t, k, b, x);
      assert Linked(t, k, x);
      SubDisjoint(t, k, a, b, t[x].parent.value);
    }
  }

  /** The two children of a node root disjoint subtrees, neither containing the node. */
  lemma KidsDisjoint(t: seq<Node>, k: nat, i: nat)
    requires Packed(t, k) && i < |t| && t[i].children
    ensures Ordered(t, i)
    ensures Sub(t, k, t[i].left.value) !! Sub(t, k, t[i].right.value)
    ensures i !in Sub(t, k, t[i].left.value) && i !in Sub(t, k, t[i].right.value)
  {
    assert Ordered(t, i) && Linked(t, k, i);
    var l, r := t[i].left.value, t[i].right.value;
    forall x | x in Sub(t, k, l) ensures x != i { SubBounds(t, k, l, x); }
    forall x | x in Sub(t, k, r) ensures x != i { SubBounds(t, k, r, x); }
    if l in Sub(t, k, r) { SubUp(t, k, r, l); SubBounds(t, k, r, i); }
    if r in Sub(t, k, l) { SubUp(t, k, l, r); SubBounds(t, k, l, i); }
    forall x ensures !(x in Sub(t, k, l) && x in Sub(t, k, r)) { SubDisjoint(t, k, l, r, x); }
  }

  /** Distinct top slots root disjoint subtrees. */
  lemma TopsDisjoint(t: seq<Node>, k: nat, a: nat, b: nat)
    requires Packed(t, k) && a < k && b < k && a != b
    ensures Sub(t, k, a) !! Sub(t, k, b)
  {
    assert Linked(t, k, a) && Linked(t, k, b);
    if a in Sub(t, k, b) { SubUp(t, k, b, a); }
    if b in Sub(t, k, a) { SubUp(t, k, a, b); }
    forall x ensures !(x in Sub(t, k, a) && x in Sub(t, k, b)) { SubDisjoint(t, k, a, b, x); }
  }

  /** Every slot of a packed tree lies under one of its top slots. */
  lemma {:induction false} Covered(t: seq<Node>, k: nat, x: nat)
    requires Packed(t, k) && x < |t|
    ensures exists r: nat :: r < k && x in Sub(t, k, r)
    decreases x
  {
    assert Linked(t, k, x);
    if x < k {
      assert x in Sub(t, k, x);
    } else {
      var j := t[x].parent.value;
      Covered(t, k, j);
      var r: nat :| r < k && j in Sub(t, k, r);
      SubDown(t, k, r, j, x);
    }
  }

  /** The slots under the first `n` top slots. */
  ghost function Tops(t: seq<Node>, k: nat, n: nat): set<nat>
    requires Packed(t, k) && n <= k
  {
    if n == 0 then {} else Tops(t, k, n - 1) + Sub(t, k, n - 1)
  }

  /** The subtree of top slot `n` shares no slot with those of the earlier top slots. */
  lemma {:induction false} TopsFresh(t: seq<Node>, k: nat, n: nat, m: nat)
    requires Packed(t, k) && m <= n < k
    ensures Sub(t, k, n) !! Tops(t, k, m)
  {
    if m > 0 {
      TopsFresh(t, k, n, m - 1);
      TopsDisjoint(t, k, n, m - 1);
    }
  }

  /** Every slot lies under one of the top slots. */
  lemma TopsAll(t: seq<Node>, k: nat, x: nat)
    requires Packed(t, k) && x < |t|
    ensures x in Tops(t, k, k)
  {
    Covered(t, k, x);
    var r: nat :| r < k && x in Sub(t, k, r);
    TopsHas(t, k, k, r, x);
  }

  lemma {:induction false} TopsHas(t: seq<Node>, k: nat, n: nat, r: nat, x: nat)
    requires Packed(t, k) && r < n <= k && x in Sub(t, k, r)
    ensures x in Tops(t, k, n)
  {
    if r < n - 1 { TopsHas(t, k, n - 1, r, x); }
  }

  /** A packed tree is a forest when seen as a pointer heap from its unroot list. */
  lemma PackedIsHeapTree(t: seq<Node>, unroot: seq<nat>)
    requires TopList(t, unroot)
    ensures HeapTree(t, unroot)
  {
    var k := |unroot|;
    forall i | 0 <= i < |t| ensures Shaped(t, i) { assert Ordered(t, i); }
    forall i, j, c | IsKid(t, i, c) && IsKid(t, j, c) ensures i == j {
      assert Ordered(t, i) && Linked(t, k, i) && Ordered(t, j) && Linked(t, k, j);
    }
    forall i, r | IsKid(t, i, r) ensures r !in unroot {
      assert Ordered(t, i) && Linked(t, k, i);
      assert Ordered(t, r) && Linked(t, k, r);
    }
  }

  // ---------------------------------------------------------------------------------------
  // Counting
  // ---------------------------------------------------------------------------------------

  /** The set {0, ..., n-1}. */
  function Below(n: nat): (r: set<nat>)
    ensures forall x: nat :: x in r <==> x < n
    ensures |r| == n
  {
    if n == 0 then {} else
      var r' := Below(n - 1);
      assert n - 1 !in r';
      r' + {n - 1}
  }

  function Elems(s: seq<nat>): set<nat> {
    set x | x in s
  }

  lemma {:induction false} DistinctSetSize(s: seq<nat>)
    requires Distinct(s)
    ensures |Elems(s)| == |s|
  {
    if s != [] {
      var s' := s[..|s| - 1];
      DistinctSetSize(s');
      assert forall i :: 0 <= i < |s'| ==> s'[i] != s[|s| - 1];
      assert Elems(s) == Elems(s') + {s[|s| - 1]};
    }
  }

  /** Pigeonhole: a duplicate-free list of indices below `n` has at most `n` entries. */
  lemma DistinctBounded(s: seq<nat>, n: nat)
    requires Distinct(s) && forall x :: x in s ==> x < n
    ensures |s| <= n
  {
    DistinctSetSize(s);
    SubsetSize(Elems(s), Below(n));
  }

  lemma {:induction false} SubsetSize(a: set<nat>, b: set<nat>)
    requires a <= b
    ensures |a| <= |b|
    decreases |a|
  {
    if a != {} {
      var x :| x in a;
      SubsetSize(a - {x}, b - {x});
    }
  }

  lemma TopIndices(t: seq<Node>, unroot: seq<nat>)
    requires TopList(t, unroot)
    ensures forall j :: 0 <= j < |unroot| ==> unroot[j] < |unroot| <= |t|
  {
    forall j | 0 <= j < |unroot| ensures unroot[j] < |unroot| {
      assert unroot[j] in unroot;
    }
  }

  lemma SubsetEqual(a: set<nat>, b: set<nat>)
    requires a <= b && |a| == |b|
    ensures a == b
  {
    assert a * b == a && a + b == b && a - b == {};
    assert |b - a| == 0;
  }

  /** The unroot list of a packed tree names every top slot. */
  lemma TopsListed(t: seq<Node>, unroot: seq<nat>)
    requires TopList(t, unroot)
    ensures forall r :: 0 <= r < |unroot| ==> r in unroot
  {
    DistinctSetSize(unroot);
    assert Elems(unroot) <= Below(|unroot|);
    SubsetEqual(Elems(unroot), Below(|unroot|));
    forall r | 0 <= r < |unroot| ensures r in unroot {
      assert r in Elems(unroot);
    }
  }

  /** Every slot lies below some member of the unroot list. */
  lemma UnrootCovers(t: seq<Node>, unroot: seq<nat>, x: nat)
    requires TopList(t, unroot) && x < |t|
    ensures exists j :: 0 <= j < |unroot| && unroot[j] < |t| && x in Sub(t, |unroot|, unroot[j])
  {
    Covered(t, |unroot|, x);
    var r: nat :| r < |unroot| && x in Sub(t, |unroot|, r);
    TopsListed(t, unroot);
    assert r in unroot;
    var j :| 0 <= j < |unroot| && unroot[j] == r;
  }

  /** The position in the unroot list of the top slot above `x`. */
  ghost function TopAbove(t: seq<Node>, unroot: seq<nat>, x: nat): (j: nat)
    requires TopList(t, unroot) && x < |t|
    ensures j < |unroot| && unroot[j] < |t| && x in Sub(t, |unroot|, unroot[j])
  {
    UnrootCovers(t, unroot, x);
    var j :| 0 <= j < |unroot| && unroot[j] < |t| && x in Sub(t, |unroot|, unroot[j]);
    j
  }

  /** Only one member of the unroot list has `x` below it. */
  lemma TopUnique(t: seq<Node>, unroot: seq<nat>, j: nat, x: nat)
    requires TopList(t, unroot) && j < |unroot| && unroot[j] < |t| && x in Sub(t, |unroot|, unroot[j])
    ensures x < |t| && TopAbove(t, unroot, x) == j
  {
    SubBounds(t, |unroot|, unroot[j], x);
    var i := TopAbove(t, unroot, x);
    if i != j {
      TopIndices(t, unroot);
      TopsDisjoint(t, |unroot|, unroot[i], unroot[j]);
      assert false;
    }
  }
}

=== FILE: queries.dfy ===
/**
 * The recursive readers of node_t in src/tree.cpp, on a packed tree: count_nodes,
 * calc_max_depth and to_string, each from a slot `i` over the subtree `Sub(t, k, i)`.
 */
module Queries {
  import opened Nodes

  /** count_nodes: the number of nodes in the subtree of `i`. */
  function CountNodes(t: seq<Node>, k: nat, i: nat): (n: nat)
    requires Packed(t, k) && i < |t|
    ensures n == |Sub(t, k, i)|
    decreases |t| - i
  {
    assert Ordered(t, i);
    if t[i].children then
      KidsDisjoint(t, k, i);
      CountNodes(t, k, t[i].left.value) + CountNodes(t, k, t[i].right.value) + 1
    else 1
  }

  /** The node counts of the first `n` top slots. */
  function CountTops(t: seq<Node>, k: nat, n: nat): nat
    requires Packed(t, k) && n <= k
  {
    if n == 0 then 0 else CountTops(t, k, n - 1) + CountNodes(t, k, n - 1)
  }

  lemma {:induction false} CountTopsUnion(t: seq<Node>, k: nat, n: nat)
    requires Packed(t, k) && n <= k
    ensures CountTops(t, k, n) == |Tops(t, k, n)|
  {
    if n > 0 {
      CountTopsUnion(t, k, n - 1);
      TopsFresh(t, k, n - 1, n - 1);
    }
  }

  /** Every slot of a packed tree is reached from exactly one top: the node counts of the
      tops add up to the array size. */
  lemma CountAll(t: seq<Node>, k: nat)
    requires Packed(t, k)
    ensures CountTops(t, k, k) == |t|
  {
    CountTopsUnion(t, k, k);
    forall x | x in Tops(t, k, k) ensures x < |t| {
      TopsBounded(t, k, k, x);
    }
    forall x | 0 <= x < |t| ensures x in Tops(t, k, k) {
      TopsAll(t, k, x);
    }
    assert Tops(t, k, k) == Below(|t|);
  }

  lemma {:induction false} TopsBounded(t: seq<Node>, k: nat, n: nat, x: nat)
    requires Packed(t, k) && n <= k && x in Tops(t, k, n)
    ensures x < |t|
  {
    if x !in Tops(t, k, n - 1) {
      SubBounds(t, k, n - 1, x);
    } else {
      TopsBounded(t, k, n - 1, x);
    }
  }

  // ---------------------------------------------------------------------------------------
  // Depth
  // ---------------------------------------------------------------------------------------

  /** How many links `x` lies below `i` in the subtree of `i`. */
  ghost function Depth(t: seq<Node>, k: nat, i: nat, x: nat): nat
    requires Packed(t, k) && i < |t| && x in Sub(t, k, i)
    decreases |t| - i
  {
    assert Ordered(t, i);
    if x == i then 0
    else if x in Sub(t, k, t[i].left.value) then 1 + Depth(t, k, t[i].left.value, x)
    else 1 + Depth(t, k, t[i].right.value, x)
  }

  /** calc_max_depth: the number of nodes on a longest downward path from `i`. */
  function MaxDepth(t: seq<Node>, k: nat, i: nat): (d: nat)
    requires Packed(t, k) && i < |t|
    ensures d >= 1
    decreases |t| - i
  {
    assert Ordered(t, i);
    if t[i].children then
      var l, r := MaxDepth(t, k, t[i].left.value), MaxDepth(t, k, t[i].right.value);
      if l > r then l + 1 else r + 1
    else 1
  }

  /** No node of the subtree lies deeper than calc_max_depth counts. */
  lemma {:induction false} MaxDepthBound(t: seq<Node>, k: nat, i: nat, x: nat)
    requires Packed(t, k) && i < |t| && x in Sub(t, k, i)
    ensures Depth(t, k, i, x) < MaxDepth(t, k, i)
    decreases |t| - i
  {
    assert Ordered(t, i);
    if x != i {
      if x in Sub(t, k, t[i].left.value) {
        MaxDepthBound(t, k, t[i].left.value, x);
      } else {
        MaxDepthBound(t, k, t[i].right.value, x);
      }
    }
  }

  /** Some node of the subtree lies as deep as calc_max_depth counts. */
  lemma {:induction false} MaxDepthAttained(t: seq<Node>, k: nat, i: nat)
    requires Packed(t, k) && i < |t|
    ensures exists x :: x in Sub(t, k, i) && Depth(t, k, i, x) == MaxDepth(t, k, i) - 1
    decreases |t| - i
  {
    assert Ordered(t, i);
    if t[i].children {
      var l, r := t[i].left.value, t[i].right.value;
      KidsDisjoint(t, k, i);
      if MaxDepth(t, k, l) > MaxDepth(t, k, r) {
        MaxDepthAttained(t, k, l);
        var x :| x in Sub(t, k, l) && Depth(t, k, l, x) == MaxDepth(t, k, l) - 1;
        assert Depth(t, k, i, x) == MaxDepth(t, k, i) - 1;
      } else {
        MaxDepthAttained(t, k, r);
        var x :| x in Sub(t, k, r) && Depth(t, k, r, x) == MaxDepth(t, k, r) - 1;
        assert x !in Sub(t, k, l);
        assert Depth(t, k, i, x) == MaxDepth(t, k, i) - 1;
      }
    } else {
      assert Depth(t, k, i, i) == 0;
    }
  }

  /** The largest calc_max_depth over the first `n` members of the unroot list, 0 for none. */
  function Tallest(t: seq<Node>, unroot: seq<nat>, n: nat): (m: nat)
    requires Packed(t, |unroot|) && n <= |unroot| && forall j :: 0 <= j < |unroot| ==> unroot[j] < |t|
    ensures n > 0 ==> m >= 1
  {
    if n == 0 then 0
    else
      var a, b := Tallest(t, unroot, n - 1), MaxDepth(t, |unroot|, unroot[n - 1]);
      if a < b then b else a
  }

  /** get_depth: the largest calc_max_depth over the unroot list, less one for a tree with
      a single root. */
  function Height(t: seq<Node>, unroot: seq<nat>): nat
    requires Packed(t, |unroot|) && forall j :: 0 <= j < |unroot| ==> unroot[j] < |t|
  {
    if |unroot| == 1 then Tallest(t, unroot, 1) - 1 else Tallest(t, unroot, |unroot|)
  }

  lemma {:induction false} TallestIsMax(t: seq<Node>, unroot: seq<nat>, n: nat)
    requires Packed(t, |unroot|) && n <= |unroot| && forall j :: 0 <= j < |unroot| ==> unroot[j] < |t|
    ensures forall j :: 0 <= j < n ==> MaxDepth(t, |unroot|, unroot[j]) <= Tallest(t, unroot, n)
    ensures n > 0 ==> exists j :: 0 <= j < n && MaxDepth(t, |unroot|, unroot[j]) == Tallest(t, unroot, n)
  {
    if n > 0 {
      TallestIsMax(t, unroot, n - 1);
    }
  }

  /** The height of a tree is the calc_max_depth of its tallest top node, counted in nodes
      for an unrooted tree and in links below the root for a rooted one. */
  lemma HeightIsMax(t: seq<Node>, unroot: seq<nat>)
    requires TopList(t, unroot)
    ensures forall j :: 0 <= j < |unroot| ==> unroot[j] < |t|
    ensures var adjust := if |unroot| == 1 then 1 else 0;
      && (forall j :: 0 <= j < |unroot| ==> MaxDepth(t, |unroot|, unroot[j]) <= Height(t, unroot) + adjust)
      && (|unroot| > 0 ==> exists j :: 0 <= j < |unroot| && MaxDepth(t, |unroot|, unroot[j]) == Height(t, unroot) + adjust)
      && (|unroot| == 0 ==> Height(t, unroot) == 0)
  {
    TopIndices(t, unroot);
    TallestIsMax(t, unroot, |unroot|);
  }

  // ---------------------------------------------------------------------------------------
  // Newick output
  // ---------------------------------------------------------------------------------------

  /** node_t::to_string: `(left,right)` for a node with two children, its label otherwise,
      followed by `:` and the weight when the weight is not zero.  `fmt` stands for the
      fixed-precision number formatting. */
  function NodeString(t: seq<Node>, k: nat, i: nat, fmt: real -> string): string
    requires Packed(t, k) && i < |t|
    decreases |t| - i
  {
    assert Ordered(t, i);
    (if t[i].left.Some? && t[i].right.Some? then
       "(" + NodeString(t, k, t[i].left.value, fmt) + "," + NodeString(t, k, t[i].right.value, fmt) + ")"
     else t[i].name)
    + (if t[i].weight != 0.0 then ":" + fmt(t[i].weight) else "")
  }

  /** The number of times `c` occurs in `s`. */
  function Occurrences(s: string, c: char): nat {
    if s == [] then 0 else Occurrences(s[..|s| - 1], c) + (if s[|s| - 1] == c then 1 else 0)
  }

  lemma {:induction false} OccurrencesConcat(a: string, b: string, c: char)
    ensures Occurrences(a + b, c) == Occurrences(a, c) + Occurrences(b, c)
    decreases |b|
  {
    if b != [] {
      assert (a + b)[..|a + b| - 1] == a + b[..|b| - 1];
      assert (a + b)[|a + b| - 1] == b[|b| - 1];
      OccurrencesConcat(a, b[..|b| - 1], c);
    } else {
      assert a + b == a;
    }
  }

  /** Neither a label nor a formatted weight contains a Newick delimiter. */
  predicate Plain(s: string) {
    '(' !in s && ')' !in s && ',' !in s
  }

  lemma PlainCounts(s: string)
    requires Plain(s)
    ensures Occurrences(s, '(') == 0 && Occurrences(s, ')') == 0 && Occurrences(s, ',') == 0
  {
    if s != [] {
      assert Plain(s[..|s| - 1]) by {
        forall c | c in s[..|s| - 1] ensures c in s { }
      }
      PlainCounts(s[..|s| - 1]);
    }
  }

  lemma WrapCounts(L: string, R: string, tail: string, c: char)
    ensures Occurrences("(" + L + "," + R + ")" + tail, c)
         == Occurrences("(", c) + Occurrences(L, c) + Occurrences(",", c) + Occurrences(R, c)
            + Occurrences(")", c) + Occurrences(tail, c)
  {
    OccurrencesConcat("(" + L + "," + R + ")", tail, c);
    OccurrencesConcat("(" + L + "," + R, ")", c);
    OccurrencesConcat("(" + L + ",", R, c);
    OccurrencesConcat("(" + L, ",", c);
    OccurrencesConcat("(", L, c);
  }

  /** The labels of the tree and every formatted weight are free of delimiters. */
  ghost predicate PlainText(t: seq<Node>, fmt: real -> string) {
    (forall x :: 0 <= x < |t| ==> Plain(t[x].name)) && (forall w :: Plain(fmt(w)))
  }

  /** The string of a subtree is balanced: as many `(` as `)` as `,`, one of each per
      internal node, so a subtree of `n` nodes prints (n - 1) / 2 commas. */
  lemma {:induction false} NodeStringBalanced(t: seq<Node>, k: nat, i: nat, fmt: real -> string)
    requires Packed(t, k) && i < |t| && PlainText(t, fmt)
    ensures var s := NodeString(t, k, i, fmt);
      && Occurrences(s, '(') == Occurrences(s, ',') && Occurrences(s, ')') == Occurrences(s, ',')
      && 2 * Occurrences(s, ',') + 1 == CountNodes(t, k, i)
    decreases |t| - i
  {
    assert Ordered(t, i);
    var tail := if t[i].weight != 0.0 then ":" + fmt(t[i].weight) else "";
    assert Plain(tail) by {
      if t[i].weight != 0.0 {
        assert Plain(fmt(t[i].weight));
        assert forall c :: c in tail ==> c == ':' || c in fmt(t[i].weight);
      }
    }
    PlainCounts(tail);
    if t[i].children {
      var l, r := t[i].left.value, t[i].right.value;
      var L, R := NodeString(t, k, l, fmt), NodeString(t, k, r, fmt);
      NodeStringBalanced(t, k, l, fmt);
      NodeStringBalanced(t, k, r, fmt);
      assert NodeString(t, k, i, fmt) == "(" + L + "," + R + ")" + tail;
      assert CountNodes(t, k, i) == CountNodes(t, k, l) + CountNodes(t, k, r) + 1;
      WrapCounts(L, R, tail, '(');
      WrapCounts(L, R, tail, ')');
      WrapCounts(L, R, tail, ',');
      Delimiters();
    } else {
      assert NodeString(t, k, i, fmt) == t[i].name + tail;
      assert CountNodes(t, k, i) == 1;
      PlainCounts(t[i].name);
      OccurrencesConcat(t[i].name, tail, '(');
      OccurrencesConcat(t[i].name, tail, ')');
      OccurrencesConcat(t[i].name, tail, ',');
    }
  }

  /** The strings of the first `n` members of the unroot list, each followed by a comma
      except the last member of the list. */
  function Listing(t: seq<Node>, unroot: seq<nat>, fmt: real -> string, n: nat): string
    requires Packed(t, |unroot|) && n <= |unroot| && forall j :: 0 <= j < |unroot| ==> unroot[j] < |t|
  {
    if n == 0 then ""
    else Listing(t, unroot, fmt, n - 1) + NodeString(t, |unroot|, unroot[n - 1], fmt)
         + (if n - 1 != |unroot| - 1 then "," else "")
  }

  lemma AppendAssoc(a: string, b: string, c: string, d: string)
    ensures a + (b + c + d) == a + b + c + d
  {
  }

  /** tree_t::to_string: the members of the unroot list, comma-separated and wrapped in
      parentheses when there are several, closed by `;` unless nothing was printed. */
  function TreeString(t: seq<Node>, unroot: seq<nat>, fmt: real -> string): string
    requires Packed(t, |unroot|) && forall j :: 0 <= j < |unroot| ==> unroot[j] < |t|
  {
    var body := (if |unroot| > 1 then "(" else "") + Listing(t, unroot, fmt, |unroot|)
                + (if |unroot| > 1 then ")" else "");
    if body == "" then "" else body + ";"
  }

  /** The node counts of the first `n` members of the unroot list. */
  function UnrootCount(t: seq<Node>, unroot: seq<nat>, n: nat): nat
    requires Packed(t, |unroot|) && n <= |unroot| && forall j :: 0 <= j < |unroot| ==> unroot[j] < |t|
  {
    if n == 0 then 0 else UnrootCount(t, unroot, n - 1) + CountNodes(t, |unroot|, unroot[n - 1])
  }

  /** The slots below the first `n` members of the unroot list. */
  ghost function UnrootSlots(t: seq<Node>, unroot: seq<nat>, n: nat): set<nat>
    requires Packed(t, |unroot|) && n <= |unroot| && forall j :: 0 <= j < |unroot| ==> unroot[j] < |t|
  {
    if n == 0 then {} else UnrootSlots(t, unroot, n - 1) + Sub(t, |unroot|, unroot[n - 1])
  }

  lemma {:induction false} UnrootCountUnion(t: seq<Node>, unroot: seq<nat>, n: nat)
    requires TopList(t, unroot) && n <= |unroot|
    ensures UnrootCount(t, unroot, n) == |UnrootSlots(t, unroot, n)|
    ensures forall x :: x in UnrootSlots(t, unroot, n) ==> x < |t|
  {
    TopIndices(t, unroot);
    if n > 0 {
      var k := |unroot|;
      UnrootCountUnion(t, unroot, n - 1);
      var top := unroot[n - 1];
      forall x | x in Sub(t, k, top) ensures x !in UnrootSlots(t, unroot, n - 1) {
        UnrootFresh(t, unroot, n - 1, n - 1, x);
      }
      forall x | x in Sub(t, k, top) ensures x < |t| {
        SubBounds(t, k, top, x);
      }
    }
  }

  lemma {:induction false} UnrootFresh(t: seq<Node>, unroot: seq<nat>, n: nat, m: nat, x: nat)
    requires TopList(t, unroot) && m <= n < |unroot| && x in Sub(t, |unroot|, unroot[n])
    ensures x !in UnrootSlots(t, unroot, m)
  {
    TopIndices(t, unroot);
    if m > 0 {
      UnrootFresh(t, unroot, n, m - 1, x);
      TopsDisjoint(t, |unroot|, unroot[n], unroot[m - 1]);
    }
  }

  lemma {:induction false} UnrootHas(t: seq<Node>, unroot: seq<nat>, n: nat, j: nat, x: nat)
    requires TopList(t, unroot) && j < n <= |unroot| && x in Sub(t, |unroot|, unroot[j])
    ensures x in UnrootSlots(t, unroot, n)
  {
    TopIndices(t, unroot);
    if j < n - 1 {
      UnrootHas(t, unroot, n - 1, j, x);
    }
  }

  /** The subtrees of the unroot list hold every slot once: their node counts add up to
      the array size. */
  lemma UnrootCountAll(t: seq<Node>, unroot: seq<nat>)
    requires TopList(t, unroot)
    ensures UnrootCount(t, unroot, |unroot|) == |t|
  {
    TopIndices(t, unroot);
    UnrootCountUnion(t, unroot, |unroot|);
    forall x | 0 <= x < |t| ensures x in UnrootSlots(t, unroot, |unroot|) {
      UnrootCovers(t, unroot, x);
      var j :| 0 <= j < |unroot| && unroot[j] < |t| && x in Sub(t, |unroot|, unroot[j]);
      UnrootHas(t, unroot, |unroot|, j, x);
    }
    assert UnrootSlots(t, unroot, |unroot|) == Below(|t|);
  }

  lemma {:induction false} ListingCounts(t: seq<Node>, unroot: seq<nat>, fmt: real -> string, n: nat)
    requires TopList(t, unroot) && PlainText(t, fmt) && n <= |unroot|
    ensures var s := Listing(t, unroot, fmt, n);
      && Occurrences(s, '(') == Occurrences(s, ')')
      && 2 * Occurrences(s, ',') + (if 0 < n == |unroot| then 2 else 0) == UnrootCount(t, unroot, n) + n
  {
    TopIndices(t, unroot);
    if n > 0 {
      var k := |unroot|;
      ListingCounts(t, unroot, fmt, n - 1);
      var prev, node := Listing(t, unroot, fmt, n - 1), NodeString(t, k, unroot[n - 1], fmt);
      var last := n - 1 == |unroot| - 1;
      var sep := if !last then "," else "";
      NodeStringBalanced(t, k, unroot[n - 1], fmt);
      assert Listing(t, unroot, fmt, n) == prev + node + sep;
      assert UnrootCount(t, unroot, n) == UnrootCount(t, unroot, n - 1) + CountNodes(t, k, unroot[n - 1]);
      SeparatorCounts(sep);
      ConcatCounts(prev, node, sep, '(');
      ConcatCounts(prev, node, sep, ')');
      ConcatCounts(prev, node, sep, ',');
      assert Occurrences(sep, ',') == if last then 0 else 1;
    }
  }

  /** How often each delimiter occurs in each one-character delimiter string. */
  lemma Delimiters()
    ensures Occurrences("(", '(') == 1 && Occurrences("(", ')') == 0 && Occurrences("(", ',') == 0
    ensures Occurrences(")", ')') == 1 && Occurrences(")", '(') == 0 && Occurrences(")", ',') == 0
    ensures Occurrences(",", ',') == 1 && Occurrences(",", '(') == 0 && Occurrences(",", ')') == 0
    ensures Occurrences(";", ',') == 0 && Occurrences(";", '(') == 0 && Occurrences(";", ')') == 0
  {
    assert "("[..0] == ")"[..0] == ","[..0] == ";"[..0] == "";
  }

  lemma SeparatorCounts(sep: string)
    requires sep == "," || sep == ""
    ensures Occurrences(sep, '(') == 0 && Occurrences(sep, ')') == 0
    ensures Occurrences(sep, ',') == if sep == "," then 1 else 0
  {
    if sep == "," {
      assert sep[..0] == "";
    }
  }

  lemma ConcatCounts(a: string, b: string, c: string, x: char)
    ensures Occurrences(a + b + c, x) == Occurrences(a, x) + Occurrences(b, x) + Occurrences(c, x)
  {
    OccurrencesConcat(a + b, c, x);
    OccurrencesConcat(a, b, x);
  }

  /** The printed tree is balanced: as many `(` as `)`, and a tree of `n` slots with `u`
      members in its unroot list prints (n + u) / 2 - 1 commas; it ends with `;` unless
      nothing was printed, which only a lone unlabelled leaf of weight zero can cause. */
  lemma TreeStringBalanced(t: seq<Node>, unroot: seq<nat>, fmt: real -> string)
    requires TopList(t, unroot) && PlainText(t, fmt) && |unroot| > 0
    ensures var s := TreeString(t, unroot, fmt);
      && Occurrences(s, '(') == Occurrences(s, ')')
      && 2 * Occurrences(s, ',') + 2 == |t| + |unroot|
      && (s == "" || s[|s| - 1] == ';')
      && (|unroot| > 1 ==> s != "")
  {
    TopIndices(t, unroot);
    var L := Listing(t, unroot, fmt, |unroot|);
    ListingCounts(t, unroot, fmt, |unroot|);
    UnrootCountAll(t, unroot);
    var op, cl := if |unroot| > 1 then "(" else "", if |unroot| > 1 then ")" else "";
    var body := op + L + cl;
    Delimiters();
    ConcatCounts(op, L, cl, '(');
    ConcatCounts(op, L, cl, ')');
    ConcatCounts(op, L, cl, ',');
    if body != "" {
      assert TreeString(t, unroot, fmt) == body + ";";
      OccurrencesConcat(body, ";", '(');
      OccurrencesConcat(body, ";", ')');
      OccurrencesConcat(body, ";", ',');
    }
  }
}

=== FILE: sort.dfy ===
/**
 * node_t::sort of src/tree.cpp on a packed tree.  Every node is given a key: a leaf's key
 * is its label; an internal node's key is the smaller of its children's keys, unless its
 * own label is non-empty and no greater.  Sorting swaps the two children of every node
 * whose right child has the smaller key, so afterwards left keys never exceed right
 * keys.  Keys are compared as std::string compares them: character by character, a
 * proper prefix first.
 */
module Sorting {
  import opened Nodes

  /** std::string's `a < b`. */
  predicate Less(a: string, b: string)
    decreases |a|
  {
    if a == [] then b != []
    else if b == [] then false
    else a[0] < b[0] || (a[0] == b[0] && Less(a[1..], b[1..]))
  }

  lemma {:induction false} LessIrreflexive(a: string)
    ensures !Less(a, a)
    decreases |a|
  {
    if a != [] {
      LessIrreflexive(a[1..]);
    }
  }

  lemma {:induction false} LessAsymmetric(a: string, b: string)
    requires Less(a, b)
    ensures !Less(b, a)
    decreases |a|
  {
    if a != [] && b != [] && a[0] == b[0] {
      LessAsymmetric(a[1..], b[1..]);
    }
  }

  lemma {:induction false} LessTransitive(a: string, b: string, c: string)
    requires Less(a, b) && Less(b, c)
    ensures Less(a, c)
    decreases |a|
  {
    if a != [] && a[0] == b[0] && b[0] == c[0] {
      LessTransitive(a[1..], b[1..], c[1..]);
    }
  }

  lemma {:induction false} LessTotal(a: string, b: string)
    requires a != b
    ensures Less(a, b) || Less(b, a)
    decreases |a|
  {
    if a != [] && b != [] && a[0] == b[0] {
      assert a == [a[0]] + a[1..] && b == [b[0]] + b[1..];
      LessTotal(a[1..], b[1..]);
    }
  }

  /** The key node_t::sort returns for the subtree of `i`. */
  function SortKey(t: seq<Node>, k: nat, i: nat): string
    requires Packed(t, k) && i < |t|
    decreases |t| - i
  {
    assert Ordered(t, i);
    if t[i].children then
      var lk, rk := SortKey(t, k, t[i].left.value), SortKey(t, k, t[i].right.value);
      var least := if Less(rk, lk) then rk else lk;
      if Less(least, t[i].name) || t[i].name == "" then least else t[i].name
    else t[i].name
  }

  /** Node `x` after sorting: its children swapped when the right one has the smaller key. */
  ghost function Sorted(T: seq<Node>, k: nat, x: nat): Node
    requires Packed(T, k) && x < |T|
  {
    assert Ordered(T, x);
    if T[x].children && Less(SortKey(T, k, T[x].right.value), SortKey(T, k, T[x].left.value))
    then T[x].(left := T[x].right, right := T[x].left)
    else T[x]
  }

  /** node_t::sort on the subtree of `i`: sorts both children, swaps them when the right
      key is smaller, and returns the subtree's key. */
  method Sort(a: array<Node>, ghost T: seq<Node>, k: nat, i: nat) returns (key: string)
    requires Packed(T, k) && i < |T| == a.Length
    requires forall x :: 0 <= x < a.Length && x in Sub(T, k, i) ==> a[x] == T[x]
    modifies a
    ensures key == SortKey(T, k, i)
    ensures forall x :: 0 <= x < a.Length ==> a[x] == if x in Sub(T, k, i) then Sorted(T, k, x) else old(a[x])
    decreases |T| - i
  {
    assert Ordered(T, i);
    if a[i].children {
      KidsDisjoint(T, k, i);
      var lkey := Sort(a, T, k, a[i].left.value);
      var rkey := Sort(a, T, k, a[i].right.value);
      if Less(rkey, lkey) {
        a[i] := a[i].(left := a[i].right, right := a[i].left);
        lkey, rkey := rkey, lkey;
      }
      if Less(lkey, a[i].name) || a[i].name == "" {
        return lkey;
      }
    }
    return a[i].name;
  }

  /** The whole packed tree after every node is sorted. */
  ghost function SortedAll(T: seq<Node>, k: nat): (t: seq<Node>)
    requires Packed(T, k)
    ensures |t| == |T| && forall x :: 0 <= x < |T| ==> t[x] == Sorted(T, k, x)
  {
    seq(|T|, x requires 0 <= x < |T| => Sorted(T, k, x))
  }

  /** Swapping children keeps a packed tree packed. */
  lemma SortedPacked(T: seq<Node>, k: nat)
    requires Packed(T, k)
    ensures Packed(SortedAll(T, k), k)
  {
    var t := SortedAll(T, k);
    forall i | 0 <= i < |t| ensures Ordered(t, i) && Linked(t, k, i) {
      assert Ordered(T, i) && Linked(T, k, i);
      if T[i].children {
        assert t[T[i].left.value].parent == T[T[i].left.value].parent;
        assert t[T[i].right.value].parent == T[T[i].right.value].parent;
      }
      if i >= k {
        assert IsKid(T, T[i].parent.value, i);
      }
    }
  }

  /** Swapping children keeps every subtree and every key. */
  lemma {:induction false} SortedKeys(T: seq<Node>, k: nat, i: nat)
    requires Packed(T, k) && Packed(SortedAll(T, k), k) && i < |T|
    ensures Sub(SortedAll(T, k), k, i) == Sub(T, k, i)
    ensures SortKey(SortedAll(T, k), k, i) == SortKey(T, k, i)
    decreases |T| - i
  {
    var t := SortedAll(T, k);
    assert Ordered(T, i);
    if T[i].children {
      var l, r := T[i].left.value, T[i].right.value;
      SortedKeys(T, k, l);
      SortedKeys(T, k, r);
      var lk, rk := SortKey(T, k, l), SortKey(T, k, r);
      if Less(rk, lk) {
        LessAsymmetric(rk, lk);
      } else if lk != rk {
        LessTotal(lk, rk);
      }
    }
  }

  /** After sorting, no node's right child has a smaller key than its left child. */
  lemma SortedOrdered(T: seq<Node>, k: nat, x: nat)
    requires Packed(T, k) && x < |T|
    ensures var t := SortedAll(T, k);
      && Packed(t, k) && Ordered(t, x)
      && (t[x].children ==> !Less(SortKey(t, k, t[x].right.value), SortKey(t, k, t[x].left.value)))
  {
    SortedPacked(T, k);
    var t := SortedAll(T, k);
    assert Ordered(t, x) && Ordered(T, x);
    if T[x].children {
      var l, r := T[x].left.value, T[x].right.value;
      SortedKeys(T, k, l);
      SortedKeys(T, k, r);
      if Less(SortKey(T, k, r), SortKey(T, k, l)) {
        LessAsymmetric(SortKey(T, k, r), SortKey(T, k, l));
      }
    }
  }
}

=== FILE: surgery.dfy ===
/**
 * Tree surgery of src/tree.cpp on the pointer heap: node_factory, the splitting steps of
 * tree_t::make_unrooted, and the re-rooting of tree_t::set_root with node_t::swap_parent.
 * Each operation edits an arena (`seq<Node>`, indices for pointers); the class methods of
 * Trees then pack the edited arena with make_flat_tree.
 */
module Surgery {
  import opened Wrappers
  import opened Nodes

  // ---------------------------------------------------------------------------------------
  // node_factory
  // ---------------------------------------------------------------------------------------

  /** The arena after a fresh node, appended as slot |h|, takes `l` and `r` as children. */
  ghost function Adopted(h: seq<Node>, l: nat, r: nat): seq<Node>
    requires l < |h| && r < |h|
  {
    var n := |h|;
    (h + [Node("", 0.0, true, Some(l), Some(r), None)])[l := h[l].(parent := Some(n))][r := h[r].(parent := Some(n))]
  }

  /** node_factory(lchild, rchild): a fresh internal node holding `l` and `r`, which now
      name it as their parent. */
  method NodeFactory(h: seq<Node>, l: nat, r: nat) returns (h': seq<Node>, x: nat)
    requires l < |h| && r < |h|
    ensures x == |h| && h' == Adopted(h, l, r)
  {
    x := |h|;
    h' := h + [Blank];
    h' := h'[x := h'[x].(left := Some(l), right := Some(r), children := true)];
    h' := h'[l := h'[l].(parent := Some(x))];
    h' := h'[r := h'[r].(parent := Some(x))];
  }

  /** Two roots of a forest adopted by a fresh node leave a forest whose roots are the
      others and the fresh node. */
  lemma AdoptedForest(h: seq<Node>, roots: seq<nat>, l: nat, r: nat, rest: seq<nat>)
    requires HeapTree(h, roots) && l in roots && r in roots && l != r
    requires Distinct(rest) && forall x :: x in rest ==> x in roots && x != l && x != r
    ensures HeapTree(Adopted(h, l, r), rest + [|h|])
  {
    var h' := Adopted(h, l, r);
    var n := |h|;
    forall x | 0 <= x < |h'| ensures Shaped(h', x) {
      if x < n { assert Shaped(h, x); }
    }
    forall x: nat, c: nat | IsKid(h', x, c) ensures if x < n then IsKid(h, x, c) else c == l || c == r {
      if x < n { assert h'[x].left == h[x].left && h'[x].right == h[x].right; }
    }
    forall x: nat, c: nat | c in rest + [n] && x < |h'| ensures !IsKid(h', x, c) {
      if x < n {
        assert h'[x].left == h[x].left && h'[x].right == h[x].right;
        if c == n {
          assert Shaped(h, x);
        } else {
          assert c in rest;
          assert c in roots;
        }
      } else {
        if c != n {
          assert c in rest;
        }
      }
    }
    forall x: nat | x in rest + [n] ensures x < |h'| {
      if x != n { assert x in rest; }
    }
    forall a, b | 0 <= a < b < |rest| + 1 ensures (rest + [n])[a] != (rest + [n])[b] {
      if b == |rest| {
        assert (rest + [n])[a] in rest;
        assert (rest + [n])[a] in roots;
      }
    }
  }

  // ---------------------------------------------------------------------------------------
  // make_unrooted
  // ---------------------------------------------------------------------------------------

  /** The first position of `roots` holding an internal node, or |roots| when there is none:
      the node make_unrooted splits next. */
  function FirstInternal(h: seq<Node>, roots: seq<nat>): (idx: nat)
    requires forall i :: 0 <= i < |roots| ==> roots[i] < |h|
    ensures idx <= |roots|
    ensures forall i :: 0 <= i < idx ==> !h[roots[i]].children
    ensures idx < |roots| ==> h[roots[idx]].children
    decreases |roots|
  {
    if roots == [] then 0
    else if h[roots[0]].children then 0
    else 1 + FirstInternal(h, roots[1..])
  }

  /** The arena after make_unrooted splits the internal node `x` off: its children lose
      their parent and it loses its children. */
  ghost function Split(h: seq<Node>, x: nat): seq<Node>
    requires x < |h| && Shaped(h, x) && h[x].children
  {
    var l, r := h[x].left.value, h[x].right.value;
    h[l := h[l].(parent := None)][r := h[r].(parent := None)][x := h[x].(left := None, right := None, children := false)]
  }

  /** The unroot list after the split of `roots[idx]`: it is dropped and its two children
      are appended, left first. */
  ghost function SplitRoots(h: seq<Node>, roots: seq<nat>, idx: nat): seq<nat>
    requires idx < |roots| && roots[idx] < |h| && Shaped(h, roots[idx]) && h[roots[idx]].children
  {
    var x := roots[idx];
    roots[..idx] + roots[idx + 1..] + [h[x].left.value, h[x].right.value]
  }

  /** Splitting an internal root keeps a forest, with one more root. */
  lemma SplitForest(h: seq<Node>, roots: seq<nat>, idx: nat)
    requires HeapTree(h, roots) && idx < |roots| && roots[idx] < |h| && h[roots[idx]].children
    ensures Shaped(h, roots[idx])
    ensures HeapTree(Split(h, roots[idx]), SplitRoots(h, roots, idx))
    ensures |SplitRoots(h, roots, idx)| == |roots| + 1
  {
    var x := roots[idx];
    assert x in roots;
    assert Shaped(h, x);
    var l, r := h[x].left.value, h[x].right.value;
    var h' := Split(h, x);
    var rs := SplitRoots(h, roots, idx);
    assert x != l && x != r by {
      assert IsKid(h, x, l) && IsKid(h, x, r);
    }
    forall y | 0 <= y < |h'| ensures Shaped(h', y) {
      assert Shaped(h, y);
    }
    forall y: nat, c: nat | IsKid(h', y, c) ensures IsKid(h, y, c) && y != x {
    }
    forall y: nat, c: nat | c in rs && y < |h'| ensures !IsKid(h', y, c) {
      if c == l || c == r {
        if IsKid(h', y, c) {
          assert IsKid(h, y, c) && IsKid(h, x, c);
        }
      } else {
        assert c in roots;
      }
    }
    forall a, b | 0 <= a < b < |rs| ensures rs[a] != rs[b] {
      if b < |rs| - 2 {
        assert rs[a] in roots && rs[b] in roots;
        assert rs[a] == roots[if a < idx then a else a + 1];
        assert rs[b] == roots[if b < idx then b else b + 1];
      } else if a < |rs| - 2 {
        assert rs[a] in roots;
        assert IsKid(h, x, rs[b]);
      }
    }
    forall c | c in rs ensures c < |h'| {
      if c != l && c != r { assert c in roots; }
    }
  }

  /** The arena and unroot list make_unrooted ends with: internal roots are split, first
      one first, until three roots remain (or no root is internal). */
  ghost function Unrooted(h: seq<Node>, roots: seq<nat>): (res: (seq<Node>, seq<nat>))
    requires HeapTree(h, roots)
    ensures HeapTree(res.0, res.1) && |res.0| == |h|
    decreases 3 - |roots|
  {
    assert forall i :: 0 <= i < |roots| ==> roots[i] in roots;
    var idx := FirstInternal(h, roots);
    if |roots| >= 3 || idx == |roots| then (h, roots)
    else
      SplitForest(h, roots, idx);
      Unrooted(Split(h, roots[idx]), SplitRoots(h, roots, idx))
  }

  /** The nodes make_unrooted leaves as leaves keep their label, weight and links. */
  lemma {:induction false} UnrootedLeaves(h: seq<Node>, roots: seq<nat>, x: nat)
    requires HeapTree(h, roots) && x < |h| && !h[x].children
    ensures var u := Unrooted(h, roots).0;
      && u[x].name == h[x].name && u[x].weight == h[x].weight
      && !u[x].children && u[x].left == h[x].left && u[x].right == h[x].right
    decreases 3 - |roots|
  {
    assert forall i :: 0 <= i < |roots| ==> roots[i] in roots;
    var idx := FirstInternal(h, roots);
    if |roots| < 3 && idx < |roots| {
      SplitForest(h, roots, idx);
      UnrootedLeaves(Split(h, roots[idx]), SplitRoots(h, roots, idx), x);
    }
  }

  /** Labels and weights survive make_unrooted at every node. */
  lemma {:induction false} UnrootedLabels(h: seq<Node>, roots: seq<nat>, x: nat)
    requires HeapTree(h, roots) && x < |h|
    ensures var u := Unrooted(h, roots).0; u[x].name == h[x].name && u[x].weight == h[x].weight
    decreases 3 - |roots|
  {
    assert forall i :: 0 <= i < |roots| ==> roots[i] in roots;
    var idx := FirstInternal(h, roots);
    if |roots| < 3 && idx < |roots| {
      SplitForest(h, roots, idx);
      var h', rs := Split(h, roots[idx]), SplitRoots(h, roots, idx);
      assert Unrooted(h, roots) == Unrooted(h', rs);
      UnrootedLabels(h', rs, x);
      assert h'[x].name == h[x].name && h'[x].weight == h[x].weight;
    }
  }

  /** Slot `x` is internal with an internal child. */
  predicate TwoBelow(h: seq<Node>, x: nat) {
    && x < |h| && h[x].children && Shaped(h, x)
    && (h[h[x].left.value].children || h[h[x].right.value].children)
  }

  /** The state make_unrooted's loop keeps: a forest of one to three roots in which each
      split still to come finds an internal root. */
  ghost predicate Unrooting(h: seq<Node>, roots: seq<nat>) {
    && HeapTree(h, roots) && 1 <= |roots| <= 3
    && (|roots| == 1 ==> TwoBelow(h, roots[0]))
    && (|roots| == 2 ==> roots[0] < |h| && roots[1] < |h| && (h[roots[0]].children || h[roots[1]].children))
  }

  /** One pass of make_unrooted's loop: with fewer than three roots an internal root is
      found, and splitting it keeps the loop's state and the final result. */
  lemma SplitStep(h: seq<Node>, roots: seq<nat>)
    requires Unrooting(h, roots) && |roots| < 3
    ensures var idx := FirstInternal(h, roots);
      && idx < |roots| && roots[idx] < |h| && Shaped(h, roots[idx]) && h[roots[idx]].children
      && |SplitRoots(h, roots, idx)| == |roots| + 1
      && Unrooting(Split(h, roots[idx]), SplitRoots(h, roots, idx))
      && Unrooted(Split(h, roots[idx]), SplitRoots(h, roots, idx)) == Unrooted(h, roots)
  {
    assert forall i :: 0 <= i < |roots| ==> roots[i] in roots;
    var idx := FirstInternal(h, roots);
    SplitForest(h, roots, idx);
    var h', rs := Split(h, roots[idx]), SplitRoots(h, roots, idx);
    if |roots| == 1 {
      var x := roots[0];
      var l, r := h[x].left.value, h[x].right.value;
      assert rs == [l, r];
      assert IsKid(h, x, l) && IsKid(h, x, r);
      assert h'[l].children == h[l].children && h'[r].children == h[r].children;
    }
  }

  /** The body of make_unrooted's loop: the first internal root is found, dropped from
      the unroot list, and its children, cut loose from it, are appended; it becomes a
      leaf.  The loop's state is kept, with one more root, and so is the final result. */
  method SplitFirstInternal(h: seq<Node>, roots: seq<nat>) returns (h': seq<Node>, roots': seq<nat>)
    requires Unrooting(h, roots) && |roots| < 3
    ensures Unrooting(h', roots') && |roots'| == |roots| + 1
    ensures Unrooted(h', roots') == Unrooted(h, roots)
  {
    SplitStep(h, roots);
    assert forall i :: 0 <= i < |roots| ==> roots[i] in roots;
    var idx := 0;
    while idx < |roots| && !h[roots[idx]].children
      invariant idx <= |roots| && forall i :: 0 <= i < idx ==> !h[roots[i]].children
    {
      idx := idx + 1;
    }
    assert idx == FirstInternal(h, roots);
    var x := roots[idx];
    var l, r := h[x].left.value, h[x].right.value;
    assert IsKid(h, x, l) && IsKid(h, x, r);
    roots' := roots[..idx] + roots[idx + 1..] + [l, r];
    h' := h[l := h[l].(parent := None)][r := h[r].(parent := None)];
    h' := h'[x := h'[x].(left := None, right := None, children := false)];
    assert h' == Split(h, x) && roots' == SplitRoots(h, roots, idx);
  }

  /** Started from the loop's state, make_unrooted ends with exactly three roots. */
  lemma {:induction false} UnrootedThree(h: seq<Node>, roots: seq<nat>)
    requires Unrooting(h, roots)
    ensures |Unrooted(h, roots).1| == 3
    decreases 3 - |roots|
  {
    if |roots| < 3 {
      SplitStep(h, roots);
      var idx := FirstInternal(h, roots);
      UnrootedThree(Split(h, roots[idx]), SplitRoots(h, roots, idx));
    }
  }

  /** A packed tree with a single top over more than three slots: the top is internal and
      has an internal child, so make_unrooted can split twice. */
  lemma OneRootTwoBelow(t: seq<Node>, u: seq<nat>)
    requires TopList(t, u) && |u| == 1 && |t| > 3
    ensures u[0] == 0 && TwoBelow(t, u[0])
  {
    TopsListed(t, u);
    assert 0 in u;
    assert Ordered(t, 0);
    var x := if !t[0].children then 1
      else if t[0].left != Some(1) && t[0].right != Some(1) then 1
      else if t[0].left != Some(2) && t[0].right != Some(2) then 2
      else 3;
    Covered(t, 1, x);
    if t[0].children {
      assert Ordered(t, t[0].left.value) && Ordered(t, t[0].right.value);
    }
  }

  /** A packed tree with two tops over more than two slots has an internal top. */
  lemma TwoRootsOneInternal(t: seq<Node>, u: seq<nat>)
    requires TopList(t, u) && |u| == 2 && |t| > 2
    ensures u[0] < |t| && u[1] < |t| && (t[u[0]].children || t[u[1]].children)
  {
    TopsListed(t, u);
    assert u[0] in u && u[1] in u;
    Covered(t, 2, 2);
    var r: nat :| r < 2 && 2 in Sub(t, 2, r);
    assert r in u;
  }

  // ---------------------------------------------------------------------------------------
  // swap_parent
  // ---------------------------------------------------------------------------------------

  /** What swap_parent does to one node reached from `prev`: the child link equal to `prev`
      (the left one first) trades places with the parent link; with neither, nothing. */
  function Swap(n: Node, prev: Option<nat>): (m: Node)
    ensures m.name == n.name && m.weight == n.weight && m.children == n.children
  {
    if n.left == prev then n.(left := n.parent, parent := prev)
    else if n.right == prev then n.(right := n.parent, parent := prev)
    else n
  }

  /** The node swap_parent is called from at step `t` of the walk `w`: none at the start. */
  function Prev(w: seq<nat>, t: nat): Option<nat>
    requires t < |w|
  {
    if t == 0 then None else Some(w[t - 1])
  }

  /** The walk `w` from step `t` on is what swap_parent follows in `h`: distinct slots, each
      before the last holding the previous one as a child and the next one as parent, and
      the last not holding the previous one. */
  ghost predicate Walk(h: seq<Node>, w: seq<nat>, t: nat) {
    && t < |w| && Distinct(w)
    && (forall s :: 0 <= s < |w| ==> w[s] < |h|)
    && (forall s, s' :: t <= s && s' == s + 1 && s' < |w| ==> h[w[s]].parent == Some(w[s']))
    && (forall s, s' :: t <= s && s' == s + 1 && s' < |w| - 1 ==>
          h[w[s']].left == Some(w[s]) || h[w[s']].right == Some(w[s]))
    && (t < |w| - 1 ==> h[w[t]].left == Prev(w, t) || h[w[t]].right == Prev(w, t))
    && h[w[|w| - 1]].left != Prev(w, |w| - 1) && h[w[|w| - 1]].right != Prev(w, |w| - 1)
  }

  /** `h'` is `h` with the slots of `w` from step `t` up to, not including, the last one
      swapped, each from the slot before it; every other slot as it was. */
  ghost predicate SwappedFrom(h: seq<Node>, w: seq<nat>, t: nat, h': seq<Node>)
    requires t < |w| && forall s :: 0 <= s < |w| ==> w[s] < |h|
  {
    && |h'| == |h|
    && (t < |w| - 1 ==> h'[w[t]] == Swap(h[w[t]], Prev(w, t)))
    && (forall s, s' :: t <= s && s' == s + 1 && s' < |w| - 1 ==> h'[w[s']] == Swap(h[w[s']], Some(w[s])))
    && (forall y :: 0 <= y < |h| && y !in w[t..|w| - 1] ==> h'[y] == h[y])
  }

  /** The position of `x` in `w`. */
  function Position(w: seq<nat>, x: nat): (i: nat)
    requires x in w
    ensures i < |w| && w[i] == x && x !in w[..i]
  {
    if w[0] == x then 0 else assert x in w[1..]; 1 + Position(w[1..], x)
  }

  /** The arena after swap_parent has walked `w` from step `t` up to its last slot,
      swapping each slot from the one before it. */
  ghost function ReversedFrom(h: seq<Node>, w: seq<nat>, t: nat): (r: seq<Node>)
    requires forall s :: 0 <= s < |w| ==> w[s] < |h|
    ensures |r| == |h|
    decreases |w| - t
  {
    if t + 1 >= |w| then h
    else ReversedFrom(h[w[t] := Swap(h[w[t]], Prev(w, t))], w, t + 1)
  }

  /** The arena after swap_parent has walked all of `w`. */
  ghost function Reversed(h: seq<Node>, w: seq<nat>): (r: seq<Node>)
    requires forall s :: 0 <= s < |w| ==> w[s] < |h|
    ensures |r| == |h|
  {
    ReversedFrom(h, w, 0)
  }

  /** Along a walk of distinct slots, ReversedFrom swaps each walked slot from the one
      before it and leaves every other slot alone. */
  lemma {:induction false} ReversedFromSwaps(h: seq<Node>, w: seq<nat>, t: nat)
    requires t < |w| && Distinct(w) && forall s :: 0 <= s < |w| ==> w[s] < |h|
    ensures SwappedFrom(h, w, t, ReversedFrom(h, w, t))
    decreases |w| - t
  {
    if t + 1 < |w| {
      var h1 := h[w[t] := Swap(h[w[t]], Prev(w, t))];
      ReversedFromSwaps(h1, w, t + 1);
      WalkDone(h, w, t, h1, ReversedFrom(h1, w, t + 1));
    }
  }

  lemma ReversedSwaps(h: seq<Node>, w: seq<nat>)
    requires |w| >= 1 && Distinct(w) && forall s :: 0 <= s < |w| ==> w[s] < |h|
    ensures SwappedFrom(h, w, 0, Reversed(h, w))
  {
    ReversedFromSwaps(h, w, 0);
  }

  /** Two arenas swapped from the same one along the same walk are equal. */
  lemma SwappedUnique(h: seq<Node>, w: seq<nat>, a: seq<Node>, b: seq<Node>)
    requires |w| >= 1 && Distinct(w) && forall s :: 0 <= s < |w| ==> w[s] < |h|
    requires SwappedFrom(h, w, 0, a) && SwappedFrom(h, w, 0, b)
    ensures a == b
  {
    forall y | 0 <= y < |h| ensures a[y] == b[y] {
      if y in w[..|w| - 1] {
        var t := Position(w, y);
        if t > 0 {
          assert a[w[t]] == Swap(h[w[t]], Some(w[t - 1]));
        }
      } else {
        assert w[0..|w| - 1] == w[..|w| - 1];
      }
    }
  }

  /** node_t::swap_parent(p) called on slot `x` = w[t] from `p`: while the caller is a child
      of the current node, that child link and the parent link trade places and the walk
      moves to the old parent.  Only the slots of the walk before its last one change. */
  method SwapParent(h: seq<Node>, x: nat, p: Option<nat>, ghost w: seq<nat>, ghost t: nat) returns (h': seq<Node>)
    requires Walk(h, w, t) && x == w[t] && p == Prev(w, t)
    ensures SwappedFrom(h, w, t, h')
    decreases |w| - t
  {
    if h[x].left == p {
      var q := h[x].parent;
      h' := h[x := h[x].(parent := h[x].left, left := q)];
      WalkOn(h, w, t, h');
      var h1 := h';
      h' := SwapParent(h1, q.value, Some(x), w, t + 1);
      WalkDone(h, w, t, h1, h');
    } else if h[x].right == p {
      var q := h[x].parent;
      h' := h[x := h[x].(parent := h[x].right, right := q)];
      WalkOn(h, w, t, h');
      var h1 := h';
      h' := SwapParent(h1, q.value, Some(x), w, t + 1);
      WalkDone(h, w, t, h1, h');
    } else {
      h' := h;
    }
  }

  /** After one swap at w[t] the walk goes on from w[t + 1]. */
  lemma WalkOn(h: seq<Node>, w: seq<nat>, t: nat, h1: seq<Node>)
    requires Walk(h, w, t) && (h[w[t]].left == Prev(w, t) || h[w[t]].right == Prev(w, t))
    requires |h1| == |h| && h1[w[t]] == Swap(h[w[t]], Prev(w, t))
    requires forall y :: 0 <= y < |h| && y != w[t] ==> h1[y] == h[y]
    ensures t + 1 < |w| && Walk(h1, w, t + 1) && h[w[t]].parent == Some(w[t + 1])
  {
    if t == |w| - 1 {
      assert false;
    }
    forall s | t + 1 <= s < |w| ensures h1[w[s]] == h[w[s]] {
      assert w[s] != w[t];
    }
    assert h1[w[|w| - 1]] == h[w[|w| - 1]];
    if t + 1 < |w| - 1 {
      assert h1[w[t + 1]] == h[w[t + 1]];
    }
  }

  /** The slots swapped from w[t] on are w[t] and those swapped from w[t + 1] on. */
  lemma WalkDone(h: seq<Node>, w: seq<nat>, t: nat, h1: seq<Node>, h2: seq<Node>)
    requires Distinct(w) && (forall s :: 0 <= s < |w| ==> w[s] < |h|) && t + 1 < |w|
    requires |h1| == |h| && h1[w[t]] == Swap(h[w[t]], Prev(w, t))
    requires forall y :: 0 <= y < |h| && y != w[t] ==> h1[y] == h[y]
    requires SwappedFrom(h1, w, t + 1, h2)
    ensures SwappedFrom(h, w, t, h2)
  {
    forall s | t + 1 <= s < |w| ensures w[s] != w[t] && h1[w[s]] == h[w[s]] {
    }
    assert forall s :: t + 1 <= s < |w| - 1 ==> w[s] != w[t];
    assert h2[w[t]] == h1[w[t]];
    forall s, s' | t <= s && s' == s + 1 && s' < |w| - 1 ensures h2[w[s']] == Swap(h[w[s']], Some(w[s])) {
      if s == t {
        assert Prev(w, s') == Some(w[s]);
      }
    }
    forall y | 0 <= y < |h| && y !in w[t..|w| - 1] ensures h2[y] == h[y] {
      assert w[t..|w| - 1] == [w[t]] + w[t + 1..|w| - 1];
    }
  }

  /** The conditions under which reversing the walk `w` turns the arena `h` into a forest
      with roots `o` and w[0]: every slot but w[0] is shaped, and w[0] has lost its left
      child; no slot has two holders; along the walk each slot is held only by the next
      one, and only while that one is not the last; `o` is held by none and not walked. */
  ghost predicate Reversible(h: seq<Node>, w: seq<nat>, o: nat) {
    && Walk(h, w, 0) && 2 <= |w|
    && (forall y :: 0 <= y < |h| && y != w[0] ==> Shaped(h, y))
    && h[w[0]].children && h[w[0]].left == None && h[w[0]].right.Some? && h[w[0]].right.value < |h|
    && (forall y, z, c :: IsKid(h, y, c) && IsKid(h, z, c) ==> y == z)
    && (forall s, y :: 0 <= s < |w| && IsKid(h, y, w[s]) ==> s + 2 < |w|)
    && (forall s, s', y :: 0 <= s && s' == s + 1 && s' < |w| && IsKid(h, y, w[s]) ==> y == w[s'])
    && o < |h| && (forall s :: 0 <= s < |w| ==> w[s] != o) && (forall y :: !IsKid(h, y, o))
  }

  /** The arena `r` is `h` with the walk `w` reversed, as far as the lemmas below need. */
  ghost predicate ReversedTo(h: seq<Node>, w: seq<nat>, o: nat, r: seq<Node>) {
    Reversible(h, w, o) && SwappedFrom(h, w, 0, r)
  }

  /** The slot at step `t` of the walk, swapped from the one before it. */
  lemma ReversedAt(h: seq<Node>, w: seq<nat>, o: nat, r: seq<Node>, t: nat)
    requires ReversedTo(h, w, o, r) && t < |w| - 1
    ensures r[w[t]] == Swap(h[w[t]], Prev(w, t)) && h[w[t]].parent == Some(w[t + 1])
  {
    if t > 0 {
      assert r[w[t]] == Swap(h[w[t]], Some(w[t - 1]));
    }
  }

  /** A link of the reversed arena is a link from one walked slot to the next, or a link
      of `h` that is not one walked backwards. */
  lemma ReversedLink(h: seq<Node>, w: seq<nat>, o: nat, r: seq<Node>, y: nat, c: nat) returns (s: int)
    requires ReversedTo(h, w, o, r) && IsKid(r, y, c)
    ensures -1 <= s < |w| - 1
    ensures 0 <= s ==> y == w[s] && c == w[s + 1]
    ensures s == -1 ==> IsKid(h, y, c) && forall s', s'' :: 0 <= s' && s'' == s' + 1 && s'' < |w| - 1 && y == w[s''] ==> c != w[s']
  {
    if y in w[..|w| - 1] {
      var t := Position(w, y);
      ReversedAt(h, w, o, r, t);
      if (h[y].left == Prev(w, t) && r[y].left == Some(c)) || (h[y].left != Prev(w, t) && r[y].right == Some(c)) {
        s := t;
      } else {
        s := -1;
        assert IsKid(h, y, c);
        forall s', s'' | 0 <= s' && s'' == s' + 1 && s'' < |w| - 1 && y == w[s''] ensures c != w[s'] {
          assert s'' == t;
          assert Shaped(h, y);
        }
      }
    } else {
      s := -1;
      assert w[0..|w| - 1] == w[..|w| - 1];
      assert r[y] == h[y];
      forall s'' | 0 <= s'' < |w| - 1 ensures w[s''] != y {
        assert w[s''] in w[..|w| - 1];
      }
    }
  }

  /** Reversing the walk leaves a forest with roots `o` and the walk's first slot. */
  lemma ReversedForest(h: seq<Node>, w: seq<nat>, o: nat)
    requires Reversible(h, w, o)
    ensures HeapTree(Reversed(h, w), [o, w[0]])
  {
    ReversedSwaps(h, w);
    var r := Reversed(h, w);
    ReversedLinks(h, w, o, r);
    forall y | 0 <= y < |r| ensures Shaped(r, y) {
      ReversedShaped(h, w, o, r, y);
    }
  }

  lemma ReversedLinks(h: seq<Node>, w: seq<nat>, o: nat, r: seq<Node>)
    requires ReversedTo(h, w, o, r)
    ensures forall y, z, c :: IsKid(r, y, c) && IsKid(r, z, c) ==> y == z
    ensures forall y, c :: IsKid(r, y, c) ==> c != o && c != w[0]
  {
    forall y, z, c | IsKid(r, y, c) && IsKid(r, z, c) ensures y == z {
      ReversedUnique(h, w, o, r, y, z, c);
    }
    forall y, c | IsKid(r, y, c) ensures c != o && c != w[0] {
      ReversedRoots(h, w, o, r, y, c);
    }
  }

  lemma ReversedUnique(h: seq<Node>, w: seq<nat>, o: nat, r: seq<Node>, y: nat, z: nat, c: nat)
    requires ReversedTo(h, w, o, r) && IsKid(r, y, c) && IsKid(r, z, c)
    ensures y == z
  {
    var s1 := ReversedLink(h, w, o, r, y, c);
    var s2 := ReversedLink(h, w, o, r, z, c);
    if s1 == -1 {
      OldLinkOffWalk(h, w, o, y, c);
    }
    if s2 == -1 {
      OldLinkOffWalk(h, w, o, z, c);
    }
    if 0 <= s1 && 0 <= s2 {
      assert w[s1 + 1] == w[s2 + 1];
    }
  }

  /** A link of `h` kept by the reversal does not lead into the walk. */
  lemma OldLinkOffWalk(h: seq<Node>, w: seq<nat>, o: nat, y: nat, c: nat)
    requires Reversible(h, w, o) && IsKid(h, y, c)
    requires forall s', s'' :: 0 <= s' && s'' == s' + 1 && s'' < |w| - 1 && y == w[s''] ==> c != w[s']
    ensures forall s :: 0 <= s < |w| ==> c != w[s]
  {
    forall s | 0 <= s < |w| ensures c != w[s] {
      if IsKid(h, y, w[s]) {
        assert y == w[s + 1];
      }
    }
  }

  lemma ReversedRoots(h: seq<Node>, w: seq<nat>, o: nat, r: seq<Node>, y: nat, c: nat)
    requires ReversedTo(h, w, o, r) && IsKid(r, y, c)
    ensures c != o && c != w[0]
  {
    var s := ReversedLink(h, w, o, r, y, c);
    if s == -1 {
      OldLinkOffWalk(h, w, o, y, c);
    }
  }

  /** Every slot of the reversed arena is shaped. */
  lemma ReversedShaped(h: seq<Node>, w: seq<nat>, o: nat, r: seq<Node>, y: nat)
    requires ReversedTo(h, w, o, r) && y < |h|
    ensures Shaped(r, y)
  {
    if y in w[..|w| - 1] {
      var t := Position(w, y);
      ReversedAt(h, w, o, r, t);
      if t + 2 < |w| {
        assert w[t + 2] != y;
      }
      if t == 0 {
        assert IsKid(h, y, h[y].right.value);
      } else {
        assert Shaped(h, y);
        var other := if h[y].left == Prev(w, t) then h[y].right.value else h[y].left.value;
        assert IsKid(h, y, other);
      }
    } else {
      assert w[0..|w| - 1] == w[..|w| - 1];
      assert r[y] == h[y];
      assert y != w[0];
      assert Shaped(h, y);
    }
  }

  /** After the reversal each walked slot but the last holds the next one. */
  lemma ReversedForward(h: seq<Node>, w: seq<nat>, o: nat, r: seq<Node>, s: nat)
    requires ReversedTo(h, w, o, r) && s < |w| - 1
    ensures IsKid(r, w[s], w[s + 1])
  {
    ReversedAt(h, w, o, r, s);
    if s > 0 {
      assert h[w[s]].left == Some(w[s - 1]) || h[w[s]].right == Some(w[s - 1]);
    }
  }

  /** Every link of `h` survives the reversal, in one direction or the other. */
  lemma ReversedKeeps(h: seq<Node>, w: seq<nat>, o: nat, r: seq<Node>, y: nat, c: nat)
    requires ReversedTo(h, w, o, r) && IsKid(h, y, c)
    ensures IsKid(r, y, c) || IsKid(r, c, y)
  {
    if y in w[..|w| - 1] {
      var t := Position(w, y);
      ReversedAt(h, w, o, r, t);
      if t > 0 && c == w[t - 1] {
        ReversedForward(h, w, o, r, t - 1);
      }
    } else {
      assert w[0..|w| - 1] == w[..|w| - 1];
    }
  }

  /** The reversal keeps every slot's label, weight and flag. */
  lemma ReversedLabels(h: seq<Node>, w: seq<nat>, o: nat, r: seq<Node>, x: nat)
    requires ReversedTo(h, w, o, r) && x < |h|
    ensures r[x].name == h[x].name && r[x].weight == h[x].weight && r[x].children == h[x].children
  {
    if x in w[..|w| - 1] {
      ReversedAt(h, w, o, r, Position(w, x));
    } else {
      assert w[0..|w| - 1] == w[..|w| - 1];
    }
  }

  // ---------------------------------------------------------------------------------------
  // set_root
  // ---------------------------------------------------------------------------------------

  /** The slots from `x` up to its top slot in a packed tree with `k` top slots. */
  ghost function Ancestry(t: seq<Node>, k: nat, x: nat): (a: seq<nat>)
    requires Packed(t, k) && x < |t|
    ensures |a| >= 1 && a[0] == x && a[|a| - 1] < k
    decreases x
  {
    assert Ordered(t, x) && Linked(t, k, x);
    if x < k then [x] else [x] + Ancestry(t, k, t[x].parent.value)
  }

  /** The ancestry climbs strictly, one parent link at a time, through non-top slots. */
  lemma {:induction false} AncestryChain(t: seq<Node>, k: nat, x: nat, a: seq<nat>)
    requires Packed(t, k) && x < |t| && a == Ancestry(t, k, x)
    ensures forall s :: 0 <= s < |a| ==> a[s] <= x
    ensures forall s :: 0 <= s < |a| - 1 ==> k <= a[s]
    ensures forall s, s' :: 0 <= s < s' < |a| ==> a[s'] < a[s]
    ensures forall s, s' :: 0 <= s && s' == s + 1 && s' < |a| ==> t[a[s]].parent == Some(a[s'])
    decreases x
  {
    assert Ordered(t, x) && Linked(t, k, x);
    if x >= k {
      var q := t[x].parent.value;
      var b := Ancestry(t, k, q);
      AncestryChain(t, k, q, b);
      assert a == [x] + b;
      forall s | 0 <= s < |a| ensures a[s] <= x {
        if s > 0 { assert a[s] == b[s - 1]; }
      }
      forall s | 0 <= s < |a| - 1 ensures k <= a[s] {
        if s > 0 { assert a[s] == b[s - 1]; }
      }
      forall s, s' | 0 <= s < s' < |a| ensures a[s'] < a[s] {
        assert a[s'] == b[s' - 1];
        if s > 0 { assert a[s] == b[s - 1]; }
      }
      forall s, s' | 0 <= s && s' == s + 1 && s' < |a| ensures t[a[s]].parent == Some(a[s']) {
        assert a[s'] == b[s' - 1];
        if s > 0 { assert a[s] == b[s - 1]; }
      }
    }
  }

  /** The arena set_root hands to swap_parent when the outgroup `o` hangs below a parent
      `p`: a fresh slot |t| takes the second and third tops as children and the first as
      parent, and every top names it as parent; `o` loses its parent, and `p` loses `o`,
      keeping its other child as the right one. */
  ghost function Prepared(t: seq<Node>, u: seq<nat>, o: nat): (h: seq<Node>)
    requires TopList(t, u) && |u| == 3 && 3 <= o < |t|
    ensures |h| == |t| + 1
  {
    assert Ordered(t, o) && Linked(t, 3, o);
    var n, p := |t|, t[o].parent.value;
    var other := if t[p].left == Some(o) then t[p].right else t[p].left;
    seq(n + 1, y requires 0 <= y <= n =>
      if y == n then Node("", 0.0, true, Some(u[1]), Some(u[2]), Some(u[0]))
      else
        var z := if y == p then t[y].(left := None, right := other) else t[y];
        z.(parent := if y == o then None else if y < |u| then Some(n) else t[y].parent))
  }

  /** The walk swap_parent takes from `p`: up the ancestry of `p` to its top, on to the
      fresh slot, and from there to the first top when the ancestry ended elsewhere. */
  ghost function WalkPath(t: seq<Node>, u: seq<nat>, o: nat): (w: seq<nat>)
    requires TopList(t, u) && |u| == 3 && 3 <= o < |t|
    ensures |w| >= 2 && forall s :: 0 <= s < |w| ==> w[s] <= |t|
  {
    assert Ordered(t, o) && Linked(t, 3, o);
    var p := t[o].parent.value;
    var a := Ancestry(t, 3, p);
    AncestryChain(t, 3, p, a);
    assert u[0] < |u|;
    a + [|t|] + (if a[|a| - 1] != u[0] then [u[0]] else [])
  }

  /** The facts about a packed tree with three tops, its outgroup `o`, and the ancestry of
      the outgroup's parent `p`, that make the prepared walk reversible. */
  ghost predicate Setting(t: seq<Node>, u: seq<nat>, o: nat, p: nat, a: seq<nat>) {
    && TopList(t, u) && |u| == 3 && 3 <= o < |t|
    && t[o].parent == Some(p) && p < o && IsKid(t, p, o) && t[p].children && Shaped(t, p)
    && u[0] < 3 && u[1] < 3 && u[2] < 3 && u[0] != u[1] && u[0] != u[2] && u[1] != u[2]
    && a == Ancestry(t, 3, p) && |a| >= 1 && a[0] == p && a[|a| - 1] < 3
    && (forall s :: 0 <= s < |a| ==> a[s] <= p)
    && (forall s :: 0 <= s < |a| - 1 ==> 3 <= a[s])
    && (forall s, s' :: 0 <= s < s' < |a| ==> a[s'] < a[s])
    && (forall s, s' :: 0 <= s && s' == s + 1 && s' < |a| ==> t[a[s]].parent == Some(a[s']))
  }

  lemma SettingHolds(t: seq<Node>, u: seq<nat>, o: nat) returns (p: nat, a: seq<nat>)
    requires TopList(t, u) && |u| == 3 && 3 <= o < |t|
    ensures Setting(t, u, o, p, a)
  {
    assert Ordered(t, o) && Linked(t, 3, o);
    p := t[o].parent.value;
    assert Ordered(t, p);
    a := Ancestry(t, 3, p);
    AncestryChain(t, 3, p, a);
    assert u[0] in u && u[1] in u && u[2] in u;
  }

  /** The slots of a packed tree held by none are its tops. */
  lemma HeldBelowTops(t: seq<Node>, u: seq<nat>, y: nat, c: nat)
    requires TopList(t, u) && IsKid(t, y, c)
    ensures |u| <= c < |t| && t[c].parent == Some(y)
  {
    assert Ordered(t, y) && Linked(t, |u|, y);
    assert Ordered(t, c) && Linked(t, |u|, c);
  }

  /** The layout of the prepared walk `w` over the ancestry `a`. */
  ghost predicate PathOf(t: seq<Node>, u: seq<nat>, o: nat, p: nat, a: seq<nat>, w: seq<nat>) {
    && Setting(t, u, o, p, a)
    && (|w| == |a| + 1 || |w| == |a| + 2)
    && (forall s :: 0 <= s < |a| ==> w[s] == a[s])
    && w[|a|] == |t|
    && (|w| == |a| + 2 <==> a[|a| - 1] != u[0])
    && (|w| == |a| + 2 ==> w[|a| + 1] == u[0])
  }

  lemma PathHolds(t: seq<Node>, u: seq<nat>, o: nat, p: nat, a: seq<nat>)
    requires Setting(t, u, o, p, a)
    ensures PathOf(t, u, o, p, a, WalkPath(t, u, o)) && Distinct(WalkPath(t, u, o))
  {
    var w, n, m := WalkPath(t, u, o), |t|, |a| - 1;
    assert w == a + [n] + (if a[m] != u[0] then [u[0]] else []);
    forall i, j | 0 <= i < j < |w| ensures w[i] != w[j] {
      if j <= m {
      } else if i <= m && j == m + 1 {
        assert a[i] <= p;
      } else if i < m {
        assert 3 <= a[i];
      }
    }
  }

  /** The prepared walk is the walk swap_parent follows. */
  lemma PreparedWalk(t: seq<Node>, u: seq<nat>, o: nat, p: nat, a: seq<nat>)
    requires Setting(t, u, o, p, a)
    ensures Walk(Prepared(t, u, o), WalkPath(t, u, o), 0)
  {
    var P, w, n, m := Prepared(t, u, o), WalkPath(t, u, o), |t|, |a| - 1;
    PathHolds(t, u, o, p, a);
    forall s | 0 <= s < |w| ensures w[s] < |P| {
      if s <= m { assert a[s] <= p; }
    }
    PreparedParents(t, u, o, p, a, w);
    PreparedHolds(t, u, o, p, a, w);
    if a[m] != u[0] {
      assert w[|w| - 1] == u[0] && u[0] != p;
      assert Ordered(t, u[0]);
    }
  }

  lemma PreparedParents(t: seq<Node>, u: seq<nat>, o: nat, p: nat, a: seq<nat>, w: seq<nat>)
    requires PathOf(t, u, o, p, a, w)
    ensures forall s, s' :: 0 <= s && s' == s + 1 && s' < |w| ==> Prepared(t, u, o)[w[s]].parent == Some(w[s'])
  {
    var P, n, m := Prepared(t, u, o), |t|, |a| - 1;
    forall s, s' | 0 <= s && s' == s + 1 && s' < |w| ensures P[w[s]].parent == Some(w[s']) {
      if s < m {
        assert w[s] == a[s] && w[s'] == a[s'] && a[s] <= p && 3 <= a[s];
      } else if s == m {
        assert w[s] == a[m];
      }
    }
  }

  lemma PreparedHolds(t: seq<Node>, u: seq<nat>, o: nat, p: nat, a: seq<nat>, w: seq<nat>)
    requires PathOf(t, u, o, p, a, w)
    ensures forall s, s' :: 0 <= s && s' == s + 1 && s' < |w| - 1 ==>
      Prepared(t, u, o)[w[s']].left == Some(w[s]) || Prepared(t, u, o)[w[s']].right == Some(w[s])
  {
    var P, n, m := Prepared(t, u, o), |t|, |a| - 1;
    forall s, s' | 0 <= s && s' == s + 1 && s' < |w| - 1 ensures P[w[s']].left == Some(w[s]) || P[w[s']].right == Some(w[s]) {
      if s' <= m {
        assert w[s] == a[s] && w[s'] == a[s'] && a[s'] < a[0] && 3 <= a[s];
        assert Ordered(t, a[s]) && Linked(t, 3, a[s]);
      } else {
        assert w[s] == a[m] && w[s'] == n;
      }
    }
  }

  /** A link of the prepared arena is one of the fresh slot's, to the second or third top,
      or a link of `t` other than the one to the outgroup. */
  lemma PreparedKid(t: seq<Node>, u: seq<nat>, o: nat, p: nat, a: seq<nat>, y: nat, c: nat)
    requires Setting(t, u, o, p, a)
    ensures IsKid(Prepared(t, u, o), y, c) ==>
      || (y == |t| && (c == u[1] || c == u[2]))
      || (y < |t| && IsKid(t, y, c) && c != o)
  {
    if y == p {
      assert Shaped(t, p);
    }
    if y < |t| && IsKid(t, y, c) {
      HeldBelowTops(t, u, y, c);
    }
  }

  /** A walked slot is held in the prepared arena only by the next slot of the walk, and
      never by the last one. */
  lemma PreparedHeld(t: seq<Node>, u: seq<nat>, o: nat, p: nat, a: seq<nat>, w: seq<nat>, s: nat, y: nat)
    requires PathOf(t, u, o, p, a, w) && s < |w|
    ensures IsKid(Prepared(t, u, o), y, w[s]) ==> s + 2 < |w| && y == w[s + 1]
  {
    var n, m := |t|, |a| - 1;
    PreparedKid(t, u, o, p, a, y, w[s]);
    if s < m {
      assert w[s] == a[s] && w[s + 1] == a[s + 1] && 3 <= a[s];
    }
    if y < n && IsKid(t, y, w[s]) {
      HeldBelowTops(t, u, y, w[s]);
    }
  }

  /** The prepared arena and walk meet the conditions of ReversedForest. */
  lemma PreparedReversible(t: seq<Node>, u: seq<nat>, o: nat)
    requires TopList(t, u) && |u| == 3 && 3 <= o < |t|
    ensures Reversible(Prepared(t, u, o), WalkPath(t, u, o), o)
  {
    var p, a := SettingHolds(t, u, o);
    var P, w, n, m := Prepared(t, u, o), WalkPath(t, u, o), |t|, |a| - 1;
    PathHolds(t, u, o, p, a);
    PreparedWalk(t, u, o, p, a);
    forall y | 0 <= y < |P| && y != w[0] ensures Shaped(P, y) {
      if y < n { assert Ordered(t, y); }
    }
    assert Shaped(t, p);
    forall y: nat, z: nat, c: nat | IsKid(P, y, c) && IsKid(P, z, c) ensures y == z {
      PreparedKid(t, u, o, p, a, y, c);
      PreparedKid(t, u, o, p, a, z, c);
      if y < n { HeldBelowTops(t, u, y, c); }
      if z < n { HeldBelowTops(t, u, z, c); }
    }
    forall s, y | 0 <= s < |w| && IsKid(P, y, w[s]) ensures s + 2 < |w| {
      PreparedHeld(t, u, o, p, a, w, s, y);
    }
    forall s, s', y | 0 <= s && s' == s + 1 && s' < |w| && IsKid(P, y, w[s]) ensures y == w[s'] {
      PreparedHeld(t, u, o, p, a, w, s, y);
    }
    forall s | 0 <= s < |w| ensures w[s] != o {
      if s <= m { assert a[s] <= p; }
    }
    forall y ensures !IsKid(P, y, o) {
      PreparedKid(t, u, o, p, a, y, o);
    }
  }

  /** The slot of the unroot list holding `o`, found as set_root's search loop finds it. */
  function TopIndex(u: seq<nat>, o: nat): (idx: nat)
    ensures idx <= |u| && (idx < |u| <==> o in u) && (idx < |u| ==> u[idx] == o) && o !in u[..idx]
  {
    if u == [] then 0
    else if u[0] == o then 0
    else
      assert u == [u[0]] + u[1..];
      assert u[..1 + TopIndex(u[1..], o)] == [u[0]] + u[1..][..TopIndex(u[1..], o)];
      1 + TopIndex(u[1..], o)
  }

  /** The two tops set_root joins under a fresh node when the outgroup is itself a top. */
  function OtherTops(u: seq<nat>, o: nat): seq<nat>
  {
    var idx := TopIndex(u, o);
    if idx < |u| then u[..idx] + u[idx + 1..] else u
  }

  /** tree_t::set_root(o) on a packed tree with unroot list `u` of three tops: the arena and
      unroot list it hands to make_flat_tree.  A top outgroup gets a fresh sibling node
      holding the other two tops; an outgroup below a parent `p` is cut from it, the old
      tops hang from a fresh node, and the links on the way from `p` to the first top are
      reversed, leaving the outgroup and `p` as the two tops. */
  ghost function Rerooted(t: seq<Node>, u: seq<nat>, o: nat): (res: (seq<Node>, seq<nat>))
    requires TopList(t, u) && |u| == 3 && o < |t|
    ensures HeapTree(res.0, res.1) && |res.0| == |t| + 1 && |res.1| == 2 && res.1[0] == o
  {
    if o < 3 then
      TopCase(t, u, o);
      var rest := OtherTops(u, o);
      (Adopted(t, rest[0], rest[1]), [o, |t|])
    else
      InnerCase(t, u, o);
      (Reversed(Prepared(t, u, o), WalkPath(t, u, o)), [o, t[o].parent.value])
  }

  /** A top outgroup: its two fellow tops, under a fresh node, leave a forest. */
  lemma TopCase(t: seq<Node>, u: seq<nat>, o: nat)
    requires TopList(t, u) && |u| == 3 && o < 3
    ensures var rest := OtherTops(u, o);
      && |rest| == 2 && rest[0] < |t| && rest[1] < |t| && rest[0] != rest[1]
      && o != rest[0] && o != rest[1]
      && HeapTree(Adopted(t, rest[0], rest[1]), [o, |t|])
  {
    PackedIsHeapTree(t, u);
    TopsListed(t, u);
    assert o in u;
    var rest := OtherTops(u, o);
    assert rest[0] in u && rest[1] in u;
    AdoptedForest(t, u, rest[0], rest[1], [o]);
  }

  /** An outgroup below a parent: the reversed walk leaves a forest with the outgroup and
      its old parent as roots. */
  lemma InnerCase(t: seq<Node>, u: seq<nat>, o: nat)
    requires TopList(t, u) && |u| == 3 && 3 <= o < |t|
    ensures t[o].parent.Some? && WalkPath(t, u, o)[0] == t[o].parent.value
    ensures Reversible(Prepared(t, u, o), WalkPath(t, u, o), o)
    ensures HeapTree(Reversed(Prepared(t, u, o), WalkPath(t, u, o)), [o, t[o].parent.value])
    ensures |Prepared(t, u, o)| == |t| + 1
  {
    var p, a := SettingHolds(t, u, o);
    PreparedReversible(t, u, o);
    ReversedForest(Prepared(t, u, o), WalkPath(t, u, o), o);
  }

  /** The inner case of set_root, with the facts its lemmas share. */
  lemma InnerFacts(t: seq<Node>, u: seq<nat>, o: nat) returns (p: nat, a: seq<nat>)
    requires TopList(t, u) && |u| == 3 && 3 <= o < |t|
    ensures PathOf(t, u, o, p, a, WalkPath(t, u, o)) && Distinct(WalkPath(t, u, o))
    ensures ReversedTo(Prepared(t, u, o), WalkPath(t, u, o), o, Reversed(Prepared(t, u, o), WalkPath(t, u, o)))
  {
    p, a := SettingHolds(t, u, o);
    PathHolds(t, u, o, p, a);
    InnerCase(t, u, o);
    ReversedSwaps(Prepared(t, u, o), WalkPath(t, u, o));
  }

  /** The arena set_root builds step by step before calling swap_parent is the prepared
      arena of the model: `h3` is the arena once the fresh node holds the three tops, and
      `h` the arena once the outgroup is cut from its parent. */
  lemma PreparedIs(t: seq<Node>, u: seq<nat>, o: nat, h3: seq<Node>, h: seq<Node>)
    requires TopList(t, u) && |u| == 3 && 3 <= o < |t|
    requires |h3| == |t| + 1 && h3[|t|] == Node("", 0.0, true, Some(u[1]), Some(u[2]), Some(u[0]))
    requires forall y :: 0 <= y < |t| ==> h3[y] == if y < 3 then t[y].(parent := Some(|t|)) else t[y]
    requires h3[o].parent.Some? && h3[o].parent.value < |h3|
    requires var p := h3[o].parent.value;
      var h4 := h3[o := h3[o].(parent := None)];
      var h5 := if h4[p].left != Some(o) then h4[p := h4[p].(left := h4[p].right, right := h4[p].left)] else h4;
      h == h5[p := h5[p].(left := None)]
    ensures h == Prepared(t, u, o)
  {
    var P := Prepared(t, u, o);
    assert Ordered(t, o) && Linked(t, 3, o);
    var n, p := |t|, t[o].parent.value;
    assert IsKid(t, p, o);
    forall y | 0 <= y < |h| ensures h[y] == P[y] {
    }
  }

  /** set_root when the outgroup `o` is a top: the search loop finds it in the unroot list,
      and a fresh node, built inline as node_factory would build it, takes the other two
      tops and becomes the outgroup's fellow top. */
  method RerootAtTop(t: seq<Node>, u: seq<nat>, o: nat) returns (h: seq<Node>, roots: seq<nat>)
    requires TopList(t, u) && |u| == 3 && o < |t| && t[o].parent == None
    ensures (h, roots) == Rerooted(t, u, o)
  {
    assert Ordered(t, o) && Linked(t, 3, o);
    var idx := 0;
    while idx < |u| && u[idx] != o
      invariant idx <= |u| && o !in u[..idx]
    {
      assert u[..idx + 1] == u[..idx] + [u[idx]];
      idx := idx + 1;
    }
    TopCase(t, u, o);
    assert idx == TopIndex(u, o);
    var others := u[..idx] + u[idx + 1..];
    var tmp;
    h, tmp := NodeFactory(t, others[0], others[1]);
    roots := [o, tmp];
  }

  /** set_root when the outgroup `o` hangs below a parent `p`: a fresh node takes the three
      tops, with the first as its parent; `o` is cut from `p`, which keeps its other child
      on the right; then swap_parent, called on `p` from nowhere, reverses the links up
      to the fresh node, and `o` and `p` become the two tops. */
  method RerootBelow(t: seq<Node>, u: seq<nat>, o: nat) returns (h: seq<Node>, roots: seq<nat>)
    requires TopList(t, u) && |u| == 3 && o < |t| && t[o].parent.Some?
    ensures (h, roots) == Rerooted(t, u, o)
  {
    assert Ordered(t, o) && Linked(t, 3, o);
    var p;
    h, p := Prepare(t, u, o);
    ghost var P, w := Prepared(t, u, o), WalkPath(t, u, o);
    ghost var q, a := InnerFacts(t, u, o);
    InnerCase(t, u, o);
    h := SwapParent(h, p, None, w, 0);
    ReversedSwaps(P, w);
    SwappedUnique(P, w, h, Reversed(P, w));
    roots := [o, p];
  }

  /** The part of set_root before swap_parent, for an outgroup `o` below a parent `p`: a
      fresh node takes the three tops, with the first as its parent, and all three name it
      as parent; `o` is cut from `p`, which keeps its other child on the right. */
  method Prepare(t: seq<Node>, u: seq<nat>, o: nat) returns (h: seq<Node>, p: nat)
    requires TopList(t, u) && |u| == 3 && 3 <= o < |t|
    ensures t[o].parent == Some(p) && h == Prepared(t, u, o)
  {
    assert Ordered(t, o) && Linked(t, 3, o);
    var n := |t|;
    h := t + [Node("", 0.0, true, Some(u[1]), Some(u[2]), Some(u[0]))];
    h := h[u[1] := h[u[1]].(parent := Some(n))];
    h := h[u[2] := h[u[2]].(parent := Some(n))];
    h := h[u[0] := h[u[0]].(parent := Some(n))];
    forall y | 0 <= y < n ensures h[y] == if y < 3 then t[y].(parent := Some(n)) else t[y] {
      if y < 3 {
        assert y == u[0] || y == u[1] || y == u[2];
      }
    }
    ghost var h3 := h;
    p := h[o].parent.value;
    h := h[o := h[o].(parent := None)];
    if h[p].left != Some(o) {
      h := h[p := h[p].(left := h[p].right, right := h[p].left)];
    }
    h := h[p := h[p].(left := None)];
    PreparedIs(t, u, o, h3, h);
  }

  /** set_root keeps every node's label, weight and flag; the fresh node is internal, with
      no label and zero weight. */
  lemma RerootedLabels(t: seq<Node>, u: seq<nat>, o: nat, x: nat)
    requires TopList(t, u) && |u| == 3 && o < |t| && x <= |t|
    ensures var r := Rerooted(t, u, o).0;
      && (x < |t| ==> r[x].name == t[x].name && r[x].weight == t[x].weight && r[x].children == t[x].children)
      && (x == |t| ==> r[x].name == "" && r[x].weight == 0.0 && r[x].children)
  {
    if o < 3 {
      TopCase(t, u, o);
    } else {
      InnerLabels(t, u, o, x);
    }
  }

  lemma InnerLabels(t: seq<Node>, u: seq<nat>, o: nat, x: nat)
    requires TopList(t, u) && |u| == 3 && 3 <= o < |t| && x <= |t|
    ensures var r := Reversed(Prepared(t, u, o), WalkPath(t, u, o));
      && (x < |t| ==> r[x].name == t[x].name && r[x].weight == t[x].weight && r[x].children == t[x].children)
      && (x == |t| ==> r[x].name == "" && r[x].weight == 0.0 && r[x].children)
  {
    var p, a := InnerFacts(t, u, o);
    ReversedLabels(Prepared(t, u, o), WalkPath(t, u, o), o, Reversed(Prepared(t, u, o), WalkPath(t, u, o)), x);
  }

  /** Every link of the tree but the one to the outgroup survives set_root, in one
      direction or the other. */
  lemma RerootedKeepsLinks(t: seq<Node>, u: seq<nat>, o: nat, y: nat, c: nat)
    requires TopList(t, u) && |u| == 3 && o < |t| && IsKid(t, y, c) && c != o
    ensures IsKid(Rerooted(t, u, o).0, y, c) || IsKid(Rerooted(t, u, o).0, c, y)
  {
    if o < 3 {
      TopCase(t, u, o);
      AdoptedKeeps(t, OtherTops(u, o)[0], OtherTops(u, o)[1], y, c);
    } else {
      InnerKeepsLinks(t, u, o, y, c);
    }
  }

  /** Adopting two nodes keeps every link. */
  lemma AdoptedKeeps(h: seq<Node>, l: nat, r: nat, y: nat, c: nat)
    requires l < |h| && r < |h| && IsKid(h, y, c)
    ensures IsKid(Adopted(h, l, r), y, c)
  {
  }

  lemma InnerKeepsLinks(t: seq<Node>, u: seq<nat>, o: nat, y: nat, c: nat)
    requires TopList(t, u) && |u| == 3 && 3 <= o < |t| && IsKid(t, y, c) && c != o
    ensures var r := Reversed(Prepared(t, u, o), WalkPath(t, u, o)); IsKid(r, y, c) || IsKid(r, c, y)
  {
    var p, a := InnerFacts(t, u, o);
    PreparedKeeps(t, u, o, p, a, y, c);
    ReversedKeeps(Prepared(t, u, o), WalkPath(t, u, o), o, Reversed(Prepared(t, u, o), WalkPath(t, u, o)), y, c);
  }

  /** A link of `t` other than the one to the outgroup is a link of the prepared arena. */
  lemma PreparedKeeps(t: seq<Node>, u: seq<nat>, o: nat, p: nat, a: seq<nat>, y: nat, c: nat)
    requires Setting(t, u, o, p, a) && IsKid(t, y, c) && c != o
    ensures IsKid(Prepared(t, u, o), y, c)
  {
  }

  /** Every link after set_root is a link of the tree, in one direction or the other, or
      joins the fresh node to one of the old tops. */
  lemma RerootedLinkFrom(t: seq<Node>, u: seq<nat>, o: nat, y: nat, c: nat)
    requires TopList(t, u) && |u| == 3 && o < |t| && IsKid(Rerooted(t, u, o).0, y, c)
    ensures || IsKid(t, y, c) || IsKid(t, c, y)
            || (y == |t| && c < 3) || (c == |t| && y < 3)
  {
    if o < 3 {
      TopCase(t, u, o);
      TopsListed(t, u);
      var rest := OtherTops(u, o);
      assert rest[0] in u && rest[1] in u;
    } else {
      InnerLinkFrom(t, u, o, y, c);
    }
  }

  lemma InnerLinkFrom(t: seq<Node>, u: seq<nat>, o: nat, y: nat, c: nat)
    requires TopList(t, u) && |u| == 3 && 3 <= o < |t| && IsKid(Reversed(Prepared(t, u, o), WalkPath(t, u, o)), y, c)
    ensures || IsKid(t, y, c) || IsKid(t, c, y)
            || (y == |t| && c < 3) || (c == |t| && y < 3)
  {
    var p, a := InnerFacts(t, u, o);
    var P, w := Prepared(t, u, o), WalkPath(t, u, o);
    var s := ReversedLink(P, w, o, Reversed(P, w), y, c);
    if s == -1 {
      PreparedKid(t, u, o, p, a, y, c);
    } else if s + 1 < |w| - 1 {
      assert P[w[s + 1]].left == Some(w[s]) || P[w[s + 1]].right == Some(w[s]);
      PreparedKid(t, u, o, p, a, c, y);
      if s + 1 < |a| {
        assert c == a[s + 1] && a[s + 1] <= p;
      }
    }
  }

  /** After set_root the fresh node is linked to every old top but the outgroup. */
  lemma RerootedJoinsTops(t: seq<Node>, u: seq<nat>, o: nat, j: nat)
    requires TopList(t, u) && |u| == 3 && o < |t| && j < 3 && u[j] != o
    ensures IsKid(Rerooted(t, u, o).0, |t|, u[j]) || IsKid(Rerooted(t, u, o).0, u[j], |t|)
  {
    if o < 3 {
      TopCase(t, u, o);
      TopsListed(t, u);
      var idx := TopIndex(u, o);
      assert u[idx] == o && idx < 3;
      assert u[j] == OtherTops(u, o)[0] || u[j] == OtherTops(u, o)[1];
    } else {
      InnerJoinsTops(t, u, o, j);
    }
  }

  lemma InnerJoinsTops(t: seq<Node>, u: seq<nat>, o: nat, j: nat)
    requires TopList(t, u) && |u| == 3 && 3 <= o < |t| && j < 3
    ensures var r := Reversed(Prepared(t, u, o), WalkPath(t, u, o)); IsKid(r, |t|, u[j]) || IsKid(r, u[j], |t|)
  {
    var p, a := InnerFacts(t, u, o);
    var P, w, m := Prepared(t, u, o), WalkPath(t, u, o), |a| - 1;
    if j > 0 {
      ReversedKeeps(P, w, o, Reversed(P, w), |t|, u[j]);
    } else if |w| == |a| + 2 {
      ReversedForward(P, w, o, Reversed(P, w), m + 1);
    } else {
      ReversedForward(P, w, o, Reversed(P, w), m);
    }
  }
}

=== FILE: tree.dfy ===
/**
 * tree_t of src/tree.cpp: a tree packed into one array of nodes, plus the list of its top
 * ("unroot") nodes.  A rooted tree has one top node; an unrooted tree has two or three,
 * joined by an implicit edge.
 */
module Trees {
  import opened Wrappers
  import opened Nodes
  import opened Flatten
  import opened Relink
  import opened Distances
  import opened Matrices
  import opened Queries
  import opened Weights
  import opened Sorting
  import Surgery

  /** At most two top slots exactly when no slot after the first two is parentless. */
  lemma RootedMeans(t: seq<Node>, unroot: seq<nat>)
    ensures TopList(t, unroot) ==> (|unroot| <= 2 <==> forall x :: 2 <= x < |t| ==> t[x].parent.Some?)
  {
    if TopList(t, unroot) {
      if |unroot| <= 2 {
        forall x | 2 <= x < |t| ensures t[x].parent.Some? {
          assert Ordered(t, x) && Linked(t, |unroot|, x);
        }
      } else {
        assert Ordered(t, 2) && Linked(t, |unroot|, 2);
      }
    }
  }

  /** `t` is the packed copy of the forest `h` hangs from `roots`, laid out in the order
      `order` (slot `j` copies heap node `order[j]`): labels, weights and flags are copied,
      the roots come first, and the children of a slot are two consecutive later slots that
      copy the heap node's children. */
  ghost predicate FlatOf(h: seq<Node>, roots: seq<nat>, t: seq<Node>, order: seq<nat>) {
    && |order| == |t| && WQueue(h, roots, order)
    && (forall j :: 0 <= j < |t| ==>
          t[j].name == h[order[j]].name && t[j].weight == h[order[j]].weight
          && t[j].children == h[order[j]].children)
    && (forall j :: 0 <= j < |t| && t[j].children ==>
          && t[j].left.Some? && t[j].right.Some? && t[j].right.value == t[j].left.value + 1
          && j < t[j].left.value && t[j].right.value < |t|
          && h[order[j]].left == Some(order[t[j].left.value])
          && h[order[j]].right == Some(order[t[j].right.value]))
  }

  class Tree {
    /** `_tree`: the packed nodes; `_unroot`: the top slots; `_size`: the node count. */
    var nodes: array<Node>
    var unroot: seq<nat>
    var size: nat

    ghost predicate Valid()
      reads this, nodes
    {
      size == nodes.Length && TopList(nodes[..], unroot)
    }

    /** tree_t(const vector<node_t*>&): packs the forest hanging from `roots`. */
    constructor FromRoots(h: seq<Node>, roots: seq<nat>)
      requires HeapTree(h, roots)
      ensures Valid() && unroot == Range(|roots|)
      ensures FlatOf(h, roots, nodes[..], DiscoveryOrder(h, roots))
    {
      nodes, unroot, size := new Node[0], [], 0;
      new;
      ghost var order := MakeFlatTree(h, roots);
    }

    /** tree_t(const tree_t&): packs a fresh copy of another packed tree. */
    constructor Copy(other: Tree)
      requires other.Valid()
      ensures Valid() && unroot == Range(|other.unroot|)
      ensures FlatOf(other.nodes[..], other.unroot, nodes[..], DiscoveryOrder(other.nodes[..], other.unroot))
    {
      nodes, unroot, size := new Node[0], [], 0;
      new;
      var h := other.nodes[..];
      PackedIsHeapTree(h, other.unroot);
      ghost var order := MakeFlatTree(h, other.unroot);
    }

    /** make_flat_tree: traverses the forest from `roots` and copies it into a new array in
        queue order, then relinks every copied node to its new slots. */
    method MakeFlatTree(h: seq<Node>, roots: seq<nat>) returns (ghost order: seq<nat>)
      requires HeapTree(h, roots)
      modifies this
      ensures Valid() && fresh(nodes) && unroot == Range(|roots|)
      ensures order == DiscoveryOrder(h, roots) && FlatOf(h, roots, nodes[..], order)
    {
      var queue, kid, up := Traverse(h, roots);
      order := queue;
      size := |queue|;
      var a, index := CopyQueue(h, queue);
      ghost var F := Final(h, roots, queue, kid, up);
      FinalPacked(h, roots, queue, kid, up);
      forall j | 0 <= j < a.Length ensures Unlinked(index, a[j], F[j]) {
        assert Shaped(h, queue[j]);
        CopiesUnlinked(h, roots, queue, kid, up, index, j);
      }
      forall r | 0 <= r < |roots| ensures roots[r] in index && index[roots[r]] == r && F[r].parent == None {
        assert queue[r] == roots[r] && r !in up;
      }
      unroot := RelinkTops(a, index, roots, F);
      nodes := a;
      FinalFlat(h, roots, queue, kid, up);
    }

    /** is_rooted: a tree with one or two top nodes counts as rooted, which in a packed
        tree means that every slot after the first two has a parent. */
    function IsRooted(): (r: bool)
      reads this, nodes
      ensures Valid() ==> (r <==> forall x :: 2 <= x < nodes.Length ==> nodes[x].parent.Some?)
    {
      RootedMeans(nodes[..], unroot);
      |unroot| <= 2
    }

    /** make_unrooted: while there are fewer than three top nodes, the first internal top is
        split off, its children joining the end of the unroot list; then the tree is
        packed again.  The source aborts unless the tree has more than two nodes and, with
        a single root, more than three. */
    method MakeUnrooted() returns (ghost order: seq<nat>)
      requires Valid() && IsRooted() && size > 2 && (|unroot| == 1 ==> size > 3)
      modifies this
      ensures Valid() && fresh(nodes) && unroot == Range(3)
      ensures HeapTree(old(nodes[..]), old(unroot))
      ensures var u := Surgery.Unrooted(old(nodes[..]), old(unroot));
        |u.1| == 3 && order == DiscoveryOrder(u.0, u.1) && FlatOf(u.0, u.1, nodes[..], order)
    {
      ghost var T, U := nodes[..], unroot;
      PackedIsHeapTree(T, U);
      Covered(T, |U|, 0);
      if |U| == 1 {
        Surgery.OneRootTwoBelow(T, U);
      } else {
        Surgery.TwoRootsOneInternal(T, U);
      }
      var h: seq<Node>, roots: seq<nat> := nodes[..], unroot;
      while |roots| != 3
        invariant Surgery.Unrooting(h, roots)
        invariant Surgery.Unrooted(h, roots) == Surgery.Unrooted(T, U)
        decreases 3 - |roots|
      {
        h, roots := Surgery.SplitFirstInternal(h, roots);
      }
      Surgery.UnrootedThree(T, U);
      order := MakeFlatTree(h, roots);
    }

    /** set_root(o): makes `o` one of the two top nodes of a tree with three.  With `o` a
        top node, a fresh node takes the other two as children; otherwise the fresh node
        takes the three old tops, `o` is cut from its parent `p`, and swap_parent reverses
        the links from `p` up to the fresh node.  The result is packed again with `o` and
        the fresh node, or `o` and `p`, as its tops. */
    method SetRoot(o: nat) returns (ghost order: seq<nat>)
      requires Valid() && |unroot| == 3 && o < size
      modifies this
      ensures Valid() && fresh(nodes) && unroot == Range(2)
      ensures var r := Surgery.Rerooted(old(nodes[..]), old(unroot), o);
        order == DiscoveryOrder(r.0, r.1) && FlatOf(r.0, r.1, nodes[..], order)
    {
      var t := nodes[..];
      var h: seq<Node>, roots: seq<nat>;
      if t[o].parent == None {
        h, roots := Surgery.RerootAtTop(t, unroot, o);
      } else {
        h, roots := Surgery.RerootBelow(t, unroot, o);
      }
      order := MakeFlatTree(h, roots);
    }

    /** set_outgroup(outgroup): a tree of more than two nodes is unrooted when rooted, and
        then rooted at the last slot carrying `outgroup`.  `ok` is false exactly when no slot
        carries it, where the source aborts; `o` is the slot found, and `mid` and `tops` the
        packed tree that was searched and its top list. */
    method SetOutgroup(outgroup: string) returns (ok: bool, o: nat, ghost mid: seq<Node>, ghost tops: seq<nat>)
      requires Valid() && |unroot| <= 3 && (|unroot| == 1 ==> size != 3)
      modifies this
      ensures Valid()
      ensures old(size) <= 2 ==> ok && nodes == old(nodes) && unroot == old(unroot) && size == old(size)
      ensures old(size) > 2 && |old(unroot)| == 3 ==> mid == old(nodes[..]) && tops == old(unroot)
      ensures old(size) > 2 && |old(unroot)| < 3 ==>
        (HeapTree(old(nodes[..]), old(unroot))
         && var u := Surgery.Unrooted(old(nodes[..]), old(unroot)); FlatOf(u.0, u.1, mid, DiscoveryOrder(u.0, u.1)))
      ensures old(size) > 2 ==> (ok <==> exists i :: 0 <= i < |mid| && mid[i].name == outgroup)
      ensures old(size) > 2 && ok ==>
        (&& o < |mid| && mid[o].name == outgroup
         && (forall j :: o < j < |mid| ==> mid[j].name != outgroup)
         && TopList(mid, tops) && |tops| == 3 && unroot == Range(2)
         && var r := Surgery.Rerooted(mid, tops, o); FlatOf(r.0, r.1, nodes[..], DiscoveryOrder(r.0, r.1)))
    {
      ok, o, mid, tops := true, 0, nodes[..], unroot;
      if size <= 2 {
        return;
      }
      if IsRooted() {
        ghost var order := MakeUnrooted();
        mid, tops := nodes[..], unroot;
      }
      var found := FindLabel(outgroup);
      if found.None? {
        ok := false;
        return;
      }
      o := found.value;
      ghost var order := SetRoot(o);
    }

    /** The search loop of set_outgroup: the last slot whose label is `name`, if any. */
    method FindLabel(name: string) returns (found: Option<nat>)
      requires Valid()
      ensures found.Some? ==> found.value < size && nodes[found.value].name == name
      ensures found.Some? ==> forall j :: found.value < j < size ==> nodes[j].name != name
      ensures found.None? ==> forall j :: 0 <= j < size ==> nodes[j].name != name
    {
      found := None;
      for i := 0 to size
        invariant found.Some? ==> found.value < i && nodes[found.value].name == name
        invariant found.Some? ==> forall j :: found.value < j < i ==> nodes[j].name != name
        invariant found.None? ==> forall j :: 0 <= j < i ==> nodes[j].name != name
      {
        if nodes[i].name == name {
          found := Some(i);
        }
      }
    }

    /** get_depth: the largest calc_max_depth over the top nodes, one less for a tree with a
        single root. */
    method GetDepth() returns (depth: nat)
      requires Valid()
      ensures depth == Height(nodes[..], unroot)
    {
      var t := nodes[..];
      TopIndices(t, unroot);
      var max := 0;
      for idx := 0 to |unroot|
        invariant max == Tallest(t, unroot, idx)
      {
        var tmp := MaxDepth(t, |unroot|, unroot[idx]);
        if max < tmp {
          max := tmp;
        }
      }
      if |unroot| == 1 {
        max := max - 1;
      }
      depth := max;
    }

    /** tree_t::set_weights(w_func, max): with `max` 0 the budget is the weight of as many
        levels as the tree is high; a single root is weighed with set_weights_as_root, any
        other tree from each top node at depth 0. */
    method SetWeights(w: nat -> real, max: real)
      requires Valid()
      modifies nodes
      ensures Valid() && SameShape(nodes[..], old(nodes[..]))
      ensures forall x :: 0 <= x < nodes.Length ==>
        nodes[x].weight == TreeAssigned(old(nodes[..]), unroot, w, Budget(old(nodes[..]), unroot, w, max), x)
    {
      var depth := GetDepth();
      var budget := max;
      if budget == 0.0 {
        budget := SumLevels(w, depth);
      }
      Weigh(nodes, unroot, w, budget);
    }

    /** tree_t::set_weights(w_vec, max): the weight of level `d` is w_vec[d], halved for
        level 0.  The vector must cover every level the walk consults. */
    method SetWeightsVector(wv: seq<real>, max: real)
      requires Valid() && |wv| >= (if max == 0.0 then Height(nodes[..], unroot) else Height(nodes[..], unroot) - 1)
      modifies nodes
      ensures Valid() && SameShape(nodes[..], old(nodes[..]))
      ensures forall x :: 0 <= x < nodes.Length ==>
        nodes[x].weight == TreeAssigned(old(nodes[..]), unroot, VectorLevels(wv), Budget(old(nodes[..]), unroot, VectorLevels(wv), max), x)
    {
      SetWeights(VectorLevels(wv), max);
    }

    /** tree_t::set_weights(w, max): every level weighs `w`, level 0 half of it. */
    method SetWeightsUniform(c: real, max: real)
      requires Valid()
      modifies nodes
      ensures Valid() && SameShape(nodes[..], old(nodes[..]))
      ensures forall x :: 0 <= x < nodes.Length ==>
        nodes[x].weight == TreeAssigned(old(nodes[..]), unroot, UniformLevels(c), Budget(old(nodes[..]), unroot, UniformLevels(c), max), x)
    {
      SetWeights(UniformLevels(c), max);
    }

    /** tree_t::set_weights_constant: every node reachable from the unroot list gets `c`. */
    method SetWeightsConstant(c: real)
      requires Valid()
      modifies nodes
      ensures Valid() && SameShape(nodes[..], old(nodes[..]))
      ensures forall x :: 0 <= x < nodes.Length ==> nodes[x].weight == c
    {
      ghost var T := nodes[..];
      var k := |unroot|;
      TopIndices(T, unroot);
      for j := 0 to k
        invariant forall x :: 0 <= x < nodes.Length ==>
          nodes[x] == if x in UnrootSlots(T, unroot, j) then T[x].(weight := c) else T[x]
      {
        ClearOfEarlierTops(nodes, T, unroot, j);
        Weights.SetWeightsConstant(nodes, T, k, unroot[j], c);
      }
      AllTops(T, unroot);
      WeightsOnly(nodes[..], T);
      ShapePacked(nodes[..], T, k);
    }

    /** clear_weights: every weight becomes 0. */
    method ClearWeights()
      requires Valid()
      modifies nodes
      ensures Valid() && SameShape(nodes[..], old(nodes[..]))
      ensures forall x :: 0 <= x < nodes.Length ==> nodes[x].weight == 0.0
    {
      SetWeightsConstant(0.0);
    }

    /** tree_t::sort: sorts the subtree of every top node, then orders the unroot list by
        the keys returned with an exchange sort. */
    method Sort()
      requires Valid() && |unroot| <= 3
      modifies this, nodes
      ensures nodes == old(nodes) && size == old(size) && Valid()
      ensures nodes[..] == SortedAll(old(nodes[..]), |old(unroot)|)
      ensures multiset(unroot) == multiset(old(unroot))
      ensures forall p, q :: 0 <= p < q < |unroot| ==>
        !Less(SortKey(nodes[..], |unroot|, unroot[q]), SortKey(nodes[..], |unroot|, unroot[p]))
    {
      ghost var T := nodes[..];
      var k := |unroot|;
      var keys := SortTops(nodes, T, unroot);
      ghost var K := seq(|T|, x requires 0 <= x < |T| => SortKey(T, k, x));
      var u;
      keys, u := ExchangeSort(keys, unroot, K);
      SortedPacked(T, k);
      forall j | 0 <= j < k ensures u[j] < k && SortKey(nodes[..], k, u[j]) == keys[j] {
        assert u[j] in multiset(unroot);
        SortedKeys(T, k, u[j]);
      }
      unroot := u;
    }

    /** to_string: prints the tree in Newick form; `fmt` formats the weights. */
    method ToString(fmt: real -> string) returns (s: string)
      requires Valid()
      ensures s == TreeString(nodes[..], unroot, fmt)
    {
      var t := nodes[..];
      s := if |unroot| > 1 then "(" else "";
      ghost var open := s;
      for i := 0 to |unroot|
        invariant s == open + Listing(t, unroot, fmt, i)
      {
        var part := NodeString(t, |unroot|, unroot[i], fmt);
        s := s + part;
        if i != |unroot| - 1 {
          s := s + ",";
        }
        AppendAssoc(open, Listing(t, unroot, fmt, i), part, if i != |unroot| - 1 then "," else "");
      }
      if |unroot| > 1 {
        s := s + ")";
      }
      if s != "" {
        s := s + ";";
      }
    }

    /** calc_distance_matrix(): numbers the leaves with make_label_map, fills a matrix with
        one row per label and returns a copy of it.  Leaf labels must be distinct: with a
        repeated label the numbers run past the row count. */
    method CalcDistanceMatrix() returns (d: seq<real>)
      requires Valid() && DistinctLeafLabels(nodes[..])
      ensures UpLinks(nodes[..]) && Holders(nodes[..]) && DistanceMatrix(nodes[..], d)
    {
      var t := nodes[..];
      PackedUpLinks(t, |unroot|);
      var lm := MakeLabelMap(t);
      RankNumbering(t, lm);
      var dists := new real[Square(|lm|)];
      FillDistanceMatrix(t, lm, dists);
      d := dists[..];
      MatrixByRank(t, lm, d);
    }
  }

  /** The copy loop of make_flat_tree: slot `j` of a fresh array receives a copy of the
      `j`-th queued node, and `index` maps every queued node to its slot. */
  method CopyQueue(h: seq<Node>, queue: seq<nat>) returns (a: array<Node>, index: map<nat, nat>)
    requires Distinct(queue) && forall j :: 0 <= j < |queue| ==> queue[j] < |h|
    ensures fresh(a) && a.Length == |queue|
    ensures forall j :: 0 <= j < |queue| ==> a[j] == h[queue[j]]
    ensures forall j :: 0 <= j < |queue| ==> queue[j] in index && index[queue[j]] == j
  {
    a := new Node[|queue|](_ => Blank);
    index := map[];
    for i := 0 to |queue|
      invariant forall j :: 0 <= j < i ==> a[j] == h[queue[j]]
      invariant forall j :: 0 <= j < i ==> queue[j] in index && index[queue[j]] == j
    {
      a[i] := h[queue[i]];
      index := index[queue[i] := i];
    }
  }

  /** The unroot loop of make_flat_tree: each top node is looked up, appended to the new
      unroot list and relinked with its subtree.  Afterwards the array is the packed tree `F`. */
  method RelinkTops(a: array<Node>, index: map<nat, nat>, roots: seq<nat>, ghost F: seq<Node>)
      returns (unroot: seq<nat>)
    requires Packed(F, |roots|) && a.Length == |F|
    requires forall y :: 0 <= y < a.Length ==> Unlinked(index, a[y], F[y])
    requires forall r :: 0 <= r < |roots| ==> roots[r] in index && index[roots[r]] == r && F[r].parent == None
    modifies a
    ensures a[..] == F && unroot == Range(|roots|)
  {
    ghost var k := |roots|;
    unroot := [];
    for r := 0 to |roots|
      invariant unroot == Range(r)
      invariant forall y :: 0 <= y < a.Length && y in Tops(F, k, r) ==> a[y] == F[y]
      invariant forall y :: 0 <= y < a.Length && y !in Tops(F, k, r) ==> Unlinked(index, a[y], F[y])
    {
      var top := index[roots[r]];
      unroot := unroot + [top];
      TopsFresh(F, k, r, r);
      UpdateChildren(a, index, top, None, F, k);
    }
    forall y | 0 <= y < a.Length ensures a[y] == F[y] {
      TopsAll(F, k, y);
    }
  }

  /** The relinked queue is the packed copy of the forest, in queue order. */
  lemma FinalFlat(h: seq<Node>, roots: seq<nat>, queue: seq<nat>, kid: map<nat, nat>, up: map<nat, nat>)
    requires HeapTree(h, roots) && Layout(h, roots, queue, kid, up)
    ensures FlatOf(h, roots, Final(h, roots, queue, kid, up), queue)
  {
    var F := Final(h, roots, queue, kid, up);
    forall j | 0 <= j < |F| && F[j].children
      ensures && F[j].left.Some? && F[j].right.Some? && F[j].right.value == F[j].left.value + 1
              && j < F[j].left.value && F[j].right.value < |F|
              && h[queue[j]].left == Some(queue[F[j].left.value])
              && h[queue[j]].right == Some(queue[F[j].right.value])
    {
      assert Shaped(h, queue[j]);
    }
  }

  /** The first loop of tree_t::sort: node_t::sort on each member of the unroot list, in
      order, collecting the keys. */
  method SortTops(a: array<Node>, ghost T: seq<Node>, unroot: seq<nat>) returns (keys: seq<string>)
    requires TopList(T, unroot) && a[..] == T
    modifies a
    ensures a[..] == SortedAll(T, |unroot|)
    ensures |keys| == |unroot| && forall j :: 0 <= j < |unroot| ==> unroot[j] < |T| && keys[j] == SortKey(T, |unroot|, unroot[j])
  {
    var k := |unroot|;
    TopIndices(T, unroot);
    keys := [];
    for j := 0 to k
      invariant |keys| == j && forall p :: 0 <= p < j ==> keys[p] == SortKey(T, k, unroot[p])
      invariant forall x :: 0 <= x < a.Length ==> a[x] == if x in UnrootSlots(T, unroot, j) then Sorted(T, k, x) else T[x]
    {
      ClearOfEarlierTops(a, T, unroot, j);
      var key := Sorting.Sort(a, T, k, unroot[j]);
      keys := keys + [key];
    }
    AllTops(T, unroot);
  }

  /** Keys and tops stay paired: `keys[j]` is the key `K` gives the top `u[j]`, and no
      top appears twice. */
  ghost predicate Paired(keys: seq<string>, u: seq<nat>, K: seq<string>) {
    |keys| == |u| && Distinct(u) && forall j :: 0 <= j < |u| ==> u[j] < |K| && keys[j] == K[u[j]]
  }

  /** The exchange loops of tree_t::sort: both lists are swapped together until the keys
      are in order. */
  method ExchangeSort(keys0: seq<string>, unroot: seq<nat>, ghost K: seq<string>) returns (keys: seq<string>, u: seq<nat>)
    requires Paired(keys0, unroot, K)
    ensures Paired(keys, u, K) && multiset(u) == multiset(unroot) && |u| == |unroot|
    ensures forall p, q :: 0 <= p < q < |u| ==> !Less(keys[q], keys[p])
  {
    keys, u := keys0, unroot;
    for i := 0 to |unroot|
      invariant Paired(keys, u, K) && multiset(u) == multiset(unroot) && |u| == |unroot|
      invariant forall p, q :: 0 <= p < i && p < q < |u| ==> !Less(keys[q], keys[p])
    {
      keys, u := ExchangeLeast(keys, u, K, i);
    }
  }

  /** One pass of the inner loop: brings a least key of `keys[i..]` to position `i`. */
  method ExchangeLeast(keys0: seq<string>, u0: seq<nat>, ghost K: seq<string>, i: nat) returns (keys: seq<string>, u: seq<nat>)
    requires Paired(keys0, u0, K) && i < |u0|
    requires forall p, q :: 0 <= p < i && p < q < |u0| ==> !Less(keys0[q], keys0[p])
    ensures Paired(keys, u, K) && multiset(u) == multiset(u0) && |u| == |u0|
    ensures forall p, q :: 0 <= p <= i && p < q < |u| ==> !Less(keys[q], keys[p])
  {
    keys, u := keys0, u0;
    for m := i to |u0|
      invariant Paired(keys, u, K) && multiset(u) == multiset(u0) && |u| == |u0|
      invariant forall p, q :: 0 <= p < i && p < q < |u| ==> !Less(keys[q], keys[p])
      invariant forall q :: i < q < m ==> !Less(keys[q], keys[i])
    {
      if m != i && Less(keys[m], keys[i]) {
        ExchangeStep(keys, u, K, i, m);
        keys := keys[i := keys[m]][m := keys[i]];
        u := u[i := u[m]][m := u[i]];
      }
    }
    LessIrreflexive(keys[i]);
  }

  /** Exchanging positions `i` and `m` in the inner loop keeps its invariants. */
  lemma ExchangeStep(keys: seq<string>, u: seq<nat>, K: seq<string>, i: nat, m: nat)
    requires Paired(keys, u, K) && i < m < |u| && Less(keys[m], keys[i])
    requires forall p, q :: 0 <= p < i && p < q < |u| ==> !Less(keys[q], keys[p])
    requires forall q :: i < q < m ==> !Less(keys[q], keys[i])
    ensures var keys', u' := keys[i := keys[m]][m := keys[i]], u[i := u[m]][m := u[i]];
      && Paired(keys', u', K) && multiset(u') == multiset(u)
      && (forall p, q :: 0 <= p < i && p < q < |u'| ==> !Less(keys'[q], keys'[p]))
      && (forall q :: i < q < m + 1 ==> !Less(keys'[q], keys'[i]))
  {
    var keys' := keys[i := keys[m]][m := keys[i]];
    ExchangeKeeps(keys, i, m);
    SwapPaired(keys, u, K, i, m);
    forall p, q | 0 <= p < i && p < q < |u| ensures !Less(keys'[q], keys'[p]) {
      assert keys'[p] == keys[p];
      if q == i {
        assert keys'[q] == keys[m];
      } else if q == m {
        assert keys'[q] == keys[i];
      } else {
        assert keys'[q] == keys[q];
      }
    }
  }

  /** Swapping two positions of both lists keeps them paired and `u` a permutation. */
  lemma SwapPaired(keys: seq<string>, u: seq<nat>, K: seq<string>, i: nat, m: nat)
    requires Paired(keys, u, K) && i < m < |u|
    ensures Paired(keys[i := keys[m]][m := keys[i]], u[i := u[m]][m := u[i]], K)
    ensures multiset(u[i := u[m]][m := u[i]]) == multiset(u)
  {
    var v := u[i := u[m]][m := u[i]];
    forall a, b | 0 <= a < b < |v| ensures v[a] != v[b] {
      var a', b' := if a == i then m else if a == m then i else a, if b == i then m else if b == m then i else b;
      assert v[a] == u[a'] && v[b] == u[b'] && a' != b';
    }
  }

  /** Exchanging a key with a smaller later one keeps the later keys no smaller than the
      one now in front. */
  lemma ExchangeKeeps(keys: seq<string>, i: nat, m: nat)
    requires i < m < |keys| && Less(keys[m], keys[i])
    ensures !Less(keys[i], keys[m])
    ensures forall q :: 0 <= q < |keys| && !Less(keys[q], keys[i]) ==> !Less(keys[q], keys[m])
  {
    LessAsymmetric(keys[m], keys[i]);
    forall q | 0 <= q < |keys| && !Less(keys[q], keys[i]) ensures !Less(keys[q], keys[m]) {
      if Less(keys[q], keys[m]) {
        LessTransitive(keys[q], keys[m], keys[i]);
      }
    }
  }

  /** The weighing step of tree_t::set_weights once the budget is known: a single root
      with set_weights_as_root, any other tree from each top node. */
  method Weigh(a: array<Node>, unroot: seq<nat>, w: nat -> real, budget: real)
    requires TopList(a[..], unroot)
    modifies a
    ensures TopList(a[..], unroot) && SameShape(a[..], old(a[..]))
    ensures forall x :: 0 <= x < a.Length ==> a[x].weight == TreeAssigned(old(a[..]), unroot, w, budget, x)
  {
    ghost var T := a[..];
    if |unroot| == 1 {
      WeighRoot(a, T, unroot, w, budget);
    } else {
      WeighTops(a, T, unroot, w, budget);
    }
    WeightsOnly(a[..], T);
    ShapePacked(a[..], T, |unroot|);
  }

  /** set_weights_as_root from the single root of a rooted tree. */
  method WeighRoot(a: array<Node>, ghost T: seq<Node>, unroot: seq<nat>, w: nat -> real, budget: real)
    requires TopList(T, unroot) && |unroot| == 1 && a[..] == T
    modifies a
    ensures forall x :: 0 <= x < a.Length ==> a[x] == T[x].(weight := TreeAssigned(T, unroot, w, budget, x))
  {
    TopIndices(T, unroot);
    Weights.SetWeightsAsRoot(a, T, 1, unroot[0], w, 0, budget);
    forall x | 0 <= x < a.Length ensures x in Sub(T, 1, unroot[0]) {
      assert TopAbove(T, unroot, x) == 0;
    }
  }

  /** set_weights at depth 0 from every member of the unroot list in turn. */
  method WeighTops(a: array<Node>, ghost T: seq<Node>, unroot: seq<nat>, w: nat -> real, budget: real)
    requires TopList(T, unroot) && |unroot| != 1 && a[..] == T
    modifies a
    ensures forall x :: 0 <= x < a.Length ==> a[x] == T[x].(weight := TreeAssigned(T, unroot, w, budget, x))
  {
    var k := |unroot|;
    TopIndices(T, unroot);
    for j := 0 to k
      invariant forall x :: 0 <= x < a.Length ==>
        a[x] == if x in UnrootSlots(T, unroot, j) then T[x].(weight := TreeAssigned(T, unroot, w, budget, x)) else T[x]
    {
      ClearOfEarlierTops(a, T, unroot, j);
      Weights.SetWeights(a, T, k, unroot[j], w, 0, budget);
      forall x | 0 <= x < a.Length && x in Sub(T, k, unroot[j]) ensures TopAbove(T, unroot, x) == j {
        TopUnique(T, unroot, j, x);
      }
    }
    AllTops(T, unroot);
  }

  /** The subtree of the `j`-th member of the unroot list is untouched by the walks from
      the members before it. */
  lemma ClearOfEarlierTops(a: array<Node>, T: seq<Node>, unroot: seq<nat>, j: nat)
    requires TopList(T, unroot) && j < |unroot| && a.Length == |T|
    ensures unroot[j] < |T|
    ensures forall x :: 0 <= x < a.Length && x in Sub(T, |unroot|, unroot[j]) ==> x !in UnrootSlots(T, unroot, j)
  {
    TopIndices(T, unroot);
    forall x | 0 <= x < a.Length && x in Sub(T, |unroot|, unroot[j]) ensures x !in UnrootSlots(T, unroot, j) {
      UnrootFresh(T, unroot, j, j, x);
    }
  }

  /** Every slot lies below some member of the unroot list. */
  lemma AllTops(T: seq<Node>, unroot: seq<nat>)
    requires TopList(T, unroot)
    ensures forall j :: 0 <= j < |unroot| ==> unroot[j] < |T|
    ensures forall x :: 0 <= x < |T| ==> x in UnrootSlots(T, unroot, |unroot|)
  {
    TopIndices(T, unroot);
    forall x | 0 <= x < |T| ensures x in UnrootSlots(T, unroot, |unroot|) {
      UnrootHas(T, unroot, |unroot|, TopAbove(T, unroot, x), x);
    }
  }

  /** Rewriting weights and nothing else keeps the shape. */
  lemma WeightsOnly(t: seq<Node>, T: seq<Node>)
    requires |t| == |T| && forall x :: 0 <= x < |t| ==> t[x] == T[x].(weight := t[x].weight)
    ensures SameShape(t, T)
  {
  }

  /** The level weights of tree_t::set_weights(w_vec, max): w_vec[d], halved at level 0.
      Levels past the vector are never consulted under the precondition of
      Tree.SetWeightsVector; they read as 0 here. */
  function VectorLevels(wv: seq<real>): nat -> real {
    (d: nat) => VectorLevel(wv, d)
  }

  function VectorLevel(wv: seq<real>, d: nat): real {
    if d >= |wv| then 0.0 else if d == 0 then wv[0] / 2.0 else wv[d]
  }

  /** The level weights of tree_t::set_weights(w, max): `w`, halved at level 0. */
  function UniformLevels(c: real): nat -> real {
    (d: nat) => if d == 0 then c / 2.0 else c
  }

  /** Under the precondition of Tree.SetWeightsVector the walk never reads a level past
      the vector: any level weights that agree with w_vec where it is defined give the
      same budget and the same weights. */
  lemma VectorCovers(T: seq<Node>, unroot: seq<nat>, wv: seq<real>, w: nat -> real, max: real, x: nat)
    requires TopList(T, unroot) && x < |T|
    requires |wv| >= (if max == 0.0 then Height(T, unroot) else Height(T, unroot) - 1)
    requires forall d: nat :: d < |wv| ==> w(d) == VectorLevel(wv, d)
    ensures forall j :: 0 <= j < |unroot| ==> unroot[j] < |T|
    ensures Budget(T, unroot, w, max) == Budget(T, unroot, VectorLevels(wv), max)
    ensures TreeAssigned(T, unroot, w, Budget(T, unroot, w, max), x)
         == TreeAssigned(T, unroot, VectorLevels(wv), Budget(T, unroot, VectorLevels(wv), max), x)
  {
    TopIndices(T, unroot);
    var v := VectorLevels(wv);
    if max == 0.0 {
      TotalAgrees(w, v, |wv|, Height(T, unroot));
    }
    TreeAssignedAgrees(T, unroot, w, v, Budget(T, unroot, w, max), x);
  }
}

=== FILE: weights.dfy ===
/**
 * Branch-weight assignment of src/tree.cpp on a packed tree: node_t::set_weights,
 * node_t::set_weights_as_root and node_t::set_weights_constant.
 *
 * The methods write weights into the node array in place.  A ghost copy `T` of the array
 * taken before the writes fixes the shape (the subtree sets and depths), since only
 * weights change.  A node met at depth `d` by set_weights gets `w(d)` when it is
 * internal and, when it is a leaf, whatever is left of the budget `max` after the
 * internal weights `w(0) .. w(d-1)` above it; so every downward path from the node where
 * the walk started to a leaf adds up to the budget.
 */
module Weights {
  import opened Nodes
  import opened Queries

  /** w(0) + ... + w(n - 1). */
  function Total(w: nat -> real, n: nat): real {
    if n == 0 then 0.0 else Total(w, n - 1) + w(n - 1)
  }

  /** The weight set_weights gives node `n` met at depth `d` with budget `max`. */
  function LevelWeight(n: Node, w: nat -> real, d: nat, max: real): real {
    if n.children then w(d) else max - Total(w, d)
  }

  /** `t` differs from `T` at most in the weights. */
  ghost predicate SameShape(t: seq<Node>, T: seq<Node>) {
    && |t| == |T|
    && forall x :: 0 <= x < |t| ==>
         && t[x].name == T[x].name && t[x].children == T[x].children
         && t[x].left == T[x].left && t[x].right == T[x].right && t[x].parent == T[x].parent
  }

  /** The weight loop of set_weights at a leaf: adds up the weights of the `depth` levels
      above it. */
  method SumLevels(w: nat -> real, depth: nat) returns (total: real)
    ensures total == Total(w, depth)
  {
    total := 0.0;
    for i := 0 to depth
      invariant total == Total(w, i)
    {
      total := total + w(i);
    }
  }

  /** The weight node_t::set_weights(w, d, max) started at `i` gives slot `x` of its
      subtree: the walk goes down from `i` one level at a time and `x` gets the weight of
      its level. */
  ghost function Assigned(T: seq<Node>, k: nat, i: nat, w: nat -> real, d: nat, max: real, x: nat): real
    requires Packed(T, k) && i < |T| && x in Sub(T, k, i)
    decreases |T| - i
  {
    assert Ordered(T, i);
    if x == i then LevelWeight(T[i], w, d, max)
    else if x in Sub(T, k, T[i].left.value) then Assigned(T, k, T[i].left.value, w, d + 1, max, x)
    else Assigned(T, k, T[i].right.value, w, d + 1, max, x)
  }

  /** node_t::set_weights(w, depth, max) on the subtree of `i`: the children first, at one
      level deeper, then the node itself. */
  method SetWeights(a: array<Node>, ghost T: seq<Node>, k: nat, i: nat, w: nat -> real, depth: nat, max: real)
    requires Packed(T, k) && i < |T| == a.Length
    requires forall x :: 0 <= x < a.Length && x in Sub(T, k, i) ==> a[x] == T[x]
    modifies a
    ensures forall x :: 0 <= x < a.Length ==>
      a[x] == if x in Sub(T, k, i) then T[x].(weight := Assigned(T, k, i, w, depth, max, x)) else old(a[x])
    decreases |T| - i
  {
    assert Ordered(T, i);
    if a[i].children {
      var l, r := a[i].left.value, a[i].right.value;
      KidsDisjoint(T, k, i);
      SetWeights(a, T, k, l, w, depth + 1, max);
      SetWeights(a, T, k, r, w, depth + 1, max);
      a[i] := a[i].(weight := w(depth));
    } else {
      var total := SumLevels(w, depth);
      a[i] := a[i].(weight := max - total);
    }
  }

  /** The weight node_t::set_weights_as_root(w, d, max) started at `i` gives slot `x`: 0 at
      `i`, and below it what set_weights started at the children with the same `d` gives. */
  ghost function AssignedAsRoot(T: seq<Node>, k: nat, i: nat, w: nat -> real, d: nat, max: real, x: nat): real
    requires Packed(T, k) && i < |T| && x in Sub(T, k, i)
  {
    assert Ordered(T, i);
    if x == i then 0.0
    else if x in Sub(T, k, T[i].left.value) then Assigned(T, k, T[i].left.value, w, d, max, x)
    else Assigned(T, k, T[i].right.value, w, d, max, x)
  }

  /** node_t::set_weights_as_root: the node gets weight 0 and its children are weighed
      from the same depth. */
  method SetWeightsAsRoot(a: array<Node>, ghost T: seq<Node>, k: nat, i: nat, w: nat -> real, depth: nat, max: real)
    requires Packed(T, k) && i < |T| == a.Length
    requires forall x :: 0 <= x < a.Length && x in Sub(T, k, i) ==> a[x] == T[x]
    modifies a
    ensures forall x :: 0 <= x < a.Length ==>
      a[x] == if x in Sub(T, k, i) then T[x].(weight := AssignedAsRoot(T, k, i, w, depth, max, x)) else old(a[x])
  {
    assert Ordered(T, i);
    a[i] := a[i].(weight := 0.0);
    if a[i].children {
      var l, r := a[i].left.value, a[i].right.value;
      KidsDisjoint(T, k, i);
      SetWeights(a, T, k, l, w, depth, max);
      SetWeights(a, T, k, r, w, depth, max);
    }
  }

  /** node_t::set_weights_constant: every node of the subtree gets weight `c`. */
  method SetWeightsConstant(a: array<Node>, ghost T: seq<Node>, k: nat, i: nat, c: real)
    requires Packed(T, k) && i < |T| == a.Length
    requires forall x :: 0 <= x < a.Length && x in Sub(T, k, i) ==> a[x] == T[x]
    modifies a
    ensures forall x :: 0 <= x < a.Length ==>
      a[x] == if x in Sub(T, k, i) then T[x].(weight := c) else old(a[x])
    decreases |T| - i
  {
    assert Ordered(T, i);
    a[i] := a[i].(weight := c);
    if a[i].children {
      var l, r := a[i].left.value, a[i].right.value;
      KidsDisjoint(T, k, i);
      SetWeightsConstant(a, T, k, l, c);
      SetWeightsConstant(a, T, k, r, c);
    }
  }

  // ---------------------------------------------------------------------------------------
  // Shape is kept
  // ---------------------------------------------------------------------------------------

  /** Changing weights keeps a packed tree packed. */
  lemma ShapePacked(t: seq<Node>, T: seq<Node>, k: nat)
    requires Packed(T, k) && SameShape(t, T)
    ensures Packed(t, k)
  {
    forall i | 0 <= i < |t| ensures Ordered(t, i) && Linked(t, k, i) {
      assert Ordered(T, i) && Linked(T, k, i);
      if T[i].children {
        assert Ordered(T, T[i].left.value) && Ordered(T, T[i].right.value);
      }
    }
  }

  /** Changing weights keeps every subtree. */
  lemma {:induction false} ShapeSub(t: seq<Node>, T: seq<Node>, k: nat, i: nat)
    requires Packed(T, k) && Packed(t, k) && SameShape(t, T) && i < |T|
    ensures Sub(t, k, i) == Sub(T, k, i)
    decreases |T| - i
  {
    assert Ordered(T, i);
    if T[i].children {
      ShapeSub(t, T, k, T[i].left.value);
      ShapeSub(t, T, k, T[i].right.value);
    }
  }

  // ---------------------------------------------------------------------------------------
  // Path sums
  // ---------------------------------------------------------------------------------------

  /** The weights on the downward path from `i` to `x`, both included. */
  ghost function PathWeight(t: seq<Node>, k: nat, i: nat, x: nat): real
    requires Packed(t, k) && i < |t| && x in Sub(t, k, i)
    decreases |t| - i
  {
    assert Ordered(t, i);
    t[i].weight
    + if x == i then 0.0
      else if x in Sub(t, k, t[i].left.value) then PathWeight(t, k, t[i].left.value, x)
      else PathWeight(t, k, t[i].right.value, x)
  }

  /** After set_weights(w, d, max) on the subtree of `i`, the weights from `i` down to any
      leaf add up to what is left of `max` after the `d` levels above `i`. */
  lemma {:induction false} LeafPathSum(t: seq<Node>, T: seq<Node>, k: nat, i: nat, w: nat -> real, d: nat, max: real, x: nat)
    requires Packed(T, k) && SameShape(t, T) && i < |T|
    requires forall y :: y in Sub(T, k, i) ==> y < |t| && t[y].weight == Assigned(T, k, i, w, d, max, y)
    requires x in Sub(T, k, i) && !T[x].children
    ensures Packed(t, k) && x in Sub(t, k, i) && PathWeight(t, k, i, x) == max - Total(w, d)
    decreases |T| - i
  {
    ShapePacked(t, T, k);
    ShapeSub(t, T, k, i);
    assert Ordered(T, i);
    if x != i {
      var l, r := T[i].left.value, T[i].right.value;
      KidsDisjoint(T, k, i);
      ShapeSub(t, T, k, l);
      ShapeSub(t, T, k, r);
      assert t[i].weight == w(d);
      if x in Sub(T, k, l) {
        ChildWeights(t, T, k, i, l, w, d, max);
        LeafPathSum(t, T, k, l, w, d + 1, max, x);
        assert PathWeight(t, k, i, x) == t[i].weight + PathWeight(t, k, l, x);
      } else {
        ChildWeights(t, T, k, i, r, w, d, max);
        LeafPathSum(t, T, k, r, w, d + 1, max, x);
        assert PathWeight(t, k, i, x) == t[i].weight + PathWeight(t, k, r, x);
      }
    }
  }

  /** The weights set_weights leaves under a node, seen from one of its children. */
  lemma ChildWeights(t: seq<Node>, T: seq<Node>, k: nat, i: nat, c: nat, w: nat -> real, d: nat, max: real)
    requires Packed(T, k) && i < |T| == |t| && IsKid(T, i, c)
    requires forall y :: y in Sub(T, k, i) ==> y < |t| && t[y].weight == Assigned(T, k, i, w, d, max, y)
    ensures c < |T|
    ensures forall y :: y in Sub(T, k, c) ==> y < |t| && t[y].weight == Assigned(T, k, c, w, d + 1, max, y)
  {
    assert Ordered(T, i);
    KidsDisjoint(T, k, i);
    forall y | y in Sub(T, k, c)
      ensures y < |t| && t[y].weight == Assigned(T, k, c, w, d + 1, max, y)
    {
      assert y in Sub(T, k, i);
    }
  }

  /** The walk of set_weights visits the node `x` of the subtree of `i` at depth `d` plus
      the number of links from `i` down to `x`. */
  lemma {:induction false} AssignedLevel(T: seq<Node>, k: nat, i: nat, w: nat -> real, d: nat, max: real, x: nat)
    requires Packed(T, k) && i < |T| && x in Sub(T, k, i)
    ensures x < |T| && Assigned(T, k, i, w, d, max, x) == LevelWeight(T[x], w, d + Depth(T, k, i, x), max)
    decreases |T| - i
  {
    SubBounds(T, k, i, x);
    assert Ordered(T, i);
    if x != i {
      var l, r := T[i].left.value, T[i].right.value;
      var c := if x in Sub(T, k, l) then l else r;
      AssignedLevel(T, k, c, w, d + 1, max, x);
      assert Depth(T, k, i, x) == 1 + Depth(T, k, c, x);
    }
  }

  /** The walk of set_weights from a node at depth `d` consults `w` only below the
      node's depth plus calc_max_depth less one: an internal node at depth `d + e` has a
      child below it, and a leaf at that depth adds up levels below `d + e`. */
  lemma {:induction false} LevelsUsed(T: seq<Node>, k: nat, i: nat, x: nat)
    requires Packed(T, k) && i < |T| && x in Sub(T, k, i)
    ensures x < |T| && (if T[x].children then Depth(T, k, i, x) + 2 else Depth(T, k, i, x) + 1) <= MaxDepth(T, k, i)
    decreases |T| - i
  {
    SubBounds(T, k, i, x);
    assert Ordered(T, i);
    if x == i {
      assert Depth(T, k, i, i) == 0;
      if T[i].children {
        assert MaxDepth(T, k, T[i].left.value) >= 1;
      }
    } else {
      var l, r := T[i].left.value, T[i].right.value;
      var c := if x in Sub(T, k, l) then l else r;
      LevelsUsed(T, k, c, x);
      assert Depth(T, k, i, x) == 1 + Depth(T, k, c, x);
    }
  }

  /** Two weight functions that agree on the levels below `n` give the same totals there. */
  lemma {:induction false} TotalAgrees(w1: nat -> real, w2: nat -> real, n: nat, m: nat)
    requires m <= n && forall d: nat :: d < n ==> w1(d) == w2(d)
    ensures Total(w1, m) == Total(w2, m)
  {
    if m > 0 {
      TotalAgrees(w1, w2, n, m - 1);
    }
  }

  // ---------------------------------------------------------------------------------------
  // Whole trees
  // ---------------------------------------------------------------------------------------

  /** The weight tree_t::set_weights(w, M) gives slot `x` once the budget is `M`: a tree
      with a single root is weighed from it with set_weights_as_root, any other tree from
      each top node with set_weights at depth 0. */
  ghost function TreeAssigned(T: seq<Node>, unroot: seq<nat>, w: nat -> real, M: real, x: nat): real
    requires TopList(T, unroot) && x < |T|
  {
    var j := TopAbove(T, unroot, x);
    if |unroot| == 1 then AssignedAsRoot(T, 1, unroot[j], w, 0, M, x)
    else Assigned(T, |unroot|, unroot[j], w, 0, M, x)
  }

  /** The budget tree_t::set_weights works with: `max`, or when `max` is 0 the weights of
      as many levels as the tree is high. */
  function Budget(T: seq<Node>, unroot: seq<nat>, w: nat -> real, max: real): real
    requires Packed(T, |unroot|) && forall j :: 0 <= j < |unroot| ==> unroot[j] < |T|
  {
    if max == 0.0 then Total(w, Height(T, unroot)) else max
  }

  /** After tree_t::set_weights with budget `M`, the weights on the path from a top node
      down to any leaf below it add up to `M`; a lone root leaf keeps weight 0. */
  lemma TreePathSum(t: seq<Node>, T: seq<Node>, unroot: seq<nat>, w: nat -> real, M: real, x: nat)
    requires TopList(T, unroot) && SameShape(t, T)
    requires forall y :: 0 <= y < |T| ==> t[y].weight == TreeAssigned(T, unroot, w, M, y)
    requires x < |T| && !T[x].children
    ensures var r := unroot[TopAbove(T, unroot, x)];
      && TopList(t, unroot) && x in Sub(t, |unroot|, r)
      && PathWeight(t, |unroot|, r, x) == if |unroot| == 1 && x == r then 0.0 else M
  {
    var k := |unroot|;
    var j := TopAbove(T, unroot, x);
    var r := unroot[j];
    ShapePacked(t, T, k);
    ShapeSub(t, T, k, r);
    forall y | y in Sub(T, k, r) ensures y < |t| {
      SubBounds(T, k, r, y);
    }
    if k == 1 {
      assert Ordered(T, r);
      if x != r {
        var l, rr := T[r].left.value, T[r].right.value;
        KidsDisjoint(T, k, r);
        var c := if x in Sub(T, k, l) then l else rr;
        forall y | y in Sub(T, k, c) ensures y < |t| && t[y].weight == Assigned(T, k, c, w, 0, M, y) {
          SubBounds(T, k, c, y);
          TopUnique(T, unroot, j, y);
        }
        LeafPathSum(t, T, k, c, w, 0, M, x);
        ShapeSub(t, T, k, l);
        ShapeSub(t, T, k, rr);
        TopUnique(T, unroot, j, r);
        assert PathWeight(t, k, r, x) == t[r].weight + PathWeight(t, k, c, x);
      }
    } else {
      forall y | y in Sub(T, k, r) ensures y < |t| && t[y].weight == Assigned(T, k, r, w, 0, M, y) {
        TopUnique(T, unroot, j, y);
      }
      LeafPathSum(t, T, k, r, w, 0, M, x);
    }
  }

  /** set_weights started at depth `d` from `i` consults the level weights only below
      `d + calc_max_depth(i) - 1`: two weight functions that agree there assign alike. */
  lemma {:induction false} AssignedAgrees(T: seq<Node>, k: nat, i: nat, w1: nat -> real, w2: nat -> real, n: nat, d: nat, M: real, x: nat)
    requires Packed(T, k) && i < |T| && x in Sub(T, k, i)
    requires d + MaxDepth(T, k, i) <= n + 1 && forall e: nat :: e < n ==> w1(e) == w2(e)
    ensures Assigned(T, k, i, w1, d, M, x) == Assigned(T, k, i, w2, d, M, x)
    decreases |T| - i
  {
    assert Ordered(T, i);
    if x == i {
      if !T[i].children {
        TotalAgrees(w1, w2, n, d);
      } else {
        assert MaxDepth(T, k, T[i].left.value) >= 1;
      }
    } else {
      var l, r := T[i].left.value, T[i].right.value;
      if x in Sub(T, k, l) {
        AssignedAgrees(T, k, l, w1, w2, n, d + 1, M, x);
      } else {
        AssignedAgrees(T, k, r, w1, w2, n, d + 1, M, x);
      }
    }
  }

  /** tree_t::set_weights consults the level weights only below the tree's height less
      one: two weight functions that agree there assign alike. */
  lemma TreeAssignedAgrees(T: seq<Node>, unroot: seq<nat>, w1: nat -> real, w2: nat -> real, M: real, x: nat)
    requires TopList(T, unroot) && x < |T|
    requires forall e: nat :: e + 1 < Height(T, unroot) ==> w1(e) == w2(e)
    ensures TreeAssigned(T, unroot, w1, M, x) == TreeAssigned(T, unroot, w2, M, x)
  {
    var k := |unroot|;
    var j := TopAbove(T, unroot, x);
    var r := unroot[j];
    HeightIsMax(T, unroot);
    var n: nat := if Height(T, unroot) == 0 then 0 else Height(T, unroot) - 1;
    if k == 1 {
      assert Ordered(T, r);
      if x != r {
        var l, rr := T[r].left.value, T[r].right.value;
        if x in Sub(T, k, l) {
          AssignedAgrees(T, k, l, w1, w2, n, 0, M, x);
        } else {
          AssignedAgrees(T, k, rr, w1, w2, n, 0, M, x);
        }
      }
    } else {
      AssignedAgrees(T, k, r, w1, w2, n, 0, M, x);
    }
  }
}

=== FILE: wrappers.dfy ===
/** The nullable-reference idiom of the source: a link is either absent or names an arena slot. */
module Wrappers {
  datatype Option<+T> = None | Some(value: T)
}
